=== FILE: README.md ===
# Binary search tree and trie visualizer — a Dafny model

The application lets a user build a binary search tree of integers or a trie
of words, and watch algorithms run on them step by step. This project models
its core logic:

- the binary search tree (`BinaryTree`, `TreeNode`): insertion that rejects
  duplicates, min/max, lookup, removal with the in-order successor, the
  minimum/maximum height and the balance test, and the four traversals;
- the balancing routine (`BalancedBinaryTree`). It reads the in-order values
  and rebuilds the tree by inserting the middle value of each range first,
  recording one step per insertion;
- the tree page's state (`BinaryTreeContext`):
  - the node handlers: add, remove selected, clear, select, and the initial
    load from a list of values;
  - the editor's balance button, which chooses the balancing
    demonstration and then runs the balancing handler of the render it was
    clicked in;
  - the step list each algorithm produces: the four traversals, the
    balancing, insertion and deletion demonstrations;
  - the animation controls: play, pause, timer tick, step forward and back;
- the trie (`Trie`, `TrieNode`): case-insensitive insert, search, prefix test,
  delete with pruning of empty branches, listing of every word and of the
  marked nodes under a prefix;
- the trie page's state (`TrieContext`):
  - add and remove a trimmed word;
  - clear, select a node, search a word, search a prefix;
  - the initial load.

A tree is `Tree = Nil | Node(left, data, right)`. The tree object adds a
`size` counter that the page code changes on its own, so the model keeps the
two apart. A trie node keeps its children as a sequence in the order the
source's `Map` iterates them: insertion order, with a deletion removing the
entry in place. The step descriptions are a `Message` datatype, one
constructor per message template, carrying the numbers the template
interpolates.

Modules:

- `Common`: `Option`, sortedness, `Without`, `Pow2`.
- `TreeNodes`, `BinaryTrees`, `TreeShape`, `Traversals`: the tree.
- `Messages`, `BalancedTrees`, `AlgorithmSteps`: balancing and step lists.
- `TreeContexts`: the tree page.
- `TrieNodes`, `TrieEdits`, `TrieWords`, `Tries`: the trie.
- `TrieContexts`: the trie page.

Paths below are relative to the repository root.

## Model

| member | source | states |
|---|---|---|
| TreeNodes.NewTreeNode | app/structures/binary-tree/TreeNode.ts:9-18 | a new node is a one-node search tree holding exactly its value |
| TreeNodes.BstIffSortedInOrder | app/structures/binary-tree/BinaryTree.ts:255-274 | the ordering invariant holds exactly when the in-order walk is strictly increasing |
| BinaryTrees.Add | app/structures/binary-tree/BinaryTree.ts:38-68 | on an ordered tree a value is rejected exactly when it is already present, and the tree is then unchanged; otherwise the value joins the contents as a new leaf, the size and node count grow by one, and the order is kept |
| BinaryTrees.SearchTree | app/structures/binary-tree/BinaryTree.ts:38-67 | the descent rejects a duplicate leaving the tree unchanged, exactly when the value is present in an ordered tree; otherwise the value is added as a new leaf node, one more node, and the order is kept |
| BinaryTrees.AddMultiple | app/structures/binary-tree/BinaryTree.ts:75-78 | adding no values changes nothing, and adding values keeps an ordered tree ordered |
| BinaryTrees.AddMultipleFacts | app/structures/binary-tree/BinaryTree.ts:75-78 | adding a list adds exactly its values to the contents, keeps the order, and keeps the size equal to the node count when it was |
| BinaryTrees.FindMin | app/structures/binary-tree/BinaryTree.ts:85-91 | the leftmost value is in the tree and, on an ordered tree, is no larger than any value in it |
| BinaryTrees.FindMax | app/structures/binary-tree/BinaryTree.ts:98-104 | the rightmost value is in the tree and, on an ordered tree, is no smaller than any value in it |
| BinaryTrees.FindMinIsFirst | app/structures/binary-tree/BinaryTree.ts:85-104 | the minimum is the first in-order value and the maximum is the last |
| BinaryTrees.IsPresent | app/structures/binary-tree/BinaryTree.ts:131-144 | on an ordered tree the search answers true exactly when the value is in the tree |
| BinaryTrees.Lookup | app/structures/binary-tree/BinaryTree.ts:111-124 | the node the comparison descent stops at is a subtree holding the value; on an ordered tree there is one exactly when the value is present |
| BinaryTrees.Find | app/structures/binary-tree/BinaryTree.ts:111-124 | a found node is a subtree holding the value; on an ordered tree a node is found exactly when the value is present; the loop reaches the node the descent names |
| BinaryTrees.RemoveNode | app/structures/binary-tree/BinaryTree.ts:151-200 | removal never adds values and leaves the tree alone when the value is absent |
| BinaryTrees.Remove | app/structures/binary-tree/BinaryTree.ts:151-200 | removing an absent value changes nothing; removal never adds values and changes the size by at most one |
| BinaryTrees.RemoveNodeInOrder | app/structures/binary-tree/BinaryTree.ts:151-200 | on an ordered tree, removing a present value deletes exactly that value from the in-order sequence and keeps the others in order |
| BinaryTrees.RemoveCorrect | app/structures/binary-tree/BinaryTree.ts:151-200 | removal keeps the order, removes exactly the value, decrements size and node count when the value was present, and changes nothing otherwise |
| BinaryTrees.RemoveTwoChildren | app/structures/binary-tree/BinaryTree.ts:170-176 | a node with two children is replaced by its in-order successor: the least value greater than it, which then occurs nowhere else |
| TreeShape.MinHeight | app/structures/binary-tree/BinaryTree.ts:217-228 | the shortest root-to-leaf path, -1 exactly for the empty tree |
| TreeShape.MaxHeight | app/structures/binary-tree/BinaryTree.ts:236-247 | the longest root-to-leaf path, -1 exactly for the empty tree |
| TreeShape.IsBalanced | app/structures/binary-tree/BinaryTree.ts:207-209 | a tree of at most two levels always passes the balance test |
| TreeShape.HeightBounds | app/structures/binary-tree/BinaryTree.ts:207-248 | the minimum height never exceeds the maximum; only the empty tree has height -1, and it and every tree of at most two levels count as balanced |
| TreeShape.HeightCounts | app/structures/binary-tree/BinaryTree.ts:217-247 | the first MinHeight+1 levels are full and nothing lies below level MaxHeight: 2^(MinHeight+1) <= nodes+1 <= 2^(MaxHeight+1) |
| Traversals.InOrderTraversal | app/structures/binary-tree/BinaryTree.ts:255-274 | the in-order walk lists every node once, and is strictly increasing exactly when the tree is ordered |
| Traversals.PreOrderTraversal | app/structures/binary-tree/BinaryTree.ts:281-298 | the pre-order walk starts at the root |
| Traversals.PostOrderTraversal | app/structures/binary-tree/BinaryTree.ts:305-322 | the post-order walk ends at the root |
| Traversals.InOrderWalkIsInOrder | app/structures/binary-tree/BinaryTree.ts:255-274 | the accumulating walk yields left subtree, node, right subtree |
| Traversals.PreOrderWalkIsPreOrder | app/structures/binary-tree/BinaryTree.ts:281-298 | the accumulating walk yields node, left subtree, right subtree |
| Traversals.PostOrderWalkIsPostOrder | app/structures/binary-tree/BinaryTree.ts:305-322 | the accumulating walk yields left subtree, right subtree, node |
| Traversals.DepthFirstPermutation | app/structures/binary-tree/BinaryTree.ts:281-322 | pre-order and post-order are permutations of the in-order walk, of the node count's length, holding exactly the tree's values |
| Traversals.PostOrderIsReversedMirrorPreOrder | app/structures/binary-tree/BinaryTree.ts:281-322 | post-order is the reversed pre-order of the mirrored tree |
| Traversals.PreOrderRebuilds | app/structures/binary-tree/BinaryTree.ts:75-78 | inserting an ordered tree's pre-order into an empty tree rebuilds that same tree |
| Traversals.LevelOrder | app/structures/binary-tree/BinaryTree.ts:329-350 | the queue-driven walk yields the values level by level, top to bottom and left to right, starting at the root |
| Traversals.LevelOrderIsByLevels | app/structures/binary-tree/BinaryTree.ts:329-350 | the queue-driven walk equals the concatenation of the tree's levels |
| Traversals.LevelOrderPermutation | app/structures/binary-tree/BinaryTree.ts:329-350 | the level-order walk is a permutation of the in-order walk |
| Traversals.BfsBag | app/structures/binary-tree/BinaryTree.ts:329-350 | the queue walk lists each value of the queued trees exactly once |
| BalancedTrees.Mid | app/structures/binary-tree/BalancedBinaryTree.ts:74 | the chosen middle index lies in the range and splits it into halves whose sizes differ by at most one, the larger on the right |
| BalancedTrees.BuildBalancedBST | app/structures/binary-tree/BalancedBinaryTree.ts:64-94 | the recursive build adds the range's values middle-first, pre-order over the ranges, and records one step per addition in that order |
| BalancedTrees.BuildRangeStep | app/structures/binary-tree/BalancedBinaryTree.ts:76-93 | one level of the build: add the middle value, then the left half's order, then the right half's |
| BalancedTrees.AddStepAt | app/structures/binary-tree/BalancedBinaryTree.ts:78-89 | the k-th recorded step names and highlights the k-th added value and shows the tree after the first k+1 additions |
| BalancedTrees.MidOrderPermutation | app/structures/binary-tree/BalancedBinaryTree.ts:64-94 | the middle-first order adds every value of the range exactly once |
| BalancedTrees.Balance | app/structures/binary-tree/BalancedBinaryTree.ts:18-51 | balancing records a start step, a sorted-values step over the in-order values, one step per node and a final step showing the rebuilt tree |
| BalancedTrees.BalanceResult | app/structures/binary-tree/BalancedBinaryTree.ts:18-51 | balancing an ordered tree yields an ordered, balanced tree with the same in-order values, whose size is its node count |
| BalancedTrees.BuildOrdered | app/structures/binary-tree/BalancedBinaryTree.ts:64-94 | the tree built from sorted distinct values is ordered, has one node per value and has them as its in-order walk |
| BalancedTrees.BuildPreOrder | app/structures/binary-tree/BalancedBinaryTree.ts:64-94 | the built tree's pre-order is the middle-first insertion order |
| BalancedTrees.AddsBuildTree | app/structures/binary-tree/BalancedBinaryTree.ts:64-94 | inserting sorted values middle-first into an empty tree yields exactly the built tree |
| BalancedTrees.BuildIsBalanced | app/structures/binary-tree/BalancedBinaryTree.ts:64-94 | the built tree's minimum and maximum heights differ by at most one |
| BalancedTrees.BuildHeights | app/structures/binary-tree/BalancedBinaryTree.ts:64-94 | for n values, MinHeight+1 is the floor of log2(n+1) and MaxHeight is the floor of log2(n) |
| BalancedTrees.BalanceStepAt | app/structures/binary-tree/BalancedBinaryTree.ts:85-89 | the step for the k-th insertion announces and highlights the k-th middle-first value, and its tree holds exactly the values added so far |
| BalancedTrees.BalanceHighlightsPreOrder | app/structures/binary-tree/BalancedBinaryTree.ts:85-89 | the insertion steps highlight the balanced tree's nodes in pre-order |
| BalancedTrees.BalanceStepsShape | app/structures/binary-tree/BalancedBinaryTree.ts:18-51 | the whole step list: two opening steps, the insertion steps, the closing step |
| AlgorithmSteps.GenerateSteps | app/context/BinaryTreeContext.tsx:223-655 | an empty tree or no algorithm gives no steps; every algorithm on a non-empty tree gives at least two |
| AlgorithmSteps.TraversalSteps | app/context/BinaryTreeContext.tsx:228-369 | a traversal animation has two more steps than visited values, starting with nothing visited and ending with every value visited |
| AlgorithmSteps.BalancingSteps | app/context/BinaryTreeContext.tsx:371-451 | the balancing demonstration has at least two steps and opens with the start step |
| AlgorithmSteps.SortedAnimation | app/context/BinaryTreeContext.tsx:396-451 | the unbalanced-tree animation has three more steps than values and opens with the start step |
| AlgorithmSteps.BuildSteps | app/context/BinaryTreeContext.tsx:411-442 | the recursive build records one step per value of the range |
| AlgorithmSteps.BuildLength | app/context/BinaryTreeContext.tsx:411-442 | for a tree's in-order values, the building steps and the middle-first order both have one entry per node |
| AlgorithmSteps.InsertionSteps | app/context/BinaryTreeContext.tsx:453-531 | the insertion demonstration has two steps per visited node plus four, and ends highlighting the value among the tree's values |
| AlgorithmSteps.DeletionSteps | app/context/BinaryTreeContext.tsx:533-646 | the deletion demonstration opens with its introduction; with no selection it has two steps, otherwise five or seven ending with the deleted value |
| AlgorithmSteps.VisitOrderCorrect | app/context/BinaryTreeContext.tsx:228-369 | each traversal animation visits the values in the order its tree method promises, each exactly once |
| AlgorithmSteps.TraversalAnimation | app/context/BinaryTreeContext.tsx:228-369 | a traversal shows a start step, one step per node that highlights it and adds it to the visited list, and a completion step listing the whole order |
| AlgorithmSteps.BalancingAnimation | app/context/BinaryTreeContext.tsx:371-451 | a balanced tree gives the already-balanced pair of steps; otherwise the steps match the balancing routine's descriptions and highlights one for one, between a sorted-values step and a completion step |
| AlgorithmSteps.UnbalancedShape | app/context/BinaryTreeContext.tsx:371-451 | an unbalanced tree's animation has one step per value between a sorted-values step and a completion step that shows the sorted values |
| AlgorithmSteps.UnbalancedAgrees | app/context/BinaryTreeContext.tsx:411-442 | the animation and the balancing routine have the same number of steps, and every insertion step of the two names and highlights the same value |
| AlgorithmSteps.BuildAgreesWithBalance | app/context/BinaryTreeContext.tsx:411-442 | the animation's insertion steps announce the same values in the same order as the balancing routine |
| AlgorithmSteps.AnimatedStepNames | app/context/BinaryTreeContext.tsx:411-442 | each insertion step of an unbalanced tree's animation names and highlights the next value in the balancing routine's insertion order |
| AlgorithmSteps.RecordedStepNames | app/structures/binary-tree/BalancedBinaryTree.ts:64-94 | each step recorded by the balancing routine names and highlights the value it adds, in its insertion order |
| AlgorithmSteps.BuildStepsAnnounce | app/context/BinaryTreeContext.tsx:411-442 | each insertion step of the animation highlights its value and extends the current recursion path with it |
| AlgorithmSteps.DemoValue | app/context/BinaryTreeContext.tsx:464-466 | the demonstration value, computed in exact arithmetic, lies between the minimum and the maximum, strictly below the maximum when they differ, and is the minimum for a random number of 0 |
| AlgorithmSteps.Descend | app/context/BinaryTreeContext.tsx:476-522 | the descent starts at the root, visits only tree values, and shows two steps per visited node plus one |
| AlgorithmSteps.DescentSteps | app/context/BinaryTreeContext.tsx:476-522 | each visited node gets a comparison step and a go-left or go-right step by the comparison, and the last step places the value on the correct side |
| AlgorithmSteps.DescentFollowsAdd | app/context/BinaryTreeContext.tsx:476-522 | for an absent value the animated descent is exactly the path `add` follows, ending where the value is inserted |
| AlgorithmSteps.DescentOnDuplicate | app/context/BinaryTreeContext.tsx:476-531 | for a value already present the animation still announces an insertion, though `add` rejects it |
| AlgorithmSteps.InsertionAnimation | app/context/BinaryTreeContext.tsx:453-531 | the insertion demonstration's length, first and last steps, and the value's bounds |
| AlgorithmSteps.DeletionAnimation | app/context/BinaryTreeContext.tsx:533-646 | with no selection the demonstration asks for one; otherwise the steps follow the selected node's case (leaf, one child, two children), as the removal itself does |
| AlgorithmSteps.TwoChildSuccessor | app/context/BinaryTreeContext.tsx:604-640 | the successor the deletion demonstration names is the least value of the right subtree, the least value greater than the deleted one |
| TreeContexts.Initial | app/context/BinaryTreeContext.tsx:136-141 | the page starts with an empty tree of size 0, no selection, no extremes, no algorithm, no steps, at step 0 and not playing |
| TreeContexts.AddNode | app/context/BinaryTreeContext.tsx:143-154 | the tree becomes exactly what `add` makes of it, so the value joins the contents; the in-order list, minimum, maximum and balance flag are recomputed from the new tree (the minimum is the first in-order value when ordered); every other field, selection and animation included, is unchanged |
| TreeContexts.RemoveSelectedNode | app/context/BinaryTreeContext.tsx:156-164 | without a selection nothing changes; otherwise the selected value is removed and the selection cleared, and min, max and the balance flag stay as they were |
| TreeContexts.ClearTree | app/context/BinaryTreeContext.tsx:166-172 | clearing empties the tree and its derived displays but keeps the size counter; the selected node, now outside the tree, is the same node with the same children |
| TreeContexts.InitFrom | app/context/BinaryTreeContext.tsx:175-208 | loading initial values throws exactly when there are none; otherwise the tree holds exactly those values, in order, with a fresh animation state; a selected node stays selected, outside the new tree, with the children it had |
| TreeContexts.Init | app/context/BinaryTreeContext.tsx:175-208 | the size after loading exceeds the node count by the size before it |
| TreeContexts.SelectedNode | app/context/BinaryTreeContext.tsx:774-776 | the selected node as it stands now: an attached selection is the subtree of the current tree at its value, a detached one the node as it was left |
| TreeContexts.Detach | app/context/BinaryTreeContext.tsx:166-172 | dropping the root leaves the selected node selected, with the children it had |
| TreeContexts.SelectNode | app/context/BinaryTreeContext.tsx:774-776 | selecting makes the given node the selected node and changes nothing else; it follows the tree exactly when it is the tree's own node for that value |
| TreeContexts.SelectionSeesAddedChild | app/context/BinaryTreeContext.tsx:143-154 | tree 5, select 5, add 7: the deletion demonstration reports that 5 has only a right child 7 and is replaced by it |
| TreeContexts.BalanceTree | app/context/BinaryTreeContext.tsx:779-835 | an empty or already balanced tree is left alone |
| TreeContexts.BalanceButton | app/components/binary-tree/editor-form/editor-form.tsx:122-128 | the balance button always leaves the balancing demonstration chosen, with no playback and no interval |
| TreeContexts.BalanceButtonSteps | app/context/BinaryTreeContext.tsx:779-835 | on an unbalanced tree the button rebuilds it balanced with the same values and shows step 0 of a consistent page; pressed from another algorithm, the steps are those of balancing the old tree (nodes+3 of them); pressed under the balancing demonstration, the two already-balanced steps |
| TreeContexts.BalanceFromRebuilds | app/context/BinaryTreeContext.tsx:779-835 | balancing an unbalanced ordered tree makes it balanced with the same in-order values and node count, refreshes the list, the balance flag, the minimum and the maximum from the rebuilt tree, grows the counter by the node count, and clears the selection |
| TreeContexts.BalanceFromSteps | app/context/BinaryTreeContext.tsx:829-834 | with the balancing demonstration seen by the handler, the steps become the two already-balanced steps, rewound; otherwise they stay; the algorithm, the playing flag, a running interval and what is shown are never touched |
| TreeContexts.BalanceTreeRebuilds | app/context/BinaryTreeContext.tsx:779-835 | balancing keeps the tree ordered, the list current, an attached selection in the tree and the in-order values, and leaves a balanced tree; the whole page stays consistent unless the balancing demonstration is playing |
| TreeContexts.UpdateCurrentStepState | app/context/BinaryTreeContext.tsx:658-669 | an in-range step shows its description and highlights; an out-of-range step changes nothing |
| TreeContexts.SetAlgorithm | app/context/BinaryTreeContext.tsx:671-701 | choosing an algorithm stops the interval and playback, rewinds to step 0, generates the steps for the current tree and selection (none for `none`, which also clears the display) and shows the first step; the tree and selection stay |
| TreeContexts.StartAnimation | app/context/BinaryTreeContext.tsx:703-737 | playback starts exactly when there is a later step, with an interval that captures the step count and steps of that moment; otherwise nothing changes |
| TreeContexts.PauseAnimation | app/context/BinaryTreeContext.tsx:739-746 | pausing stops the interval and playback and nothing else |
| TreeContexts.Tick | app/context/BinaryTreeContext.tsx:711-735 | without an interval nothing happens; otherwise the tick compares against the captured step count: below it, it advances one step and shows that step of the captured steps, changing nothing else; at it, it stops the interval on the captured last step |
| TreeContexts.TickIsStepForward | app/context/BinaryTreeContext.tsx:711-762 | while the interval plays the steps the page holds and a later step exists, a tick does exactly what stepping forward does |
| TreeContexts.StepForward | app/context/BinaryTreeContext.tsx:748-754 | stepping forward advances by one when a later step exists and otherwise does nothing |
| TreeContexts.StepBackward | app/context/BinaryTreeContext.tsx:756-762 | stepping back retreats by one when an earlier step exists and otherwise does nothing |
| TreeContexts.StepButtons | app/context/BinaryTreeContext.tsx:869-870 | on a navigable page each step button is enabled exactly when a step exists on that side, and pressing it moves exactly when it is enabled |
| TreeContexts.ActionKeepsConsistent | app/context/BinaryTreeContext.tsx:143-870 | every control keeps the tree ordered, the in-order list current, the step position in range, an attached selection in the tree, and the playing flag set exactly while an interval runs on the page's steps; two cases are excluded: balancing during a playing balancing demonstration (see Findings), and the mounting effect with no initial values, where `findMin` throws (see TreeContexts.InitFrom under Left out) |
| TreeContexts.ActionKeepsShown | app/context/BinaryTreeContext.tsx:143-870 | every control except balancing keeps the shown description and highlights those of the current step |
| TreeContexts.StepForwardThenBack | app/context/BinaryTreeContext.tsx:748-762 | a step forward followed by a step back restores the state |
| TreeContexts.StepBackThenForward | app/context/BinaryTreeContext.tsx:748-762 | a step back followed by a step forward restores the state |
| TreeContexts.PlayToStep | app/context/BinaryTreeContext.tsx:711-735 | while steps remain, each tick advances one step and shows it, with the interval, steps and tree unchanged |
| TreeContexts.PlayToEnd | app/context/BinaryTreeContext.tsx:711-735 | the tick after the last step stops the interval and playback on the last step, leaving the page navigable |
| TreeContexts.ClearTreeKeepsSize | app/context/BinaryTreeContext.tsx:166-172 | after clearing a non-empty tree the size counter is positive though no node remains |
| TreeContexts.ClearTreeCorrected | app/context/BinaryTreeContext.tsx:166-172 | clearing that also resets the counter leaves an empty tree of size zero |
| TreeContexts.InitCorrected | app/context/BinaryTreeContext.tsx:175-208 | loading into a fresh tree gives an ordered tree whose size is its node count |
| TreeContexts.BalanceTreeInflatesSize | app/context/BinaryTreeContext.tsx:779-835 | balancing an unbalanced tree doubles the size counter |
| TreeContexts.BalanceTreeInflatesSizeExample | app/context/BinaryTreeContext.tsx:779-835 | the chain 1, 2, 3 is unbalanced, and after balancing its size reads 6 with 3 nodes |
| TreeContexts.BalanceTreeLeavesStaleDisplay | app/context/BinaryTreeContext.tsx:829-834 | after balancing under the balancing demonstration, the step position is reset but the shown description is not that step's |
| TreeContexts.BalanceStrandsInterval | app/context/BinaryTreeContext.tsx:703-737 | balancing under a playing balancing demonstration leaves two rewound steps while the interval keeps its captured count and steps: the next tick shows the old step 1, the one after moves the position to 2, outside the page's steps |
| TreeContexts.BalanceDuringPlaybackExample | app/context/BinaryTreeContext.tsx:703-737 | the chain 1, 2, 3 with its six-step balancing demonstration playing: after balancing, two ticks leave the page with position 2 of 2 steps |
| TreeContexts.BalanceTreeCorrected | app/context/BinaryTreeContext.tsx:779-835 | an empty or balanced tree is left alone by the corrected balancing |
| TreeContexts.BalanceFromConsistent | app/context/BinaryTreeContext.tsx:779-835 | rebuilding an unbalanced consistent page from an empty start keeps the same values, balanced, counted from the start's counter; under the balancing demonstration the steps are rewound and the page is consistent once the interval is stopped, under any other the page stays consistent and shown |
| TreeContexts.ShowFirstKeepsConsistent | app/context/BinaryTreeContext.tsx:658-669 | showing the first step of a rewound consistent page keeps it consistent and makes the display that of the step |
| TreeContexts.BalanceTreeCorrectedValid | app/context/BinaryTreeContext.tsx:779-835 | balancing into a fresh tree, stopping the interval and showing the first regenerated step keeps the page consistent and shown, size equal to node count, the same in-order values and a balanced tree; under the balancing demonstration playback is stopped at step 0 |
| TreeContexts.ControlKeepsCount | app/context/BinaryTreeContext.tsx:143-164 | the controls other than clear, load and balance keep the size counter equal to the node count |
| TreeContexts.CorrectedActionKeepsCount | app/context/BinaryTreeContext.tsx:143-870 | with corrected clear, load and balance, every control keeps the page consistent, the display in step and the size counter equal to the node count |
| TrieNodes.NewTrieNode | app/structures/trie/TrieNode.ts:23-28 | a new node has the given character, no mark and no children |
| TrieNodes.LowerStringFacts | app/structures/trie/Trie.ts:29-47 | lowering yields a lower-case string, is idempotent and leaves lower-case strings alone |
| TrieNodes.IndexOf | app/structures/trie/Trie.ts:29-47 | the lookup finds the first child with the key, or reports that none has it |
| TrieNodes.Child | app/structures/trie/Trie.ts:145-157 | a child is found exactly when one has the key, and it carries that key |
| TrieEdits.InsertStored | app/structures/trie/Trie.ts:29-47 | after inserting w, the stored words are the old ones plus w |
| TrieEdits.InsertFresh | app/structures/trie/Trie.ts:29-47 | insertion reports a new word exactly when w was not stored |
| TrieEdits.InsertCount | app/structures/trie/Trie.ts:29-47 | the number of marks grows by one exactly when a new word was added |
| TrieEdits.InsertWellFormed | app/structures/trie/Trie.ts:29-47 | insertion keeps every child keyed by its single lower-case character, keys distinct |
| TrieEdits.InsertWord | app/structures/trie/Trie.ts:29-47 | the node keeps its key and afterwards ends a word or has children; for a non-empty path it keeps its own mark and never loses children; for the empty path it keeps its children |
| TrieEdits.DeleteRemoved | app/structures/trie/Trie.ts:168-196 | deletion removes a mark exactly when the word was stored |
| TrieEdits.DeleteStored | app/structures/trie/Trie.ts:168-196 | after deleting w, the stored words are the old ones without w |
| TrieEdits.DeleteCount | app/structures/trie/Trie.ts:168-196 | the number of marks falls by one exactly when a word was removed |
| TrieEdits.DeletePruned | app/structures/trie/Trie.ts:168-196 | deletion leaves no unmarked leaf below the root |
| TrieEdits.DeletePruneMeans | app/structures/trie/Trie.ts:168-196 | the helper asks its parent to drop a node exactly when a word was removed and no word remains at or below it |
| TrieEdits.DeleteWord | app/structures/trie/Trie.ts:168-196 | the node keeps its key; nothing changes and nothing is pruned when no word is removed; a node asked to be pruned ends no word and has no children; a node kept after a removal still ends a word or has children |
| TrieWords.WithPrefix | app/structures/trie/Trie.ts:125-138 | the filtered list holds exactly the listed words with the prefix |
| TrieWords.CollectMember | app/structures/trie/Trie.ts:206-216 | the collection holds exactly the prefix followed by a stored word |
| TrieWords.CollectDistinct | app/structures/trie/Trie.ts:206-216 | the collection repeats no word |
| TrieWords.CollectWords | app/structures/trie/Trie.ts:206-216 | the words under a node, its own first when it ends a word, one per mark |
| TrieWords.CollectAll | app/structures/trie/Trie.ts:206-216 | the words under a list of children, child by child, one per mark |
| TrieWords.FirstChildApart | app/structures/trie/Trie.ts:206-216 | a word collected under the first child is never collected under a later child, whose key differs |
| TrieWords.CollectNodes | app/structures/trie/Trie.ts:225-232 | the marked nodes strictly below a node, one per mark and each marked |
| TrieWords.CollectNodesAll | app/structures/trie/Trie.ts:225-232 | the marked nodes under a list of children, one per mark and each marked |
| TrieWords.MarkedFrom | app/structures/trie/Trie.ts:125-138 | the marked nodes at or below a node, the node itself first when it ends a word |
| TrieWords.PrefixListing | app/structures/trie/Trie.ts:125-138 | the words under a prefix node are exactly the listed words with that prefix |
| Tries.NewTrie | app/structures/trie/Trie.ts:20-23 | a new trie is valid and empty |
| Tries.Insert | app/structures/trie/Trie.ts:29-47 | an empty word changes nothing; a non-empty word is found afterwards; the size grows by at most one |
| Tries.FindNode | app/structures/trie/Trie.ts:145-157 | the empty path finds the root; a found node carries the lowered last character of the path |
| Tries.FindKey | app/structures/trie/Trie.ts:145-157 | the node a non-empty path reaches is keyed by the path's last character |
| Tries.Search | app/structures/trie/Trie.ts:63-68 | a word that is found is also a prefix that is found |
| Tries.StartsWith | app/structures/trie/Trie.ts:84-88 | in a pruned trie a found prefix leads to a node with at least one word below it |
| Tries.Delete | app/structures/trie/Trie.ts:95-99 | an empty word changes nothing and returns false; the size falls by one exactly when a non-empty stored word is deleted; a true result always comes with a removal |
| Tries.DeleteReportingRemoval | app/structures/trie/Trie.ts:90-99 | the corrected delete changes the trie as delete does and returns true exactly when the trie changed |
| Tries.GetAllWords | app/structures/trie/Trie.ts:114-118 | the listing has one word per mark, which in a valid trie is the size |
| Tries.FindNodesWithPrefix | app/structures/trie/Trie.ts:125-138 | an unknown prefix gives no nodes; otherwise one marked node per word under the prefix node |
| Tries.CaseInsensitive | app/structures/trie/Trie.ts:29-157 | words differing only in letter case are the same to every trie operation |
| Tries.InsertValid | app/structures/trie/Trie.ts:29-47 | insertion keeps the trie valid: unmarked root, well-formed, pruned, size equal to the word count |
| Tries.InsertSearch | app/structures/trie/Trie.ts:29-68 | after inserting a non-empty word, search finds exactly the old words and that word in any letter case |
| Tries.InsertSize | app/structures/trie/Trie.ts:29-47 | the size grows by one exactly when a new non-empty word is inserted |
| Tries.DeleteValid | app/structures/trie/Trie.ts:95-99 | deletion keeps the trie valid |
| Tries.DeleteSearch | app/structures/trie/Trie.ts:95-99 | after deleting a non-empty word, search finds exactly the old words other than that word |
| Tries.DeleteSize | app/structures/trie/Trie.ts:95-99 | the size falls by one exactly when a stored word is deleted |
| Tries.DeleteResultAsWritten | app/structures/trie/Trie.ts:95-99 | the returned flag is true exactly when the word was stored and was the only word |
| Tries.DeleteMisreportsRemoval | app/structures/trie/Trie.ts:93-99 | with "a" and "b" stored, deleting "a" removes it yet returns false |
| Tries.DeleteReportingRemovalCorrect | app/structures/trie/Trie.ts:93-99 | the corrected delete changes the trie identically and returns true exactly when the word was stored |
| Tries.GetAllWordsCorrect | app/structures/trie/Trie.ts:114-118 | the listing holds exactly the stored words, lower-case, without repeats, one per counted word |
| Tries.SearchListed | app/structures/trie/Trie.ts:63-68 | search succeeds exactly when the lowered word is listed |
| Tries.StartsWithListed | app/structures/trie/Trie.ts:84-88 | the prefix test succeeds exactly when some listed word starts with the lowered prefix |
| Tries.PrefixWords | app/structures/trie/Trie.ts:125-145 | the listed words with a prefix are those collected under the prefix node |
| Tries.FindNodesWithPrefixCorrect | app/structures/trie/Trie.ts:125-138 | the nodes found under a prefix are the marked end nodes of the listed words with that prefix, in listing order |
| TrieContexts.Trim | app/context/TrieContext.tsx:69-78 | trimming never lengthens the text |
| TrieContexts.TrimCorrect | app/context/TrieContext.tsx:69-78 | trimming drops exactly the leading and trailing white space and keeps the middle |
| TrieContexts.TrimBlank | app/context/TrieContext.tsx:69-78 | the trimmed text is empty exactly when the text is all white space |
| TrieContexts.TrimIdempotent | app/context/TrieContext.tsx:69-78 | trimming twice is trimming once |
| TrieContexts.InitialTrieState | app/context/TrieContext.tsx:61-66 | the page starts with an empty trie, no words, no selection and no results |
| TrieContexts.AddWord | app/context/TrieContext.tsx:69-78 | a blank word changes nothing; otherwise only the trie and the word list change |
| TrieContexts.AddWordCorrect | app/context/TrieContext.tsx:69-78 | adding keeps the list equal to the trie's words, and lists exactly the old words plus the lowered trimmed word when it is not blank |
| TrieContexts.RemoveWord | app/context/TrieContext.tsx:80-89 | a blank word changes nothing; otherwise only the trie and the word list change |
| TrieContexts.RemoveWordCorrect | app/context/TrieContext.tsx:80-89 | removing keeps the list equal to the trie's words, and lists exactly the old words without the lowered trimmed word |
| TrieContexts.ClearTrie | app/context/TrieContext.tsx:91-99 | clearing empties the trie, the list, the selection and both results, and keeps the search term |
| TrieContexts.ClearTrieCorrect | app/context/TrieContext.tsx:91-99 | after clearing the state is coherent and no word is found |
| TrieContexts.SelectNode | app/context/TrieContext.tsx:101-103 | selecting the selected node deselects it; selecting another node selects it; nothing else changes |
| TrieContexts.SelectNodeTwice | app/context/TrieContext.tsx:101-103 | selecting the same node twice restores the selection |
| TrieContexts.SearchWord | app/context/TrieContext.tsx:105-117 | a blank term clears the search result; otherwise a result is set and the prefix result cleared |
| TrieContexts.SearchWordCorrect | app/context/TrieContext.tsx:105-117 | the search result is true exactly when the lowered trimmed term is a listed word |
| TrieContexts.SearchPrefix | app/context/TrieContext.tsx:119-141 | a blank prefix clears the prefix result; otherwise a result is set and the word result cleared |
| TrieContexts.LoweredWithPrefix | app/context/TrieContext.tsx:129-136 | the filtered words are among the listed words, and never more of them |
| TrieContexts.LoweredWithPrefixOfLower | app/context/TrieContext.tsx:129-136 | on lower-case words, filtering by lowered word equals filtering by the word |
| TrieContexts.SearchPrefixCorrect | app/context/TrieContext.tsx:119-141 | the prefix result is the listed words starting with the lowered trimmed prefix, non-empty exactly when the trie's prefix test succeeds |
| TrieContexts.HandlersKeepCoherent | app/context/TrieContext.tsx:69-141 | every handler keeps the trie valid and the word list equal to the trie's words |
| TrieContexts.AddWords | app/context/TrieContext.tsx:144-147 | adding no words changes nothing; only the trie and the list change, and unless nothing changed the list is the trie's words |
| TrieContexts.MountTrie | app/context/TrieContext.tsx:144-147 | the mounted page lists the trie's words, with no selection, no search term and no results |
| TrieContexts.AddWordsCorrect | app/context/TrieContext.tsx:144-147 | adding a list lists exactly the old words plus each non-blank entry, trimmed and lowered |
| TrieContexts.MountTrieCorrect | app/context/TrieContext.tsx:144-147 | loading the initial words yields a coherent state listing exactly their non-blank entries, trimmed and lowered |

## Left out

- Layout: node coordinates, the layout helpers and the SVG rendering work in floating point and only place nodes on screen.
- Parent pointers of the tree nodes: they are never read by the modelled logic.
- React plumbing: hooks, refs, memoisation and re-render timing. Each handler is a function from state to state, and an effect that runs after a change is applied in the same step.
- The animation timer: `setInterval` and its period are left out. A tick is an explicit action and playback is a sequence of ticks. The interval itself is kept, as the step count and steps its callback captured.
- The balance button's 10 ms `setTimeout`: the balancing handler runs right after the algorithm is chosen, with no other action in between.
- `structuredClone` of the tree in the step lists: a copy of an immutable value is the value itself.
- `Math.random` in the insertion demonstration becomes a parameter in [0, 1).
- The speed setting and the plain setters (search term, animation speed) only store their argument.
- TrieNodes.LowerString: lowers only the ASCII letters A to Z, where `toLowerCase` follows full Unicode case mapping.
- Trie characters: a word is a sequence of Dafny characters, one node each. The source indexes a JavaScript string by UTF-16 code unit (app/structures/trie/Trie.ts:34-35), so a character outside the Basic Multilingual Plane becomes two nodes there.
- TrieContexts.SelectNode: a node is identified by its path from the root, where the source compares nodes by reference. The two differ once a word is removed and its nodes are created again: the source then holds a node no longer in the trie and selecting the new node at that path selects it, where the model deselects.
- TreeContexts.RemoveSelectedNode: the stale minimum, maximum and balance flag are kept as the source keeps them.
- TreeContexts.ActionKeepsConsistent: promises nothing in two cases. The first is `balanceTree()` while the balancing demonstration plays, because the source itself leaves the interval running past the regenerated steps there (see Findings); the corrected page, `CorrectedActionKeepsCount`, has no such exception. The second is the mounting effect with an empty initial list, because `findMin` throws on the emptied tree before the in-order values are refreshed (app/context/BinaryTreeContext.tsx:175-208, see the TreeContexts.InitFrom line below); `CorrectedActionKeepsCount` excludes it too.
- AlgorithmSteps.DemoValue: computes `Math.floor(Math.random() * (max - min) + min)` in exact real arithmetic, so the value stays below the maximum when the two differ. In IEEE double arithmetic the sum can round up to the maximum itself, for instance with a random number of 1 - 2^-52, minimum 100 and maximum 150; the source then animates the insertion of a value already present. The model does not produce that value from `DemoValue`, though the animation it would give is the one `AlgorithmSteps.DescentOnDuplicate` describes for any present value.
- TreeContexts.InitFrom: an empty initial list makes `findMin` fail on an empty tree; the model reports that as `threw` instead of running on.
- `calculateNodeCoordinates` after loading the initial trie words is layout, and left out.
- Integers are unbounded. The model assumes every stored value is a finite integer within JavaScript's safe range (below 2^53 in magnitude), where a JavaScript number and a Dafny `int` agree.
- Non-numeric input: the forms read values with `Number.parseInt` (app/components/binary-tree-form/binary-tree-form.tsx:13, app/components/binary-tree/editor-form/editor-form.tsx:49), which gives NaN for blank or non-numeric text. `add(NaN)` on an empty tree stores NaN as the root (app/structures/binary-tree/BinaryTree.ts:38-43), after which every comparison fails and every later addition is rejected (app/structures/binary-tree/BinaryTree.ts:61-63). NaN is not modelled.
- Precision: values beyond 2^53 in magnitude collapse into equal JavaScript numbers, so distinct typed values can be rejected as duplicates. This is not modelled.

## Findings

| source | as written | input that shows it | evidently intended | confidence | as-written member | corrected member |
|---|---|---|---|---|---|---|
| app/context/BinaryTreeContext.tsx:166-172 | clearing sets the root to null but keeps the size counter | clear a tree holding 5 and 3: size stays 2 with no nodes | the size returns to 0 | not executed | TreeContexts.ClearTreeKeepsSize | TreeContexts.ClearTreeCorrected |
| app/context/BinaryTreeContext.tsx:175-208 | loading the initial values reuses the existing counter after nulling the root | load [5, 3] into a tree whose size reads 2: size reads 4 with 2 nodes | the size equals the number of loaded values | not executed | TreeContexts.Init | TreeContexts.InitCorrected |
| app/context/BinaryTreeContext.tsx:779-835 | balancing nulls the root and re-adds every value, so every value is counted twice | the chain 1, 2, 3: size reads 6 with 3 nodes | the size stays the node count | not executed | TreeContexts.BalanceTreeInflatesSizeExample | TreeContexts.BalanceTreeCorrectedValid |
| app/context/BinaryTreeContext.tsx:829-834 | after balancing under the balancing demonstration, the steps and position are reset but the shown description and highlights are not | unbalanced chain 1, 2, 3, demonstration on its third step: position 0 while the third step's text is shown | the first regenerated step is shown | not executed; the page's only caller, the balance button, chooses the algorithm first and so shows step 0, whose text the regenerated step 0 shares, so only a direct `balanceTree()` call reaches it | TreeContexts.BalanceTreeLeavesStaleDisplay | TreeContexts.BalanceTreeCorrectedValid |
| app/context/BinaryTreeContext.tsx:703-737 | the running interval compares against the step count captured when playback started and shows the steps captured then; `balanceTree` (lines 829-834) replaces the steps and rewinds without stopping it | the chain 1, 2, 3 with its six-step balancing demonstration playing, then `balanceTree()`: two steps remain, and two ticks later the position is 2 of 2 steps | balancing stops playback and shows the first regenerated step, as choosing an algorithm does | not executed; the page's button chooses the algorithm first, which stops the interval, so only a direct `balanceTree()` call reaches it | TreeContexts.BalanceDuringPlaybackExample | TreeContexts.BalanceTreeCorrectedValid |
| app/structures/trie/Trie.ts:93-99 | `delete` returns the root-pruning flag of the recursive helper | with "a" and "b" stored, deleting "a" removes it and returns false | true exactly when the word was removed, as its documentation says | not executed | Tries.DeleteMisreportsRemoval | Tries.DeleteReportingRemovalCorrect |

=== FILE: algorithm_steps.dfy ===
/** `generateAlgorithmSteps` (BinaryTreeContext.tsx): the list of animation
    steps the visualizer plays for the chosen algorithm. Each step carries a
    description, the values shown as visited so far, and the values
    highlighted in it. Nothing here changes the tree. */
module AlgorithmSteps {
  import opened Common
  import opened TreeNodes
  import opened BinaryTrees
  import opened TreeShape
  import opened Traversals
  import opened BalancedTrees
  import opened Messages

  /** `AlgorithmType` (types.ts): no algorithm, one of the four traversals,
      or one of the three operation demonstrations. */
  datatype Algorithm = NoAlgorithm | Traverse(order: Order) | BalancingDemo | InsertionDemo | DeletionDemo

  /** A value `Math.random()` returns. */
  type Random = u: real | 0.0 <= u < 1.0

  /** `AlgorithmStep`: what the step says, the values drawn as visited, and
      the values drawn highlighted. */
  datatype Step = Step(description: Message, nodeIds: seq<int>, highlighted: seq<int>)

  /** The steps for `alg` on `bt`. `selected` is the selected node, if
      any; `u` is the random number the insertion demo draws. An empty
      tree, and the `none` choice the `switch` has no case for, give no
      steps. */
  function GenerateSteps(bt: BinaryTree, alg: Algorithm, selected: Option<NodeTree>, u: Random): (r: seq<Step>)
    ensures bt.root.Nil? || alg.NoAlgorithm? ==> r == []
    ensures bt.root.Node? && !alg.NoAlgorithm? ==> |r| >= 2
  {
    if bt.root.Nil? then []
    else
      match alg
      case NoAlgorithm => []
      case Traverse(o) => TraversalSteps(o, VisitOrder(bt, o))
      case BalancingDemo => BalancingSteps(bt)
      case InsertionDemo => InsertionSteps(bt.root, DemoValue(FindMin(bt.root), FindMax(bt.root), u))
      case DeletionDemo => DeletionSteps(selected)
  }

  // ---------------------------------------------------------------------
  // Traversals
  // ---------------------------------------------------------------------

  /** The visiting order of each traversal case: `inOrder()` of the tree,
      the two local recursive walks, and the local queue loop. */
  function VisitOrder(bt: BinaryTree, o: Order): seq<int> {
    match o
    case InOrderWalk => InOrderTraversal(bt)
    case PreOrderWalk => PreOrder(bt.root)
    case PostOrderWalk => PostOrder(bt.root)
    case LevelOrderWalk => Bfs([bt.root])
  }

  /** An opening step, one step per visited value, and a closing step. */
  function TraversalSteps(o: Order, visit: seq<int>): (r: seq<Step>)
    ensures |r| == |visit| + 2
    ensures r[0].nodeIds == [] && r[|r| - 1].nodeIds == visit
  {
    [Step(StartTraversal(o), [], [])]
    + seq(|visit|, i requires 0 <= i < |visit| => Step(Visiting(visit[i]), visit[..i + 1], [visit[i]]))
    + [Step(TraversalComplete(o), visit, [])]
  }

  /** The steps for a visiting order: each middle step announces one
      value and adds it to the values drawn so far, and the last step keeps
      what the last visit showed. */
  lemma TraversalStepsGrow(o: Order, visit: seq<int>)
    ensures var r, n := TraversalSteps(o, visit), |visit|;
      && r[0] == Step(StartTraversal(o), [], [])
      && (forall k :: 1 <= k <= n ==>
            && |r[k].highlighted| == 1
            && r[k].description == Visiting(r[k].highlighted[0])
            && r[k].nodeIds == r[k - 1].nodeIds + r[k].highlighted)
      && r[n + 1] == Step(TraversalComplete(o), r[n].nodeIds, [])
      && r[n + 1].nodeIds == visit
  {
    var r := TraversalSteps(o, visit);
    var n := |visit|;
    forall k | 1 <= k <= n
      ensures r[k].nodeIds == r[k - 1].nodeIds + r[k].highlighted
    {
      if k == 1 {
        assert visit[..1] == [visit[0]];
      } else {
        assert visit[..k] == visit[..k - 1] + [visit[k - 1]];
      }
    }
    if n > 0 {
      assert visit[..n] == visit;
    }
  }

  /** The sequence each traversal promises: the tree's own `inOrder()`,
      `preOrder()` and `postOrder()`, and the tree read level by level. */
  function Promised(bt: BinaryTree, o: Order): seq<int> {
    match o
    case InOrderWalk => InOrderTraversal(bt)
    case PreOrderWalk => PreOrderTraversal(bt)
    case PostOrderWalk => PostOrderTraversal(bt)
    case LevelOrderWalk => ByLevels(bt.root)
  }

  /** Each visiting order is the promised one and holds every value of
      the tree exactly once. */
  lemma VisitOrderCorrect(bt: BinaryTree, o: Order)
    ensures VisitOrder(bt, o) == Promised(bt, o)
    ensures multiset(VisitOrder(bt, o)) == multiset(InOrder(bt.root))
    ensures |VisitOrder(bt, o)| == NodeCount(bt.root)
  {
    InOrderFacts(bt.root);
    DepthFirstPermutation(bt.root);
    LevelOrderPermutation(bt.root);
    LevelOrderIsByLevels(bt.root);
  }

  /** A traversal animation on a non-empty tree: each middle step visits
      one value, announces it, and adds it to the values drawn as visited;
      the last step keeps what the last visit showed. What the animation
      ends on is what the tree's own traversal returns (for level order,
      the tree read level by level), and it holds every value of the tree
      exactly once. */
  lemma TraversalAnimation(bt: BinaryTree, o: Order, selected: Option<NodeTree>, u: Random)
    requires bt.root.Node?
    ensures var r := GenerateSteps(bt, Traverse(o), selected, u);
      var n := NodeCount(bt.root);
      && |r| == n + 2
      && r[0] == Step(StartTraversal(o), [], [])
      && (forall k :: 1 <= k <= n ==>
            && |r[k].highlighted| == 1
            && r[k].description == Visiting(r[k].highlighted[0])
            && r[k].nodeIds == r[k - 1].nodeIds + r[k].highlighted)
      && r[n + 1] == Step(TraversalComplete(o), r[n].nodeIds, [])
      && r[n + 1].nodeIds == Promised(bt, o)
      && multiset(r[n + 1].nodeIds) == multiset(InOrder(bt.root))
  {
    VisitOrderCorrect(bt, o);
    TraversalStepsGrow(o, VisitOrder(bt, o));
  }

  // ---------------------------------------------------------------------
  // Balancing
  // ---------------------------------------------------------------------

  /** `buildBalancedTreeSteps`: the same midpoint recursion as the
      balancing routine, one step per value; each step shows the values
      added on the way down to it (`path`), followed by the value itself. */
  function BuildSteps(nodes: seq<int>, start: int, end: int, path: seq<int>): (r: seq<Step>)
    requires IsRange(nodes, start, end)
    ensures |r| == end - start + 1
    decreases end - start
  {
    if start > end then []
    else
      var mid := Mid(start, end);
      var added := path + [nodes[mid]];
      [Step(AddingNode(nodes[mid]), added, [nodes[mid]])]
      + BuildSteps(nodes, start, mid - 1, added)
      + BuildSteps(nodes, mid + 1, end, added)
  }

  /** The balancing demonstration: an opening step, then either the
      "already balanced" step, or the sorted values, the building steps and
      a closing step. */
  function BalancingSteps(bt: BinaryTree): (r: seq<Step>)
    requires bt.root.Node?
    ensures |r| >= 2 && r[0] == Step(StartBalancing, [], [])
  {
    if IsBalanced(bt.root) then [Step(StartBalancing, [], []), Step(AlreadyBalanced, [], [])]
    else SortedAnimation(InOrder(bt.root))  // `inOrder()`, see `InOrderTraversal`
  }

  /** The balancing demonstration of a tree with sorted values `nodes`
      that is not yet balanced. */
  function SortedAnimation(nodes: seq<int>): (r: seq<Step>)
    ensures |r| == |nodes| + 3 && r[0] == Step(StartBalancing, [], [])
  {
    [Step(StartBalancing, [], []), Step(ConvertToSorted, nodes, nodes)]
    + BuildSteps(nodes, 0, |nodes| - 1, []) + [Step(BalancingComplete, nodes, [])]
  }

  /** Step `k` of the animation is building step `k - 2`. */
  lemma SortedAnimationAt(nodes: seq<int>, k: int)
    requires 2 <= k < |nodes| + 2
    ensures var build := BuildSteps(nodes, 0, |nodes| - 1, []);
      k - 2 < |build| && SortedAnimation(nodes)[k] == build[k - 2]
  {
    MiddleAt(SortedAnimation(nodes), Step(StartBalancing, [], []), Step(ConvertToSorted, nodes, nodes),
             BuildSteps(nodes, 0, |nodes| - 1, []), [Step(BalancingComplete, nodes, [])], k);
  }

  /** `steps` announce and highlight the values of `order`, one per step,
      each step showing a sequence that starts with `path` and ends with
      its value. */
  predicate Announces(steps: seq<Step>, order: seq<int>, path: seq<int>) {
    && |steps| == |order|
    && forall k :: 0 <= k < |steps| ==>
         && steps[k].description == AddingNode(order[k])
         && steps[k].highlighted == [order[k]]
         && |steps[k].nodeIds| > |path|
         && steps[k].nodeIds[..|path|] == path
         && steps[k].nodeIds[|steps[k].nodeIds| - 1] == order[k]
  }

  lemma AnnouncesShorter(steps: seq<Step>, order: seq<int>, path: seq<int>, v: int)
    requires Announces(steps, order, path + [v])
    ensures Announces(steps, order, path)
  {
    forall k | 0 <= k < |steps|
      ensures steps[k].nodeIds[..|path|] == path
    {
      assert steps[k].nodeIds[..|path|] == steps[k].nodeIds[..|path| + 1][..|path|];
    }
  }

  lemma AnnouncesConcat(a: seq<Step>, oa: seq<int>, b: seq<Step>, ob: seq<int>, path: seq<int>)
    requires Announces(a, oa, path) && Announces(b, ob, path)
    ensures Announces(a + b, oa + ob, path)
  {
    forall k | 0 <= k < |a + b|
      ensures (a + b)[k] == (if k < |a| then a[k] else b[k - |a|])
      ensures (oa + ob)[k] == (if k < |a| then oa[k] else ob[k - |a|])
    {
    }
  }

  /** The animation's building steps announce the values in exactly the
      order the balancing routine adds them (`MidOrder`), and each one shows
      the values on the way down to it, ending with itself. */
  lemma {:induction false} BuildStepsAnnounce(nodes: seq<int>, start: int, end: int, path: seq<int>)
    requires IsRange(nodes, start, end)
    ensures Announces(BuildSteps(nodes, start, end, path), MidOrder(nodes, start, end), path)
    decreases end - start
  {
    if start <= end {
      var mid := Mid(start, end);
      var added := path + [nodes[mid]];
      var first := [Step(AddingNode(nodes[mid]), added, [nodes[mid]])];
      assert added[..|path|] == path;
      assert Announces(first, [nodes[mid]], path);
      BuildStepsAnnounce(nodes, start, mid - 1, added);
      BuildStepsAnnounce(nodes, mid + 1, end, added);
      AnnouncesShorter(BuildSteps(nodes, start, mid - 1, added), MidOrder(nodes, start, mid - 1), path, nodes[mid]);
      AnnouncesShorter(BuildSteps(nodes, mid + 1, end, added), MidOrder(nodes, mid + 1, end), path, nodes[mid]);
      AnnouncesConcat(first, [nodes[mid]], BuildSteps(nodes, start, mid - 1, added), MidOrder(nodes, start, mid - 1), path);
      AnnouncesConcat(first + BuildSteps(nodes, start, mid - 1, added), [nodes[mid]] + MidOrder(nodes, start, mid - 1),
                      BuildSteps(nodes, mid + 1, end, added), MidOrder(nodes, mid + 1, end), path);
    }
  }

  /** The balancing animation: two steps when the tree already passes
      `isBalanced()`; otherwise `n + 3`, where step `k + 2` announces and
      highlights the same value as step `k + 2` of `balance()` itself, so
      the animation and the routine it illustrates add the values in the
      same order. */
  lemma BalancingAnimation(bt: BinaryTree, selected: Option<NodeTree>, u: Random)
    requires bt.root.Node?
    ensures var r := GenerateSteps(bt, BalancingDemo, selected, u);
      var n := NodeCount(bt.root);
      && r[0].description == StartBalancing
      && (IsBalanced(bt.root) ==> |r| == 2 && r[1].description == AlreadyBalanced)
      && (!IsBalanced(bt.root) ==>
            && |r| == n + 3
            && r[1] == Step(ConvertToSorted, InOrder(bt.root), InOrder(bt.root))
            && (forall k :: 2 <= k < n + 2 ==>
                  && r[k].description == Balance(bt).steps[k].description
                  && r[k].highlighted == Balance(bt).steps[k].highlighted)
            && r[n + 2] == Step(BalancingComplete, InOrder(bt.root), []))
  {
    assert GenerateSteps(bt, BalancingDemo, selected, u) == BalancingSteps(bt);
    if !IsBalanced(bt.root) {
      UnbalancedShape(bt);
      UnbalancedAgrees(bt);
    }
  }

  /** An unbalanced tree's animation opens with the sorted values, has one
      step per value, and closes showing the sorted values again. */
  lemma UnbalancedShape(bt: BinaryTree)
    requires bt.root.Node? && !IsBalanced(bt.root)
    ensures var r, n := BalancingSteps(bt), NodeCount(bt.root);
      && |r| == n + 3
      && r[1] == Step(ConvertToSorted, InOrder(bt.root), InOrder(bt.root))
      && r[n + 2] == Step(BalancingComplete, InOrder(bt.root), [])
  {
    var nodes := InOrder(bt.root);
    InOrderFacts(bt.root);
    var build := BuildSteps(nodes, 0, |nodes| - 1, []);
    UnbalancedSteps(bt);
    BuildStepsAnnounce(nodes, 0, |nodes| - 1, []);
    MidOrderLength(nodes, 0, |nodes| - 1);
  }

  /** Every building step of an unbalanced tree's animation names and
      highlights the value `balance()` adds at that step. */
  lemma UnbalancedAgrees(bt: BinaryTree)
    requires bt.root.Node? && !IsBalanced(bt.root)
    ensures |BalancingSteps(bt)| == |Balance(bt).steps| == NodeCount(bt.root) + 3
    ensures forall k :: 2 <= k < NodeCount(bt.root) + 2 ==>
      && BalancingSteps(bt)[k].description == Balance(bt).steps[k].description
      && BalancingSteps(bt)[k].highlighted == Balance(bt).steps[k].highlighted
  {
    UnbalancedShape(bt);
    forall k | 2 <= k < NodeCount(bt.root) + 2
      ensures && BalancingSteps(bt)[k].description == Balance(bt).steps[k].description
              && BalancingSteps(bt)[k].highlighted == Balance(bt).steps[k].highlighted
    {
      BuildAgreesWithBalance(bt, k);
    }
  }

  /** The animation of an unbalanced tree: the sorted values, the
      building steps, and the closing step. */
  lemma UnbalancedSteps(bt: BinaryTree)
    requires bt.root.Node? && !IsBalanced(bt.root)
    ensures var nodes := InOrder(bt.root);
      BalancingSteps(bt) == [Step(StartBalancing, [], []), Step(ConvertToSorted, nodes, nodes)]
        + BuildSteps(nodes, 0, |nodes| - 1, []) + [Step(BalancingComplete, nodes, [])]
  {
  }

  /** Step `k` of an unbalanced tree's balancing animation and step `k`
      of `balance()` name and highlight the same value. */
  lemma BuildAgreesWithBalance(bt: BinaryTree, k: int)
    requires bt.root.Node? && !IsBalanced(bt.root)
    requires 2 <= k < NodeCount(bt.root) + 2
    ensures k < |BalancingSteps(bt)| && k < |Balance(bt).steps|
    ensures BalancingSteps(bt)[k].description == Balance(bt).steps[k].description
    ensures BalancingSteps(bt)[k].highlighted == Balance(bt).steps[k].highlighted
  {
    AnimatedStepNames(bt, k);
    RecordedStepNames(bt, k);
  }

  /** Step `k` of an unbalanced tree's balancing animation names and
      highlights value `k - 2` of the order `balance()` adds the values in. */
  lemma AnimatedStepNames(bt: BinaryTree, k: int)
    requires bt.root.Node? && !IsBalanced(bt.root)
    requires 2 <= k < NodeCount(bt.root) + 2
    ensures var order := MidOrder(InOrder(bt.root), 0, |InOrder(bt.root)| - 1);
      && k < |BalancingSteps(bt)| && k - 2 < |order|
      && BalancingSteps(bt)[k].description == AddingNode(order[k - 2])
      && BalancingSteps(bt)[k].highlighted == [order[k - 2]]
  {
    BuildLength(bt.root);
    SortedAnimationNames(InOrder(bt.root), k);
  }

  /** Step `k` of the animation of sorted values names and highlights
      value `k - 2` of the building order. */
  lemma SortedAnimationNames(nodes: seq<int>, k: int)
    requires 2 <= k < |nodes| + 2
    ensures var order := MidOrder(nodes, 0, |nodes| - 1);
      && k - 2 < |order|
      && SortedAnimation(nodes)[k].description == AddingNode(order[k - 2])
      && SortedAnimation(nodes)[k].highlighted == [order[k - 2]]
  {
    MidOrderLength(nodes, 0, |nodes| - 1);
    SortedAnimationAt(nodes, k);
    BuildStepNames(nodes, k - 2);
  }

  /** Step `k` of `balance()` on any tree names and highlights value
      `k - 2` of the order it adds the values in. */
  lemma RecordedStepNames(bt: BinaryTree, k: int)
    requires 2 <= k < NodeCount(bt.root) + 2
    ensures var order := MidOrder(InOrder(bt.root), 0, |InOrder(bt.root)| - 1);
      && k < |Balance(bt).steps| && k - 2 < |order|
      && Balance(bt).steps[k].description == AddingNode(order[k - 2])
      && Balance(bt).steps[k].highlighted == [order[k - 2]]
  {
    BalanceStepIs(bt, k - 2);
    AddStepNames(EmptyTree, MidOrder(InOrder(bt.root), 0, |InOrder(bt.root)| - 1), k - 2);
  }

  /** Building step `j` of the whole range names and highlights value `j`
      of the order the balancing routine adds the values in. */
  lemma BuildStepNames(nodes: seq<int>, j: int)
    requires 0 <= j < |MidOrder(nodes, 0, |nodes| - 1)|
    ensures var build, order := BuildSteps(nodes, 0, |nodes| - 1, []), MidOrder(nodes, 0, |nodes| - 1);
      && j < |build|
      && build[j].description == AddingNode(order[j])
      && build[j].highlighted == [order[j]]
  {
    BuildStepsAnnounce(nodes, 0, |nodes| - 1, []);
  }

  /** The building steps and the order they follow have one entry per node. */
  lemma BuildLength(t: Tree)
    ensures var nodes := InOrder(t);
      |BuildSteps(nodes, 0, |nodes| - 1, [])| == |MidOrder(nodes, 0, |nodes| - 1)| == NodeCount(t)
  {
    InOrderFacts(t);
    MidOrderLength(InOrder(t), 0, |InOrder(t)| - 1);
  }

  /** Step `k` of an unbalanced tree's balancing animation is building
      step `k - 2`. */
  lemma BalancingStepIs(bt: BinaryTree, k: int)
    requires bt.root.Node? && !IsBalanced(bt.root)
    requires 2 <= k < NodeCount(bt.root) + 2
    ensures var nodes := InOrder(bt.root);
      var build := BuildSteps(nodes, 0, |nodes| - 1, []);
      && |build| == |MidOrder(nodes, 0, |nodes| - 1)| == NodeCount(bt.root)
      && k < |BalancingSteps(bt)| && k - 2 < |build| && BalancingSteps(bt)[k] == build[k - 2]
  {
    BuildLength(bt.root);
    SortedAnimationAt(InOrder(bt.root), k);
  }

  // ---------------------------------------------------------------------
  // Insertion
  // ---------------------------------------------------------------------

  lemma ScaleBounds(u: Random, d: real)
    ensures d >= 0.0 ==> 0.0 <= u * d <= d
    ensures d < 0.0 ==> d <= u * d <= 0.0
    ensures d > 0.0 ==> u * d < d
  {
    assert (1.0 - u) * d == d - u * d;
  }

  /** `Math.floor(Math.random() * (max - min) + min)`, with `u` the random
      number. It lies between the two bounds, and below `max` when
      `min < max`; `u = 0` gives `min` itself. */
  function DemoValue(lo: int, hi: int, u: Random): (v: int)
    ensures lo <= hi ==> lo <= v <= hi
    ensures lo < hi ==> v < hi
    ensures hi < lo ==> hi <= v <= lo
    ensures u == 0.0 ==> v == lo
  {
    DemoValueBounds(lo, hi, u);
    (u * (hi - lo) as real + lo as real).Floor
  }

  /** The scaled random number, before rounding down, lies between the
      bounds. */
  lemma DemoValueBounds(lo: int, hi: int, u: Random)
    ensures var x := u * (hi - lo) as real + lo as real;
      && (lo <= hi ==> lo as real <= x < hi as real || (lo == hi && x == lo as real))
      && (hi < lo ==> hi as real <= x <= lo as real)
      && (u == 0.0 ==> x == lo as real)
  {
    var d := (hi - lo) as real;
    ScaleBounds(u, d);
  }

  /** The demonstration's descent: the steps of the loop and the values it
      passes (`pathNodes`). An equal value goes right, like a greater one. */
  datatype Descent = Descent(steps: seq<Step>, path: seq<int>)

  function Descend(t: Tree, v: int): (r: Descent)
    requires t.Node?
    ensures |r.path| >= 1 && r.path[0] == t.data
    ensures |r.steps| == 2 * |r.path| + 1
    ensures forall x :: x in r.path ==> x in Contents(t)
    decreases t
  {
    var d := t.data;
    var compare := Step(Comparing(v, d), [], [d]);
    if v < d then
      var turn := [compare, Step(GoLeft(v, d), [], [d])];
      if t.left.Nil? then Descent(turn + [Step(FoundLeft(d), [], [d])], [d])
      else var s := Descend(t.left, v); Descent(turn + s.steps, [d] + s.path)
    else
      var turn := [compare, Step(GoRight(v, d), [], [d])];
      if t.right.Nil? then Descent(turn + [Step(FoundRight(d), [], [d])], [d])
      else var s := Descend(t.right, v); Descent(turn + s.steps, [d] + s.path)
  }

  /** The insertion demonstration for the value `v`. */
  function InsertionSteps(t: Tree, v: int): (r: seq<Step>)
    requires t.Node?
    ensures |r| == 2 * |Descend(t, v).path| + 4
    ensures r[|r| - 1].highlighted == [v]
    ensures forall x :: x in r[|r| - 1].nodeIds ==> x in Contents(t) || x == v
  {
    var s := Descend(t, v);
    [Step(InsertionIntro, [], []), Step(StartInsertion(v), [], [])]
    + s.steps
    + [Step(Inserted(v), s.path + [v], [v])]
  }

  /** `steps` compare `v` with each value of `path` in turn, turning left
      exactly when `v` is smaller, and end by naming the last value as the
      node the new value hangs from, on the side of the last turn. */
  predicate Compares(steps: seq<Step>, path: seq<int>, v: int) {
    && |path| >= 1
    && |steps| == 2 * |path| + 1
    && (forall i :: 0 <= i < |path| ==> steps[2 * i] == Step(Comparing(v, path[i]), [], [path[i]]))
    && (forall i :: 0 <= i < |path| ==>
          steps[2 * i + 1].description == (if v < path[i] then GoLeft(v, path[i]) else GoRight(v, path[i])))
    && steps[|steps| - 1].description ==
         (if v < path[|path| - 1] then FoundLeft(path[|path| - 1]) else FoundRight(path[|path| - 1]))
  }

  lemma ComparesCons(a: Step, b: Step, steps: seq<Step>, d: int, path: seq<int>, v: int)
    requires Compares(steps, path, v)
    requires a == Step(Comparing(v, d), [], [d])
    requires b.description == (if v < d then GoLeft(v, d) else GoRight(v, d))
    ensures Compares([a, b] + steps, [d] + path, v)
  {
    var s, p := [a, b] + steps, [d] + path;
    assert |s| == 2 * |p| + 1;
    forall i | 0 <= i < |p|
      ensures s[2 * i] == Step(Comparing(v, p[i]), [], [p[i]])
    {
      if i > 0 {
        assert s[2 * i] == steps[2 * (i - 1)] && p[i] == path[i - 1];
      }
    }
    forall i | 0 <= i < |p|
      ensures s[2 * i + 1].description == (if v < p[i] then GoLeft(v, p[i]) else GoRight(v, p[i]))
    {
      if i > 0 {
        assert s[2 * i + 1] == steps[2 * (i - 1) + 1] && p[i] == path[i - 1];
      }
    }
    assert s[|s| - 1] == steps[|steps| - 1] && p[|p| - 1] == path[|path| - 1];
  }

  /** The descent's steps are the comparisons along its path. */
  lemma {:induction false} DescentSteps(t: Tree, v: int)
    requires t.Node?
    ensures Compares(Descend(t, v).steps, Descend(t, v).path, v)
    decreases t
  {
    var d := t.data;
    var child := if v < d then t.left else t.right;
    if child.Node? {
      DescentSteps(child, v);
      var c := Descend(child, v);
      var turn := if v < d then GoLeft(v, d) else GoRight(v, d);
      assert Descend(t, v) == Descent([Step(Comparing(v, d), [], [d]), Step(turn, [], [d])] + c.steps, [d] + c.path);
      ComparesCons(Step(Comparing(v, d), [], [d]), Step(turn, [], [d]), c.steps, d, c.path, v);
    }
  }

  /** For a value not yet in the tree, the descent passes exactly the
      values `add` passes: in the tree `add` builds, the same descent runs
      on to the new node and stops there, so the final step's values are
      the path to the inserted node. */
  lemma {:induction false} DescentFollowsAdd(t: Tree, v: int)
    requires t.Node? && v !in Contents(t)
    ensures SearchTree(t, v).tree.Node?
    ensures Descend(SearchTree(t, v).tree, v).path == Descend(t, v).path + [v]
    decreases t
  {
    var d := t.data;
    if v < d {
      if t.left.Node? {
        DescentFollowsAdd(t.left, v);
      }
    } else {
      if t.right.Node? {
        DescentFollowsAdd(t.right, v);
      }
    }
  }

  /** On an ordered tree already holding `v`, the descent passes `v`
      itself and `add` would reject it, yet the demonstration still reports
      the value inserted; with `u = 0` the demo value is the minimum, which
      is always such a value. */
  lemma {:induction false} DescentOnDuplicate(t: Tree, v: int)
    requires t.Node? && IsBst(t) && v in Contents(t)
    ensures v in Descend(t, v).path
    ensures Add(BinaryTree(t, NodeCount(t)), v).rejected
    ensures InsertionSteps(t, v)[|InsertionSteps(t, v)| - 1].description == Inserted(v)
    decreases t
  {
    var d := t.data;
    if v < d {
      assert v !in Contents(t.right);
      DescentOnDuplicate(t.left, v);
    } else if v > d {
      assert v !in Contents(t.left);
      DescentOnDuplicate(t.right, v);
    }
  }

  /** The insertion animation on a non-empty tree: two opening steps, two
      per value passed plus the insertion point, and a closing step that
      draws the path followed by the new value. The demo value lies
      between the least and the greatest stored value, and when it is new
      that path is the path to the node `add` creates. */
  lemma InsertionAnimation(bt: BinaryTree, selected: Option<NodeTree>, u: Random)
    requires bt.root.Node?
    ensures var r := GenerateSteps(bt, InsertionDemo, selected, u);
      var v := DemoValue(FindMin(bt.root), FindMax(bt.root), u);
      var path := Descend(bt.root, v).path;
      && |r| == 2 * |path| + 4
      && r[1].description == StartInsertion(v)
      && r[|r| - 1] == Step(Inserted(v), path + [v], [v])
      && (IsBst(bt.root) ==> FindMin(bt.root) <= v <= FindMax(bt.root))
      && (v !in Contents(bt.root) ==> Descend(SearchTree(bt.root, v).tree, v).path == path + [v])
  {
    var v := DemoValue(FindMin(bt.root), FindMax(bt.root), u);
    if v !in Contents(bt.root) {
      DescentFollowsAdd(bt.root, v);
    }
  }

  // ---------------------------------------------------------------------
  // Deletion
  // ---------------------------------------------------------------------

  /** The steps describing which case removal of `n`'s value falls in. The
      successor is found with the same leftward walk as `findMin`. */
  function CaseSteps(n: Tree): seq<Step>
    requires n.Node?
  {
    var d := n.data;
    if n.left.Nil? && n.right.Nil? then
      [Step(IsLeaf(d), [], [d]), Step(SimplyRemove(d), [], [])]
    else if n.left.Nil? then
      var c := n.right.data;
      [Step(OnlyRightChild(d, c), [], [d, c]), Step(ReplaceWithRight(d, c), [], [c])]
    else if n.right.Nil? then
      var c := n.left.data;
      [Step(OnlyLeftChild(d, c), [], [d, c]), Step(ReplaceWithLeft(d, c), [], [c])]
    else
      var s := FindMin(n.right);
      [Step(BothChildren(d), [], [d]), Step(FindSuccessor(s), [], [s]),
       Step(ReplaceWithSuccessor(d, s), [], [s]), Step(DeleteDuplicateSuccessor(s), [], [])]
  }

  /** The deletion demonstration: a prompt when nothing is selected. */
  function DeletionSteps(selected: Option<NodeTree>): (r: seq<Step>)
    ensures |r| >= 2 && r[0].description == DeletionIntro
    ensures selected.None? ==> |r| == 2
    ensures selected.Some? ==> (|r| == 5 || |r| == 7) && r[|r| - 1].description == Deleted(selected.value.data)
  {
    [Step(DeletionIntro, [], [])]
    + match selected
      case None => [Step(SelectPrompt, [], [])]
      case Some(n) => [Step(Deleting(n.data), [], [n.data])] + CaseSteps(n) + [Step(Deleted(n.data), [], [])]
  }

  /** The deletion animation tells the same story as `removeNode` applied
      to the selected node's value at that node: a leaf vanishes, a lone
      child takes the node's place, and with two children the announced
      successor is the value the node takes, which on an ordered subtree
      is the least stored value above the deleted one. */
  lemma DeletionAnimation(bt: BinaryTree, selected: Option<NodeTree>, u: Random)
    requires bt.root.Node?
    ensures var r := GenerateSteps(bt, DeletionDemo, selected, u);
      && r[0].description == DeletionIntro
      && (selected.None? ==> |r| == 2 && r[1].description == SelectPrompt)
      && (selected.Some? ==>
            var n := selected.value;
            var d := n.data;
            var after := RemoveNode(n, d);
            && r[1].description == Deleting(d)
            && r[|r| - 1].description == Deleted(d)
            && (n.left.Nil? && n.right.Nil? ==> |r| == 5 && r[2].description == IsLeaf(d) && after == Nil)
            && (n.left.Nil? && n.right.Node? ==>
                  |r| == 5 && r[3].description == ReplaceWithRight(d, n.right.data) && after == n.right)
            && (n.left.Node? && n.right.Nil? ==>
                  |r| == 5 && r[3].description == ReplaceWithLeft(d, n.left.data) && after == n.left)
            && (n.left.Node? && n.right.Node? ==>
                  && |r| == 7
                  && r[3].description == FindSuccessor(after.data)
                  && r[4].description == ReplaceWithSuccessor(d, after.data)
                  && after.data == InOrder(n.right)[0]
                  && (IsBst(n) ==>
                        && d < after.data
                        && forall x :: x in Contents(n) && d < x ==> after.data <= x)))
  {
    assert GenerateSteps(bt, DeletionDemo, selected, u) == DeletionSteps(selected);
    if selected.Some? {
      var n := selected.value;
      if n.left.Node? && n.right.Node? {
        TwoChildDeletion(n);
        TwoChildSuccessor(n);
      } else {
        OneChildDeletion(n);
      }
    }
  }

  /** Deleting a node with at most one child: the node's place goes to
      its child or to nothing. */
  lemma OneChildDeletion(n: NodeTree)
    requires n.left.Nil? || n.right.Nil?
    ensures var r, d, after := DeletionSteps(Some(n)), n.data, RemoveNode(n, n.data);
      && r[0].description == DeletionIntro
      && r[1].description == Deleting(d) && |r| == 5 && r[4].description == Deleted(d)
      && (n.left.Nil? && n.right.Nil? ==> r[2].description == IsLeaf(d) && after == Nil)
      && (n.left.Nil? && n.right.Node? ==> r[3].description == ReplaceWithRight(d, n.right.data) && after == n.right)
      && (n.left.Node? && n.right.Nil? ==> r[3].description == ReplaceWithLeft(d, n.left.data) && after == n.left)
  {
  }

  /** Deleting a node with two children: the successor announced is the
      value the node takes. */
  lemma TwoChildDeletion(n: NodeTree)
    requires n.left.Node? && n.right.Node?
    ensures var r, d, after := DeletionSteps(Some(n)), n.data, RemoveNode(n, n.data);
      && r[0].description == DeletionIntro
      && r[1].description == Deleting(d) && |r| == 7 && r[6].description == Deleted(d)
      && r[3].description == FindSuccessor(after.data)
      && r[4].description == ReplaceWithSuccessor(d, after.data)
  {
  }

  /** The value a node with two children takes is the least value of its
      right subtree, which on an ordered subtree is the least stored value
      above the deleted one. */
  lemma TwoChildSuccessor(n: NodeTree)
    requires n.left.Node? && n.right.Node?
    ensures var d, after := n.data, RemoveNode(n, n.data);
      && after.Node? && after.data == InOrder(n.right)[0]
      && (IsBst(n) ==> d < after.data && forall x :: x in Contents(n) && d < x ==> after.data <= x)
  {
    FindMinIsFirst(n.right);
    if IsBst(n) {
      RemoveTwoChildren(n);
    }
  }
}

=== FILE: balanced_tree.dfy ===
/** `BalancedBinaryTree.balance` (BalancedBinaryTree.ts): read the values
    in order, then add the middle value of every range before the values
    of its two halves, recording a step with a snapshot of the new tree
    after each addition. */
module BalancedTrees {
  import opened Common
  import opened TreeNodes
  import opened BinaryTrees
  import opened TreeShape
  import opened Traversals
  import opened Messages

  /** A range `start..end` (inclusive, possibly empty) inside `nodes`, as
      the recursion passes them: `start` never exceeds `end + 1`. */
  predicate IsRange(nodes: seq<int>, start: int, end: int) {
    0 <= start <= end + 1 <= |nodes|
  }

  /** `Math.floor((start + end) / 2)`; both bounds are non-negative here,
      where floor and Dafny's division agree. */
  function Mid(start: int, end: int): (m: int)
    requires 0 <= start <= end
    ensures start <= m <= end
    ensures m - start == end - m || m - start + 1 == end - m
  {
    (start + end) / 2
  }

  /** The order in which the recursion adds values: the middle of the
      range, then (recursively) its left half, then its right half. */
  function MidOrder(nodes: seq<int>, start: int, end: int): seq<int>
    requires IsRange(nodes, start, end)
    decreases end - start
  {
    if start > end then []
    else
      var mid := Mid(start, end);
      [nodes[mid]] + MidOrder(nodes, start, mid - 1) + MidOrder(nodes, mid + 1, end)
  }

  /** The tree the recursion builds, written directly: the middle value at
      the root over the trees of the two halves. */
  function Build(nodes: seq<int>, start: int, end: int): Tree
    requires IsRange(nodes, start, end)
    decreases end - start
  {
    if start > end then Nil
    else
      var mid := Mid(start, end);
      Node(Build(nodes, start, mid - 1), nodes[mid], Build(nodes, mid + 1, end))
  }

  /** A step of the balancing animation: what it says, which values it
      highlights, and a snapshot of a tree. */
  datatype BalanceStep = BalanceStep(description: Message, highlighted: seq<int>, treeState: BinaryTree)

  /** The state `buildBalancedBST` threads through its recursion: the tree
      being built and the steps recorded so far. */
  datatype Building = Building(tree: BinaryTree, steps: seq<BalanceStep>)

  /** Outcome of `balance()`. */
  datatype Balanced = Balanced(steps: seq<BalanceStep>, balancedTree: BinaryTree)

  /** The steps recorded while adding `xs` one after the other to `bt`:
      one per value, each naming and highlighting it and holding the tree
      just after it was added (see `AddStepAt`). */
  function AddSteps(bt: BinaryTree, xs: seq<int>): (r: seq<BalanceStep>)
    decreases |xs|
    ensures |r| == |xs|
  {
    if |xs| == 0 then []
    else
      var b := Add(bt, xs[0]).tree;
      [BalanceStep(AddingNode(xs[0]), [xs[0]], b)] + AddSteps(b, xs[1..])
  }

  /** The `k`-th recorded step announces the `k`-th value and shows the tree
      after the first `k + 1` additions. */
  lemma {:induction false} AddStepAt(bt: BinaryTree, xs: seq<int>, k: int)
    requires 0 <= k < |xs|
    ensures AddSteps(bt, xs)[k] == BalanceStep(AddingNode(xs[k]), [xs[k]], AddMultiple(bt, xs[..k + 1]))
    decreases |xs|
  {
    var b := Add(bt, xs[0]).tree;
    if k == 0 {
      assert xs[..1][1..] == [];
    } else {
      AddStepAt(b, xs[1..], k - 1);
      assert xs[..k + 1][0] == xs[0] && xs[..k + 1][1..] == xs[1..][..k];
    }
  }

  /** The `k`-th recorded step names and highlights the `k`-th value. */
  lemma {:induction false} AddStepNames(bt: BinaryTree, xs: seq<int>, k: int)
    requires 0 <= k < |xs|
    ensures AddSteps(bt, xs)[k].description == AddingNode(xs[k])
    ensures AddSteps(bt, xs)[k].highlighted == [xs[k]]
    decreases |xs|
  {
    if k > 0 {
      AddStepNames(Add(bt, xs[0]).tree, xs[1..], k - 1);
    }
  }

  /** `buildBalancedBST(nodes, start, end, balancedTree, steps)`: the tree
      ends up with the range's values added in the recursion's order, and
      one step per addition is appended to the steps. */
  function BuildBalancedBST(nodes: seq<int>, start: int, end: int, acc: Building): (r: Building)
    requires IsRange(nodes, start, end)
    decreases end - start
    ensures r.tree == AddMultiple(acc.tree, MidOrder(nodes, start, end))
    ensures r.steps == acc.steps + AddSteps(acc.tree, MidOrder(nodes, start, end))
  {
    if start > end then
      acc
    else
      var mid := Mid(start, end);
      var v := nodes[mid];
      var added := Add(acc.tree, v).tree;
      var b := Building(added, acc.steps + [BalanceStep(AddingNode(v), [v], added)]);
      var left := BuildBalancedBST(nodes, start, mid - 1, b);
      BuildRangeStep(nodes, start, end, acc);
      BuildBalancedBST(nodes, mid + 1, end, left)
  }

  /** One level of the recursion over a range: adding its values is adding
      the middle one, then the left half, then the right half. */
  lemma BuildRangeStep(nodes: seq<int>, start: int, end: int, acc: Building)
    requires IsRange(nodes, start, end) && start <= end
    ensures var mid := Mid(start, end); var v := nodes[mid];
      var added := Add(acc.tree, v).tree;
      var xl, xr := MidOrder(nodes, start, mid - 1), MidOrder(nodes, mid + 1, end);
      && AddMultiple(acc.tree, MidOrder(nodes, start, end)) == AddMultiple(AddMultiple(added, xl), xr)
      && acc.steps + AddSteps(acc.tree, MidOrder(nodes, start, end))
         == acc.steps + [BalanceStep(AddingNode(v), [v], added)] + AddSteps(added, xl)
            + AddSteps(AddMultiple(added, xl), xr)
  {
    var mid := Mid(start, end);
    var v := nodes[mid];
    var added := Add(acc.tree, v).tree;
    var xl, xr := MidOrder(nodes, start, mid - 1), MidOrder(nodes, mid + 1, end);
    var step := BalanceStep(AddingNode(v), [v], added);
    BuildStep(acc.tree, v, xl, xr);
    assert acc.steps + ([step] + AddSteps(added, xl) + AddSteps(AddMultiple(added, xl), xr))
      == acc.steps + [step] + AddSteps(added, xl) + AddSteps(AddMultiple(added, xl), xr);
  }

  /** One level of the recursion: adding `v` and then the two halves is
      adding `[v] + xl + xr`, for the tree and for the recorded steps. */
  lemma BuildStep(bt: BinaryTree, v: int, xl: seq<int>, xr: seq<int>)
    ensures var added := Add(bt, v).tree;
      && AddMultiple(bt, [v] + xl + xr) == AddMultiple(AddMultiple(added, xl), xr)
      && AddSteps(bt, [v] + xl + xr)
         == [BalanceStep(AddingNode(v), [v], added)] + AddSteps(added, xl)
            + AddSteps(AddMultiple(added, xl), xr)
  {
    var added := Add(bt, v).tree;
    assert ([v] + xl + xr)[0] == v && ([v] + xl + xr)[1..] == xl + xr;
    AddMultipleConcat(added, xl, xr);
    AddStepsConcat(added, xl, xr);
  }

  lemma {:induction false} AddStepsConcat(bt: BinaryTree, a: seq<int>, b: seq<int>)
    ensures AddSteps(bt, a + b) == AddSteps(bt, a) + AddSteps(AddMultiple(bt, a), b)
    decreases |a|
  {
    if |a| == 0 {
      assert a + b == b;
    } else {
      assert (a + b)[0] == a[0] && (a + b)[1..] == a[1..] + b;
      AddStepsConcat(Add(bt, a[0]).tree, a[1..], b);
    }
  }

  /** `balance()`: two opening snapshots of the tree as it is, one step
      per value added to a fresh tree, and a closing snapshot of the result. */
  function Balance(bt: BinaryTree): (r: Balanced)
    ensures |r.steps| == NodeCount(bt.root) + 3
    ensures r.steps[0] == BalanceStep(StartBalancing, [], bt)
    ensures r.steps[1] == BalanceStep(ConvertToSorted, InOrder(bt.root), bt)
    ensures r.steps[|r.steps| - 1] == BalanceStep(BalancingComplete, [], r.balancedTree)
  {
    var nodes := InOrder(bt.root);
    InOrderFacts(bt.root);
    MidOrderPermutation(nodes, 0, |nodes| - 1);
    var opening := [BalanceStep(StartBalancing, [], bt), BalanceStep(ConvertToSorted, nodes, bt)];
    var built := BuildBalancedBST(nodes, 0, |nodes| - 1, Building(EmptyTree, opening));
    Balanced(built.steps + [BalanceStep(BalancingComplete, [], built.tree)], built.tree)
  }

  /** Each value of the range is added exactly once. */
  lemma {:induction false} MidOrderPermutation(nodes: seq<int>, start: int, end: int)
    requires IsRange(nodes, start, end)
    ensures |MidOrder(nodes, start, end)| == end - start + 1
    ensures multiset(MidOrder(nodes, start, end)) == multiset(nodes[start..end + 1])
  {
    MidOrderLength(nodes, start, end);
    BuildPreOrder(nodes, start, end);
    BuildInOrder(nodes, start, end);
    DepthFirstPermutation(Build(nodes, start, end));
  }

  lemma {:induction false} MidOrderLength(nodes: seq<int>, start: int, end: int)
    requires IsRange(nodes, start, end)
    ensures |MidOrder(nodes, start, end)| == end - start + 1
    decreases end - start
  {
    if start <= end {
      var mid := Mid(start, end);
      MidOrderLength(nodes, start, mid - 1);
      MidOrderLength(nodes, mid + 1, end);
    }
  }

  /** The built tree lists the range in order: it is the range itself. */
  lemma {:induction false} BuildInOrder(nodes: seq<int>, start: int, end: int)
    requires IsRange(nodes, start, end)
    ensures InOrder(Build(nodes, start, end)) == nodes[start..end + 1]
    decreases end - start
  {
    if start <= end {
      var mid := Mid(start, end);
      var l, r := Build(nodes, start, mid - 1), Build(nodes, mid + 1, end);
      calc {
        InOrder(Build(nodes, start, end));
        { assert Build(nodes, start, end) == Node(l, nodes[mid], r); }
        InOrder(l) + [nodes[mid]] + InOrder(r);
        { BuildInOrder(nodes, start, mid - 1); BuildInOrder(nodes, mid + 1, end); }
        nodes[start..mid] + [nodes[mid]] + nodes[mid + 1..end + 1];
        { SplitAt(nodes, start, mid, end + 1); }
        nodes[start..end + 1];
      }
    }
  }

  /** A slice is its part before `m`, the element at `m`, and the rest. */
  lemma SplitAt(s: seq<int>, i: int, m: int, j: int)
    requires 0 <= i <= m < j <= |s|
    ensures s[i..j] == s[i..m] + [s[m]] + s[m + 1..j]
  {
    assert s[i..j] == s[i..m] + s[m..j];
    assert s[m..j] == [s[m]] + s[m + 1..j];
  }

  /** The built tree's pre-order is the order in which values were added. */
  lemma {:induction false} BuildPreOrder(nodes: seq<int>, start: int, end: int)
    requires IsRange(nodes, start, end)
    ensures PreOrder(Build(nodes, start, end)) == MidOrder(nodes, start, end)
    decreases end - start
  {
    if start <= end {
      var mid := Mid(start, end);
      var l, r := Build(nodes, start, mid - 1), Build(nodes, mid + 1, end);
      calc {
        PreOrder(Build(nodes, start, end));
        { assert Build(nodes, start, end) == Node(l, nodes[mid], r); }
        [nodes[mid]] + PreOrder(l) + PreOrder(r);
        { BuildPreOrder(nodes, start, mid - 1); BuildPreOrder(nodes, mid + 1, end); }
        [nodes[mid]] + MidOrder(nodes, start, mid - 1) + MidOrder(nodes, mid + 1, end);
      }
    }
  }

  lemma SortedSlice(s: seq<int>, i: int, j: int)
    requires StrictlyIncreasing(s) && 0 <= i <= j <= |s|
    ensures StrictlyIncreasing(s[i..j])
  {
    forall a, b | 0 <= a < b < j - i
      ensures s[i..j][a] < s[i..j][b]
    {
      assert s[i..j][a] == s[i + a] && s[i..j][b] == s[i + b];
    }
  }

  /** Adding the values of a strictly increasing range in the recursion's
      order to an empty tree produces exactly the directly built tree, with
      `size` counting each value once. */
  lemma AddsBuildTree(nodes: seq<int>, start: BinaryTree)
    requires StrictlyIncreasing(nodes) && start.root.Nil?
    ensures AddMultiple(start, MidOrder(nodes, 0, |nodes| - 1))
      == BinaryTree(Build(nodes, 0, |nodes| - 1), start.size + |nodes|)
  {
    BuildOrdered(nodes);
    BuildPreOrder(nodes, 0, |nodes| - 1);
    assert start == BinaryTree(Nil, start.size);
    PreOrderRebuilds(Build(nodes, 0, |nodes| - 1), start.size);
  }

  /** The tree built from a strictly increasing sequence is ordered, holds
      one node per value, and lists them in-order as the sequence. */
  lemma BuildOrdered(nodes: seq<int>)
    requires StrictlyIncreasing(nodes)
    ensures var n := |nodes|; var t := Build(nodes, 0, n - 1);
      IsBst(t) && NodeCount(t) == n && InOrder(t) == nodes
  {
    var t := Build(nodes, 0, |nodes| - 1);
    BuildInOrderAll(nodes);
    BstIffSortedInOrder(t);
    InOrderFacts(t);
  }

  lemma BuildInOrderAll(nodes: seq<int>)
    ensures InOrder(Build(nodes, 0, |nodes| - 1)) == nodes
  {
    BuildInOrder(nodes, 0, |nodes| - 1);
    assert nodes[0..|nodes|] == nodes;
  }

  /** `k` is the base-two logarithm of `x`, rounded down. */
  predicate IsLog(k: int, x: int) {
    k >= 0 && Pow2(k) <= x < Pow2(k + 1)
  }

  lemma LogMonotone(k: int, x: int, j: int, y: int)
    requires IsLog(k, x) && IsLog(j, y) && x <= y
    ensures k <= j
  {
    if k > j {
      Pow2Monotone(j + 1, k);
    }
  }

  /** The minimum-height step: two halves of sizes `a <= b <= a + 1`. */
  lemma MinLogStep(a: int, b: int, ml: int, mr: int)
    requires 0 <= a <= b <= a + 1
    requires IsLog(ml + 1, a + 1) && IsLog(mr + 1, b + 1)
    ensures ml <= mr && IsLog(ml + 2, a + b + 2)
  {
    LogMonotone(ml + 1, a + 1, mr + 1, b + 1);
    assert Pow2(ml + 2) == 2 * Pow2(ml + 1);
    assert Pow2(ml + 3) == 2 * Pow2(ml + 2);
  }

  /** The maximum-height step, for a non-empty right half. */
  lemma MaxLogStep(a: int, b: int, hl: int, hr: int)
    requires 0 <= a <= b <= a + 1 && 1 <= b
    requires a >= 1 ==> IsLog(hl, a)
    requires a == 0 ==> hl == -1
    requires IsLog(hr, b)
    ensures hl <= hr && IsLog(hr + 1, a + b + 1)
  {
    if a >= 1 {
      LogMonotone(hl, a, hr, b);
    }
    assert Pow2(hr + 1) == 2 * Pow2(hr);
    assert Pow2(hr + 2) == 2 * Pow2(hr + 1);
  }

  /** Both heights of a built tree are fixed by its size `n`: the minimum
      height is log2(n + 1) - 1 and the maximum height log2(n), rounded
      down. */
  lemma {:induction false} BuildHeights(nodes: seq<int>, start: int, end: int)
    requires IsRange(nodes, start, end)
    ensures var t, n := Build(nodes, start, end), end - start + 1;
      && IsLog(MinHeight(t) + 1, n + 1)
      && (n >= 1 ==> IsLog(MaxHeight(t), n))
      && (n == 0 ==> MaxHeight(t) == -1)
    decreases end - start
  {
    if start <= end {
      var mid := Mid(start, end);
      var l, r := Build(nodes, start, mid - 1), Build(nodes, mid + 1, end);
      assert Build(nodes, start, end) == Node(l, nodes[mid], r);
      BuildHeights(nodes, start, mid - 1);
      BuildHeights(nodes, mid + 1, end);
      HeightsStep(l, nodes[mid], r, mid - start, end - mid);
    }
  }

  /** The step of `BuildHeights` for one node with halves of sizes `a` and
      `b`, `a <= b <= a + 1`. */
  lemma HeightsStep(l: Tree, d: int, r: Tree, a: int, b: int)
    requires 0 <= a <= b <= a + 1
    requires IsLog(MinHeight(l) + 1, a + 1) && IsLog(MinHeight(r) + 1, b + 1)
    requires a >= 1 ==> IsLog(MaxHeight(l), a)
    requires a == 0 ==> MaxHeight(l) == -1 && l.Nil?
    requires b >= 1 ==> IsLog(MaxHeight(r), b)
    requires b == 0 ==> MaxHeight(r) == -1 && r.Nil?
    ensures var t := Node(l, d, r);
      && IsLog(MinHeight(t) + 1, a + b + 2)
      && IsLog(MaxHeight(t), a + b + 1)
  {
    MinHeightStepOf(l, d, r, a, b);
    MaxHeightStepOf(l, d, r, a, b);
  }

  lemma MinHeightStepOf(l: Tree, d: int, r: Tree, a: int, b: int)
    requires 0 <= a <= b <= a + 1
    requires IsLog(MinHeight(l) + 1, a + 1) && IsLog(MinHeight(r) + 1, b + 1)
    ensures IsLog(MinHeight(Node(l, d, r)) + 1, a + b + 2)
  {
    MinLogStep(a, b, MinHeight(l), MinHeight(r));
    assert MinHeight(Node(l, d, r)) == MinHeight(l) + 1;
  }

  lemma MaxHeightStepOf(l: Tree, d: int, r: Tree, a: int, b: int)
    requires 0 <= a <= b <= a + 1
    requires a >= 1 ==> IsLog(MaxHeight(l), a)
    requires a == 0 ==> MaxHeight(l) == -1 && l.Nil?
    requires b >= 1 ==> IsLog(MaxHeight(r), b)
    requires b == 0 ==> MaxHeight(r) == -1 && r.Nil?
    ensures IsLog(MaxHeight(Node(l, d, r)), a + b + 1)
  {
    if b == 0 {
      assert MaxHeight(Node(l, d, r)) == 0;
      assert Pow2(1) == 2;
    } else {
      MaxLogStep(a, b, MaxHeight(l), MaxHeight(r));
      assert MaxHeight(Node(l, d, r)) == MaxHeight(r) + 1;
    }
  }


  /** The built tree passes `isBalanced()`, and it is an ordered tree. */
  lemma BuildIsBalanced(nodes: seq<int>, start: int, end: int)
    requires IsRange(nodes, start, end)
    ensures IsBalanced(Build(nodes, start, end))
  {
    var t, n := Build(nodes, start, end), end - start + 1;
    BuildHeights(nodes, start, end);
    if n >= 1 {
      var m, h := MinHeight(t), MaxHeight(t);
      if m < h - 1 {
        Pow2Monotone(m + 2, h);
      }
    }
  }

  /** `balance()` on an ordered tree: the result is the directly built
      tree, so it is ordered, passes `isBalanced()`, holds the same values
      in the same order, and its `size` counts them. */
  lemma BalanceResult(bt: BinaryTree)
    requires IsBst(bt.root)
    ensures var r, nodes := Balance(bt), InOrder(bt.root);
      && r.balancedTree == BinaryTree(Build(nodes, 0, |nodes| - 1), |nodes|)
      && IsBst(r.balancedTree.root)
      && IsBalanced(r.balancedTree.root)
      && InOrder(r.balancedTree.root) == nodes
      && r.balancedTree.size == NodeCount(bt.root)
  {
    BalanceAdds(bt);
    Rebuilt(bt.root, EmptyTree, Balance(bt).balancedTree);
  }

  /** Rebuilding an ordered tree from its in-order values in the midpoint
      order, on an empty root with any kept `size`, yields the directly
      built midpoint tree, with `size` grown by the node count: ordered,
      balanced, with the same in-order values and node count as `t`. */
  lemma Rebuilt(t: Tree, start: BinaryTree, a: BinaryTree)
    requires start.root.Nil? && IsBst(t)
    requires var nodes := InOrder(t); a == AddMultiple(start, MidOrder(nodes, 0, |nodes| - 1))
    ensures var nodes := InOrder(t);
      && a == BinaryTree(Build(nodes, 0, |nodes| - 1), start.size + NodeCount(t))
      && IsBst(a.root) && IsBalanced(a.root) && InOrder(a.root) == nodes && NodeCount(a.root) == NodeCount(t)
      && |nodes| == NodeCount(t)
  {
    var nodes := InOrder(t);
    var n := |nodes|;
    assert n == NodeCount(t) && StrictlyIncreasing(nodes) by {
      InOrderFacts(t);
      BstIffSortedInOrder(t);
    }
    AddsBuildTree(nodes, start);
    BuildOrdered(nodes);
    BuildIsBalanced(nodes, 0, n - 1);
  }

  /** The tree `balance()` returns is a fresh tree with the in-order values
      added in the recursion's order. */
  lemma BalanceAdds(bt: BinaryTree)
    ensures var nodes := InOrder(bt.root);
      Balance(bt).balancedTree == AddMultiple(EmptyTree, MidOrder(nodes, 0, |nodes| - 1))
  {
  }

  /** After the two opening steps, step `k + 2` of `balance()` announces and
      highlights the `k`-th value added, and shows a tree holding exactly
      the first `k + 1` values added. */
  lemma BalanceStepAt(bt: BinaryTree, k: int)
    requires 0 <= k < NodeCount(bt.root)
    ensures var nodes := InOrder(bt.root);
      var order := MidOrder(nodes, 0, |nodes| - 1);
      && |order| == NodeCount(bt.root)
      && Balance(bt).steps[k + 2].description == AddingNode(order[k])
      && Balance(bt).steps[k + 2].highlighted == [order[k]]
      && Balance(bt).steps[k + 2].treeState == AddMultiple(EmptyTree, order[..k + 1])
      && Contents(Balance(bt).steps[k + 2].treeState.root) == SetOf(order[..k + 1])
  {
    var nodes := InOrder(bt.root);
    var order := MidOrder(nodes, 0, |nodes| - 1);
    BalanceStepIs(bt, k);
    AddStepAt(EmptyTree, order, k);
    AddMultipleFacts(EmptyTree, order[..k + 1]);
  }

  /** On an ordered tree the values the adding steps highlight, in order,
      are the pre-order of the tree `balance()` returns. */
  lemma BalanceHighlightsPreOrder(bt: BinaryTree, k: int)
    requires IsBst(bt.root) && 0 <= k < NodeCount(bt.root)
    ensures var pre := PreOrder(Balance(bt).balancedTree.root);
      && |pre| == NodeCount(bt.root)
      && Balance(bt).steps[k + 2].highlighted == [pre[k]]
  {
    var nodes := InOrder(bt.root);
    BalanceResult(bt);
    BuildPreOrder(nodes, 0, |nodes| - 1);
    BalanceStepAt(bt, k);
  }

  /** Step `k + 2` of `balance()` is the `k`-th step recorded while adding
      the values in the recursion's order. */
  lemma BalanceStepIs(bt: BinaryTree, k: int)
    requires 0 <= k < NodeCount(bt.root)
    ensures var nodes := InOrder(bt.root);
      var order := MidOrder(nodes, 0, |nodes| - 1);
      && |order| == NodeCount(bt.root)
      && Balance(bt).steps[k + 2] == AddSteps(EmptyTree, order)[k]
  {
    var nodes := InOrder(bt.root);
    InOrderFacts(bt.root);
    MidOrderLength(nodes, 0, |nodes| - 1);
    BalanceStepsShape(bt);
    MiddleAt(Balance(bt).steps, BalanceStep(StartBalancing, [], bt), BalanceStep(ConvertToSorted, nodes, bt),
             AddSteps(EmptyTree, MidOrder(nodes, 0, |nodes| - 1)),
             [BalanceStep(BalancingComplete, [], Balance(bt).balancedTree)], k + 2);
  }

  /** The steps of `balance()`: the two opening snapshots, the steps
      recorded while adding the values in the recursion's order to a fresh
      tree, and the closing snapshot. */
  lemma BalanceStepsShape(bt: BinaryTree)
    ensures var nodes := InOrder(bt.root);
      Balance(bt).steps == [BalanceStep(StartBalancing, [], bt), BalanceStep(ConvertToSorted, nodes, bt)]
        + AddSteps(EmptyTree, MidOrder(nodes, 0, |nodes| - 1))
        + [BalanceStep(BalancingComplete, [], Balance(bt).balancedTree)]
  {
  }
}

=== FILE: binary_tree.dfy ===
/** The `BinaryTree` class (BinaryTree.ts): add with silent duplicate
    rejection, the minimum/maximum descents, find/isPresent, and the
    three-case remove that copies the in-order successor into a node with
    two children. The tree is a value; every operation returns a new one. */
module BinaryTrees {
  import opened Common
  import opened TreeNodes

  /** The tree object: its root and its separately stored `size` counter.
      `size` is a field of its own, as in the source, so that operations
      that replace the root without touching it can be modelled. */
  datatype BinaryTree = BinaryTree(root: Tree, size: int)

  /** `new BinaryTree()`. */
  const EmptyTree := BinaryTree(Nil, 0)

  /** Outcome of the `searchTree` descent inside `add`: the new subtree, and
      whether an equal value stopped the descent (the source returns null). */
  datatype Insertion = Insertion(tree: Tree, duplicate: bool)

  /** Outcome of `add`: the updated tree, and `rejected` for the null return
      on a duplicate. */
  datatype Added = Added(tree: BinaryTree, rejected: bool)

  /** The `searchTree` descent of `add`: left when smaller, right when
      greater, stop on an equal value, new leaf at the empty slot reached. */
  function SearchTree(t: Tree, v: int): (r: Insertion)
    ensures r.duplicate ==> r.tree == t && v in Contents(t)
    ensures IsBst(t) ==> (r.duplicate <==> v in Contents(t))
    ensures !r.duplicate ==>
      && Contents(r.tree) == Contents(t) + {v}
      && NodeCount(r.tree) == NodeCount(t) + 1
      && IsSubtree(NewTreeNode(v), r.tree)
    ensures IsBst(t) ==> IsBst(r.tree)
  {
    match t
    case Nil => Insertion(NewTreeNode(v), false)
    case Node(l, d, rt) =>
      if v < d then
        var s := SearchTree(l, v);
        Insertion(Node(s.tree, d, rt), s.duplicate)
      else if v > d then
        var s := SearchTree(rt, v);
        Insertion(Node(l, d, s.tree), s.duplicate)
      else
        Insertion(t, true)
  }

  /** `add(value)`: a duplicate leaves tree and size alone and is reported;
      otherwise the value becomes a new leaf and `size` grows by one. */
  function Add(bt: BinaryTree, v: int): (r: Added)
    ensures r.rejected ==> r.tree == bt && v in Contents(bt.root)
    ensures !r.rejected ==>
      && r.tree.size == bt.size + 1
      && Contents(r.tree.root) == Contents(bt.root) + {v}
      && NodeCount(r.tree.root) == NodeCount(bt.root) + 1
      && IsSubtree(NewTreeNode(v), r.tree.root)
    ensures IsBst(bt.root) ==> (r.rejected <==> v in Contents(bt.root))
    ensures IsBst(bt.root) ==> IsBst(r.tree.root)
  {
    var s := SearchTree(bt.root, v);
    if s.duplicate then Added(bt, true) else Added(BinaryTree(s.tree, bt.size + 1), false)
  }

  /** `addMultiple(data)`: `add` applied to each value from first to last. */
  function AddMultiple(bt: BinaryTree, data: seq<int>): (r: BinaryTree)
    ensures |data| == 0 ==> r == bt
    ensures IsBst(bt.root) ==> IsBst(r.root)
    decreases |data|
  {
    if |data| == 0 then bt else AddMultiple(Add(bt, data[0]).tree, data[1..])
  }

  /** Whatever the values, `addMultiple` stores exactly the old values plus
      the new ones, keeps the in-order sequence strictly increasing, and
      keeps `size` matching the node count when it did before. */
  lemma {:induction false} AddMultipleFacts(bt: BinaryTree, data: seq<int>)
    decreases |data|
    ensures var r := AddMultiple(bt, data);
      && Contents(r.root) == Contents(bt.root) + SetOf(data)
      && (bt.size == NodeCount(bt.root) ==> r.size == NodeCount(r.root))
      && (IsBst(bt.root) ==> IsBst(r.root) && StrictlyIncreasing(InOrder(r.root)))
  {
    if |data| == 0 {
      BstIffSortedInOrder(bt.root);
    } else {
      assert SetOf(data) == {data[0]} + SetOf(data[1..]);
      AddMultipleFacts(Add(bt, data[0]).tree, data[1..]);
    }
  }

  /** `findMin(node)`: follow left children to the end. The subtree must not
      be empty: the source dereferences it unchecked. */
  function FindMin(t: Tree): (m: int)
    requires t.Node?
    ensures m in Contents(t)
    ensures IsBst(t) ==> forall x :: x in Contents(t) ==> m <= x
  {
    if t.left.Nil? then t.data else FindMin(t.left)
  }

  /** `findMax(node)`: follow right children to the end; same precondition. */
  function FindMax(t: Tree): (m: int)
    requires t.Node?
    ensures m in Contents(t)
    ensures IsBst(t) ==> forall x :: x in Contents(t) ==> x <= m
  {
    if t.right.Nil? then t.data else FindMax(t.right)
  }

  /** `isPresent(data)`: the comparison descent reports whether it meets
      the value; on an ordered tree that is exactly membership. */
  function IsPresent(t: Tree, v: int): (b: bool)
    ensures b ==> v in Contents(t)
    ensures IsBst(t) ==> (b <==> v in Contents(t))
  {
    match t
    case Nil => false
    case Node(l, d, r) =>
      if v == d then true else if v < d then IsPresent(l, v) else IsPresent(r, v)
  }

  /** The node the comparison descent for `v` stops at, as the subtree
      rooted there: the node a reference to the node holding `v` denotes. */
  function Lookup(t: Tree, v: int): (r: Option<NodeTree>)
    ensures r.Some? ==> r.value.data == v && IsSubtree(r.value, t) && v in Contents(t)
    ensures IsBst(t) ==> (r.Some? <==> v in Contents(t))
  {
    match t
    case Nil => None
    case Node(l, d, rt) =>
      if v == d then Some(t) else if v < d then Lookup(l, v) else Lookup(rt, v)
  }

  /** `find(data)`: the loop of the source, returning the subtree rooted at
      the node that holds the value, or None when the value is absent or
      the tree is empty. */
  method Find(t: Tree, v: int) returns (r: Option<Tree>)
    ensures r.Some? ==> r.value.Node? && r.value.data == v && IsSubtree(r.value, t)
    ensures IsBst(t) ==> (r.Some? <==> v in Contents(t))
    ensures r == Lookup(t, v)
  {
    var current := t;
    while current.Node? && v != current.data
      invariant IsSubtree(current, t)
      invariant IsBst(t) ==> IsBst(current) && (v in Contents(t) <==> v in Contents(current))
      invariant Lookup(current, v) == Lookup(t, v)
      decreases current
    {
      SubtreeChildren(current, t);
      if v < current.data {
        current := current.left;
      } else {
        current := current.right;
      }
      if current.Nil? {
        return None;
      }
    }
    if current.Nil? {
      return None;
    }
    return Some(current);
  }

  /** The `removeNode` recursion: an absent value is never met, so nothing
      changes; a leaf disappears, a node with one child is replaced by that
      child, and a node with two children takes the least value of its
      right subtree, which is then removed from that subtree. */
  function RemoveNode(t: Tree, v: int): (r: Tree)
    ensures v !in Contents(t) ==> r == t
    ensures Contents(r) <= Contents(t)
  {
    match t
    case Nil => Nil
    case Node(l, d, rt) =>
      if v == d then
        if l.Nil? && rt.Nil? then Nil
        else if l.Nil? then rt
        else if rt.Nil? then l
        else
          var s := FindMin(rt);
          Node(l, s, RemoveNode(rt, s))
      else if v < d then Node(RemoveNode(l, v), d, rt)
      else Node(l, d, RemoveNode(rt, v))
  }

  /** `remove(data)`: `size` drops by one only when the value was present. */
  function Remove(bt: BinaryTree, v: int): (r: BinaryTree)
    ensures v !in Contents(bt.root) ==> r == bt
    ensures Contents(r.root) <= Contents(bt.root)
    ensures r.size == bt.size || r.size == bt.size - 1
  {
    BinaryTree(RemoveNode(bt.root, v), if IsPresent(bt.root, v) then bt.size - 1 else bt.size)
  }

  /** On an ordered tree the least value sits first in the in-order
      sequence, and is the value `findMin` returns. */
  lemma {:induction false} FindMinIsFirst(t: Tree)
    requires t.Node?
    ensures |InOrder(t)| > 0 && FindMin(t) == InOrder(t)[0]
    ensures FindMax(t) == InOrder(t)[|InOrder(t)| - 1]
  {
    if t.left.Node? {
      FindMinIsFirst(t.left);
    }
    if t.right.Node? {
      FindMinIsFirst(t.right);
    }
  }

  /** Removing a present value from an ordered tree deletes exactly that
      value from the in-order sequence and keeps everything else in order. */
  lemma {:induction false} RemoveNodeInOrder(t: Tree, v: int)
    requires IsBst(t) && v in Contents(t)
    ensures InOrder(RemoveNode(t, v)) == Without(InOrder(t), v)
    decreases t, 2
  {
    if v == t.data {
      RemoveRootInOrder(t, v);
      WithoutRoot(t);
    } else if v < t.data {
      RemoveLeftInOrder(t, v);
    } else {
      RemoveRightInOrder(t, v);
    }
  }

  /** Dropping the root's value from an ordered tree's in-order sequence
      leaves its subtrees' sequences, joined. */
  lemma WithoutRoot(t: Tree)
    requires IsBst(t) && t.Node?
    ensures Without(InOrder(t), t.data) == InOrder(t.left) + InOrder(t.right)
  {
    var a, d, b := InOrder(t.left), t.data, InOrder(t.right);
    assert d !in a && d !in b by {
      InOrderFacts(t.left);
      InOrderFacts(t.right);
    }
    calc {
      Without(InOrder(t), d);
      { assert InOrder(t) == a + [d] + b; WithoutAround(a, d, b, d); }
      Without(a, d) + [] + Without(b, d);
      { WithoutAbsent(a, d); WithoutAbsent(b, d); }
      a + [] + b;
      a + b;
    }
  }

  /** Removing a value below the root's, from the left subtree. */
  lemma {:induction false} RemoveLeftInOrder(t: Tree, v: int)
    requires IsBst(t) && v in Contents(t) && t.Node? && v < t.data
    ensures InOrder(RemoveNode(t, v)) == Without(InOrder(t), v)
    decreases t, 0
  {
    var l, d, rt := t.left, t.data, t.right;
    var a, b := InOrder(l), InOrder(rt);
    assert v in Contents(l) && v !in b by {
      InOrderFacts(rt);
    }
    calc {
      InOrder(RemoveNode(t, v));
      { assert RemoveNode(t, v) == Node(RemoveNode(l, v), d, rt); }
      InOrder(RemoveNode(l, v)) + [d] + b;
      { RemoveNodeInOrder(l, v); }
      Without(a, v) + [d] + b;
      { WithoutAbsent(b, v); }
      Without(a, v) + [d] + Without(b, v);
      { assert InOrder(t) == a + [d] + b; WithoutAround(a, d, b, v); }
      Without(InOrder(t), v);
    }
  }

  /** Removing a value above the root's, from the right subtree. */
  lemma {:induction false} RemoveRightInOrder(t: Tree, v: int)
    requires IsBst(t) && v in Contents(t) && t.Node? && v > t.data
    ensures InOrder(RemoveNode(t, v)) == Without(InOrder(t), v)
    decreases t, 0
  {
    var l, d, rt := t.left, t.data, t.right;
    var a, b := InOrder(l), InOrder(rt);
    assert v in Contents(rt) && v !in a by {
      InOrderFacts(l);
    }
    calc {
      InOrder(RemoveNode(t, v));
      { assert RemoveNode(t, v) == Node(l, d, RemoveNode(rt, v)); }
      a + [d] + InOrder(RemoveNode(rt, v));
      { RemoveNodeInOrder(rt, v); }
      a + [d] + Without(b, v);
      { WithoutAbsent(a, v); }
      Without(a, v) + [d] + Without(b, v);
      { assert InOrder(t) == a + [d] + b; WithoutAround(a, d, b, v); }
      Without(InOrder(t), v);
    }
  }

  /** Removing the value at the root of an ordered tree leaves the in-order
      sequences of the two subtrees, joined. */
  lemma {:induction false} RemoveRootInOrder(t: Tree, v: int)
    requires IsBst(t) && t.Node? && v == t.data
    ensures InOrder(RemoveNode(t, v)) == InOrder(t.left) + InOrder(t.right)
    decreases t, 1
  {
    var l, rt := t.left, t.right;
    if l.Node? && rt.Node? {
      var s := FindMin(rt);
      var ir := InOrder(rt);
      FindMinIsFirst(rt);
      BstIffSortedInOrder(rt);
      WithoutFirstOfSorted(ir);
      RemoveNodeInOrder(rt, s);
      assert RemoveNode(t, v) == Node(l, s, RemoveNode(rt, s));
      assert ir == [s] + ir[1..];
    }
  }

  /** `remove` on an ordered tree: a present value disappears, every other
      value stays, the order is kept and `size` and the node count both drop
      by one; an absent value leaves the tree and `size` as they were. */
  lemma RemoveCorrect(bt: BinaryTree, v: int)
    requires IsBst(bt.root)
    ensures var r := Remove(bt, v);
      && IsBst(r.root)
      && Contents(r.root) == Contents(bt.root) - {v}
      && !IsPresent(r.root, v)
      && (v in Contents(bt.root) ==>
            r.size == bt.size - 1 && NodeCount(r.root) == NodeCount(bt.root) - 1)
      && (v !in Contents(bt.root) ==> r == bt)
  {
    var r := Remove(bt, v);
    if v in Contents(bt.root) {
      var a, b := InOrder(bt.root), InOrder(r.root);
      assert b == Without(a, v) by {
        RemoveNodeInOrder(bt.root, v);
      }
      assert IsBst(r.root) && |b| == |a| - 1 by {
        InOrderFacts(bt.root);
        BstIffSortedInOrder(bt.root);
        WithoutSorted(a, v);
        BstIffSortedInOrder(r.root);
      }
      assert Contents(r.root) == Contents(bt.root) - {v} by {
        WithoutMembership(a, v);
        InOrderFacts(bt.root);
        InOrderFacts(r.root);
        forall x
          ensures x in Contents(r.root) <==> x in Contents(bt.root) - {v}
        {
          assert x in b <==> x in a && x != v;
        }
      }
      assert NodeCount(bt.root) == |a| by {
        InOrderFacts(bt.root);
      }
      assert NodeCount(r.root) == |b| by {
        InOrderFacts(r.root);
      }
    }
  }

  /** The two-children case: the node's new value is the in-order successor
      of the removed value (the least stored value above it), and the node
      that held the successor is gone, so the value appears once. */
  lemma {:induction false} RemoveTwoChildren(t: Tree)
    requires IsBst(t) && t.Node? && t.left.Node? && t.right.Node?
    ensures var r := RemoveNode(t, t.data);
      && r.Node? && r.data in Contents(t) && t.data < r.data
      && (forall x :: x in Contents(t) && t.data < x ==> r.data <= x)
      && r.data !in Contents(r.left) + Contents(r.right)
  {
    var s := FindMin(t.right);
    var r := RemoveNode(t, t.data);
    assert r == Node(t.left, s, RemoveNode(t.right, s));
    RemoveCorrect(BinaryTree(t.right, 0), s);
  }
}

=== FILE: common.dfy ===
/** Shared vocabulary: an optional value, and facts about integer sequences
    that the tree modules state their contracts in. */
module Common {

  /** A value that may be absent; stands for the source's `T | null`. */
  datatype Option<+T> = None | Some(value: T)

  /** Every element is smaller than every later one, so no value repeats. */
  predicate StrictlyIncreasing(s: seq<int>) {
    forall i, j :: 0 <= i < j < |s| ==> s[i] < s[j]
  }

  /** `s` with every occurrence of `v` dropped, the rest in their order. */
  function Without(s: seq<int>, v: int): seq<int> {
    if |s| == 0 then [] else (if s[0] == v then [] else [s[0]]) + Without(s[1..], v)
  }

  /** Two to the power `n`. */
  function Pow2(n: nat): (p: nat)
    ensures p >= 1
  {
    if n == 0 then 1 else 2 * Pow2(n - 1)
  }

  /** The values occurring in `s`. */
  function SetOf(s: seq<int>): set<int> {
    set x | x in s
  }

  /** `p` is an initial segment of `s`. */
  predicate HasPrefix<T(==)>(s: seq<T>, p: seq<T>) {
    |p| <= |s| && s[..|p|] == p
  }

  lemma {:induction false} Pow2Monotone(a: nat, b: nat)
    requires a <= b
    ensures Pow2(a) <= Pow2(b)
    decreases b
  {
    if a < b {
      Pow2Monotone(a, b - 1);
    }
  }

  lemma {:induction false} WithoutMembership(s: seq<int>, v: int)
    ensures forall x :: x in Without(s, v) <==> x in s && x != v
  {
    if |s| > 0 {
      WithoutMembership(s[1..], v);
      assert s == [s[0]] + s[1..];
    }
  }

  lemma {:induction false} WithoutAbsent(s: seq<int>, v: int)
    requires v !in s
    ensures Without(s, v) == s
  {
    if |s| > 0 {
      assert v !in s[1..];
      WithoutAbsent(s[1..], v);
      assert s == [s[0]] + s[1..];
    }
  }

  lemma {:induction false} WithoutConcat(a: seq<int>, b: seq<int>, v: int)
    ensures Without(a + b, v) == Without(a, v) + Without(b, v)
  {
    if |a| == 0 {
      assert a + b == b;
    } else {
      assert (a + b)[1..] == a[1..] + b;
      WithoutConcat(a[1..], b, v);
    }
  }

  lemma {:induction false} WithoutSorted(s: seq<int>, v: int)
    requires StrictlyIncreasing(s)
    ensures StrictlyIncreasing(Without(s, v))
    ensures v in s ==> |Without(s, v)| == |s| - 1
    ensures v !in s ==> Without(s, v) == s
  {
    if v !in s {
      WithoutAbsent(s, v);
    } else if s[0] == v {
      assert v !in s[1..];
      WithoutAbsent(s[1..], v);
    } else {
      var t := s[1..];
      assert StrictlyIncreasing(t);
      WithoutSorted(t, v);
      WithoutMembership(t, v);
      var w := Without(t, v);
      assert Without(s, v) == [s[0]] + w;
      forall j | 0 <= j < |w|
        ensures s[0] < w[j]
      {
        assert w[j] in w;
        var k :| 0 <= k < |t| && t[k] == w[j];
        assert s[k + 1] == w[j];
      }
    }
  }

  lemma WithoutFirstOfSorted(s: seq<int>)
    requires StrictlyIncreasing(s) && |s| > 0
    ensures Without(s, s[0]) == s[1..]
  {
    assert s[0] !in s[1..];
    WithoutAbsent(s[1..], s[0]);
  }

  lemma WithoutAround(a: seq<int>, d: int, b: seq<int>, v: int)
    ensures Without(a + [d] + b, v) == Without(a, v) + (if d == v then [] else [d]) + Without(b, v)
  {
    WithoutConcat(a + [d], b, v);
    WithoutConcat(a, [d], v);
    assert Without([d], v) == (if d == v then [] else [d]);
  }

  /** An index past two leading elements and into the middle part. */
  lemma MiddleAt<T>(s: seq<T>, x: T, y: T, m: seq<T>, c: seq<T>, k: int)
    requires s == [x, y] + m + c && 2 <= k < |m| + 2
    ensures s[k] == m[k - 2]
  {
  }
}

=== FILE: messages.dfy ===
/** The step descriptions the balancing routine (BalancedBinaryTree.ts) and
    the animation step generator (BinaryTreeContext.tsx) attach to each
    step. The source builds them as template strings; here each template
    is a constructor carrying the numbers interpolated into it, so two
    steps have the same text exactly when they have the same message. */
module Messages {

  /** The four traversal orders the animation can show. */
  datatype Order = InOrderWalk | PreOrderWalk | PostOrderWalk | LevelOrderWalk

  datatype Message =
    // traversals
    | StartTraversal(order: Order)             // a traversal of the given order begins
    | Visiting(v: int)                         // the node holding v is visited
    | TraversalComplete(order: Order)          // the traversal has finished
    // balancing
    | StartBalancing                           // balancing begins
    | AlreadyBalanced                          // nothing to do, the tree is balanced
    | ConvertToSorted                          // the in-order values are read off
    | AddingNode(v: int)                       // v is added to the rebuilt tree
    | BalancingComplete                        // balancing has finished
    // insertion
    | InsertionIntro                           // the insertion demonstration is shown
    | StartInsertion(v: int)                   // inserting v begins
    | Comparing(v: int, c: int)                // v is compared with the node holding c
    | GoLeft(v: int, c: int)                   // v is smaller than c, descend left
    | GoRight(v: int, c: int)                  // v is larger than c, descend right
    | FoundLeft(c: int)                        // v goes in as c's left child
    | FoundRight(c: int)                       // v goes in as c's right child
    | Inserted(v: int)                         // v has been inserted
    // deletion
    | DeletionIntro                            // the deletion demonstration is shown
    | SelectPrompt                             // no node is selected yet
    | Deleting(d: int)                         // deleting d begins
    | IsLeaf(d: int)                           // d has no children
    | SimplyRemove(d: int)                     // the leaf d is dropped
    | OnlyRightChild(d: int, c: int)           // d's one child is its right child c
    | ReplaceWithRight(d: int, c: int)         // c takes d's place
    | OnlyLeftChild(d: int, c: int)            // d's one child is its left child c
    | ReplaceWithLeft(d: int, c: int)          // c takes d's place
    | BothChildren(d: int)                     // d has two children
    | FindSuccessor(s: int)                    // s is the least value of d's right subtree
    | ReplaceWithSuccessor(d: int, s: int)     // d's value is overwritten by s
    | DeleteDuplicateSuccessor(s: int)         // the old node holding s is removed on the right
    | Deleted(d: int)                          // d has been deleted
}

=== FILE: traversals.dfy ===
/** The four traversals of the tree (BinaryTree.ts) and the separate
    walks the animation code performs for the same orders
    (BinaryTreeContext.tsx). Nodes are reported by their values, which are
    unique in an ordered tree and are what the animation steps record. */
module Traversals {
  import opened Common
  import opened TreeNodes
  import opened BinaryTrees
  import opened TreeShape

  // ---------------------------------------------------------------------
  // Depth-first orders
  // ---------------------------------------------------------------------

  /** Pre-order (node, left, right), skipping empty subtrees; this is also
      the animation code's own walk, which returns on a null node. */
  function PreOrder(t: Tree): seq<int> {
    match t
    case Nil => []
    case Node(l, d, r) => [d] + PreOrder(l) + PreOrder(r)
  }

  /** Post-order (left, right, node); also the animation code's walk. */
  function PostOrder(t: Tree): seq<int> {
    match t
    case Nil => []
    case Node(l, d, r) => PostOrder(l) + PostOrder(r) + [d]
  }

  /** The inner closure of `inOrder()`: called on a node, it descends into a
      child only when that child exists. */
  function InOrderWalk(n: Tree): seq<int>
    requires n.Node?
  {
    (if n.left.Node? then InOrderWalk(n.left) else [])
    + [n.data]
    + (if n.right.Node? then InOrderWalk(n.right) else [])
  }

  /** The inner closure of `preOrder()`. */
  function PreOrderWalk(n: Tree): seq<int>
    requires n.Node?
  {
    [n.data]
    + (if n.left.Node? then PreOrderWalk(n.left) else [])
    + (if n.right.Node? then PreOrderWalk(n.right) else [])
  }

  /** The inner closure of `postOrder()`. */
  function PostOrderWalk(n: Tree): seq<int>
    requires n.Node?
  {
    (if n.left.Node? then PostOrderWalk(n.left) else [])
    + (if n.right.Node? then PostOrderWalk(n.right) else [])
    + [n.data]
  }

  /** `inOrder()` (and `traverse()`, which returns it): every value once,
      and on an ordered tree in strictly increasing order. */
  function InOrderTraversal(bt: BinaryTree): (r: seq<int>)
    ensures r == InOrder(bt.root)
    ensures |r| == NodeCount(bt.root)
    ensures forall x :: x in r <==> x in Contents(bt.root)
    ensures IsBst(bt.root) <==> StrictlyIncreasing(r)
  {
    InOrderFacts(bt.root);
    BstIffSortedInOrder(bt.root);
    if bt.root.Nil? then [] else InOrderWalkIsInOrder(bt.root); InOrderWalk(bt.root)
  }

  /** `preOrder()`: agrees with the animation walk; the root comes first. */
  function PreOrderTraversal(bt: BinaryTree): (r: seq<int>)
    ensures r == PreOrder(bt.root)
    ensures bt.root.Node? ==> |r| > 0 && r[0] == bt.root.data
  {
    if bt.root.Nil? then [] else PreOrderWalkIsPreOrder(bt.root); PreOrderWalk(bt.root)
  }

  /** `postOrder()`: agrees with the animation walk; the root comes last. */
  function PostOrderTraversal(bt: BinaryTree): (r: seq<int>)
    ensures r == PostOrder(bt.root)
    ensures bt.root.Node? ==> |r| > 0 && r[|r| - 1] == bt.root.data
  {
    if bt.root.Nil? then [] else PostOrderWalkIsPostOrder(bt.root); PostOrderWalk(bt.root)
  }

  lemma {:induction false} InOrderWalkIsInOrder(n: Tree)
    requires n.Node?
    ensures InOrderWalk(n) == InOrder(n)
  {
    if n.left.Node? {
      InOrderWalkIsInOrder(n.left);
    }
    if n.right.Node? {
      InOrderWalkIsInOrder(n.right);
    }
  }

  lemma {:induction false} PreOrderWalkIsPreOrder(n: Tree)
    requires n.Node?
    ensures PreOrderWalk(n) == PreOrder(n)
  {
    if n.left.Node? {
      PreOrderWalkIsPreOrder(n.left);
    }
    if n.right.Node? {
      PreOrderWalkIsPreOrder(n.right);
    }
  }

  lemma {:induction false} PostOrderWalkIsPostOrder(n: Tree)
    requires n.Node?
    ensures PostOrderWalk(n) == PostOrder(n)
  {
    if n.left.Node? {
      PostOrderWalkIsPostOrder(n.left);
    }
    if n.right.Node? {
      PostOrderWalkIsPostOrder(n.right);
    }
  }

  /** Pre-order and post-order list the same values as in-order, each as
      often: every node exactly once. */
  lemma DepthFirstPermutation(t: Tree)
    ensures multiset(PreOrder(t)) == multiset(InOrder(t))
    ensures multiset(PostOrder(t)) == multiset(InOrder(t))
    ensures |PreOrder(t)| == NodeCount(t) && |PostOrder(t)| == NodeCount(t)
    ensures forall x :: x in PreOrder(t) <==> x in Contents(t)
    ensures forall x :: x in PostOrder(t) <==> x in Contents(t)
  {
    InOrderFacts(t);
    PreOrderBag(t);
    PostOrderBag(t);
    assert |PreOrder(t)| == |multiset(PreOrder(t))|;
    assert |PostOrder(t)| == |multiset(PostOrder(t))|;
    forall x
      ensures x in PreOrder(t) <==> x in multiset(PreOrder(t))
      ensures x in PostOrder(t) <==> x in multiset(PostOrder(t))
      ensures x in InOrder(t) <==> x in multiset(InOrder(t))
    {
    }
  }

  lemma {:induction false} PreOrderBag(t: Tree)
    ensures multiset(PreOrder(t)) == multiset(InOrder(t))
  {
    match t
    case Nil =>
    case Node(l, d, r) =>
      calc {
        multiset(PreOrder(t));
        multiset([d]) + multiset(PreOrder(l)) + multiset(PreOrder(r));
        { PreOrderBag(l); PreOrderBag(r); }
        multiset(InOrder(l)) + multiset([d]) + multiset(InOrder(r));
        multiset(InOrder(t));
      }
  }

  lemma {:induction false} PostOrderBag(t: Tree)
    ensures multiset(PostOrder(t)) == multiset(InOrder(t))
  {
    match t
    case Nil =>
    case Node(l, d, r) =>
      calc {
        multiset(PostOrder(t));
        multiset(PostOrder(l)) + multiset(PostOrder(r)) + multiset([d]);
        { PostOrderBag(l); PostOrderBag(r); }
        multiset(InOrder(l)) + multiset([d]) + multiset(InOrder(r));
        multiset(InOrder(t));
      }
  }

  /** The left-right mirror image of a tree. */
  function Mirror(t: Tree): Tree {
    match t
    case Nil => Nil
    case Node(l, d, r) => Node(Mirror(r), d, Mirror(l))
  }

  /** A sequence back to front. */
  function Reverse(s: seq<int>): seq<int> {
    if |s| == 0 then [] else Reverse(s[1..]) + [s[0]]
  }

  lemma {:induction false} ReverseConcat(a: seq<int>, b: seq<int>)
    ensures Reverse(a + b) == Reverse(b) + Reverse(a)
  {
    if |a| == 0 {
      assert a + b == b;
    } else {
      assert (a + b)[1..] == a[1..] + b;
      ReverseConcat(a[1..], b);
    }
  }

  /** Post-order is pre-order of the mirror image, read backwards: the two
      depth-first walks are each other's reflection. */
  lemma {:induction false} PostOrderIsReversedMirrorPreOrder(t: Tree)
    ensures PostOrder(t) == Reverse(PreOrder(Mirror(t)))
  {
    match t
    case Nil =>
    case Node(l, d, r) =>
      PostOrderIsReversedMirrorPreOrder(l);
      PostOrderIsReversedMirrorPreOrder(r);
      var pl, pr := PreOrder(Mirror(l)), PreOrder(Mirror(r));
      assert PreOrder(Mirror(t)) == [d] + (pr + pl);
      ReverseConcat([d], pr + pl);
      ReverseConcat(pr, pl);
      assert Reverse([d]) == [d];
  }

  // ---------------------------------------------------------------------
  // Pre-order rebuilds the tree
  // ---------------------------------------------------------------------

  lemma {:induction false} AddMultipleConcat(bt: BinaryTree, a: seq<int>, b: seq<int>)
    ensures AddMultiple(bt, a + b) == AddMultiple(AddMultiple(bt, a), b)
    decreases |a|
  {
    if |a| == 0 {
      assert a + b == b;
    } else {
      assert (a + b)[0] == a[0] && (a + b)[1..] == a[1..] + b;
      AddMultipleConcat(Add(bt, a[0]).tree, a[1..], b);
    }
  }

  /** Values all smaller than the root only ever descend to the left. */
  lemma {:induction false} AddMultipleBelow(l: Tree, m: int, r: Tree, s: int, xs: seq<int>)
    requires forall i :: 0 <= i < |xs| ==> xs[i] < m
    ensures var u := AddMultiple(BinaryTree(l, s), xs);
      AddMultiple(BinaryTree(Node(l, m, r), s), xs) == BinaryTree(Node(u.root, m, r), u.size)
    decreases |xs|
  {
    if |xs| > 0 {
      var a := Add(BinaryTree(l, s), xs[0]).tree;
      assert Add(BinaryTree(Node(l, m, r), s), xs[0]).tree == BinaryTree(Node(a.root, m, r), a.size);
      AddMultipleBelow(a.root, m, r, a.size, xs[1..]);
    }
  }

  /** Values all greater than the root only ever descend to the right. */
  lemma {:induction false} AddMultipleAbove(l: Tree, m: int, r: Tree, s: int, xs: seq<int>)
    requires forall i :: 0 <= i < |xs| ==> m < xs[i]
    ensures var u := AddMultiple(BinaryTree(r, s), xs);
      AddMultiple(BinaryTree(Node(l, m, r), s), xs) == BinaryTree(Node(l, m, u.root), u.size)
    decreases |xs|
  {
    if |xs| > 0 {
      var a := Add(BinaryTree(r, s), xs[0]).tree;
      assert Add(BinaryTree(Node(l, m, r), s), xs[0]).tree == BinaryTree(Node(l, m, a.root), a.size);
      AddMultipleAbove(l, m, a.root, a.size, xs[1..]);
    }
  }

  /** Adding the pre-order values of an ordered tree, one by one, to an
      empty tree rebuilds exactly that tree, and `size` grows by its node
      count: pre-order determines the shape. */
  lemma {:induction false} PreOrderRebuilds(t: Tree, s: int)
    requires IsBst(t)
    ensures AddMultiple(BinaryTree(Nil, s), PreOrder(t)) == BinaryTree(t, s + NodeCount(t))
    decreases t, 0
  {
    match t
    case Nil =>
    case Node(l, d, r) =>
      var pl, pr := PreOrder(l), PreOrder(r);
      var e := BinaryTree(Nil, s);
      var sl := s + 1 + NodeCount(l);
      assert PreOrder(t) == [d] + pl + pr;
      calc {
        AddMultiple(e, PreOrder(t));
        { AddMultipleConcat(e, [d] + pl, pr); }
        AddMultiple(AddMultiple(e, [d] + pl), pr);
        { AddMultipleConcat(e, [d], pl); }
        AddMultiple(AddMultiple(AddMultiple(e, [d]), pl), pr);
        { AddOne(s, d); }
        AddMultiple(AddMultiple(BinaryTree(Node(Nil, d, Nil), s + 1), pl), pr);
        { RebuildLeft(l, d, s, pl); }
        AddMultiple(BinaryTree(Node(l, d, Nil), sl), pr);
        { RebuildRight(l, d, r, sl, pr); }
        BinaryTree(t, sl + NodeCount(r));
      }
  }

  lemma AddOne(s: int, d: int)
    ensures AddMultiple(BinaryTree(Nil, s), [d]) == BinaryTree(Node(Nil, d, Nil), s + 1)
  {
    assert [d][1..] == [];
  }

  /** The left half of the rebuild: below a fresh root `d`, the pre-order
      of the left subtree rebuilds it. */
  lemma RebuildLeft(l: Tree, d: int, s: int, pl: seq<int>)
    requires IsBst(l) && pl == PreOrder(l)
    requires forall x :: x in Contents(l) ==> x < d
    ensures AddMultiple(BinaryTree(Node(Nil, d, Nil), s + 1), pl)
      == BinaryTree(Node(l, d, Nil), s + 1 + NodeCount(l))
    decreases l, 1
  {
    DepthFirstPermutation(l);
    forall i | 0 <= i < |pl|
      ensures pl[i] < d
    {
      assert pl[i] in pl;
    }
    AddMultipleBelow(Nil, d, Nil, s + 1, pl);
    PreOrderRebuilds(l, s + 1);
  }

  /** The right half of the rebuild, beside the rebuilt left subtree. */
  lemma RebuildRight(l: Tree, d: int, r: Tree, sl: int, pr: seq<int>)
    requires IsBst(r) && pr == PreOrder(r)
    requires forall x :: x in Contents(r) ==> d < x
    ensures AddMultiple(BinaryTree(Node(l, d, Nil), sl), pr)
      == BinaryTree(Node(l, d, r), sl + NodeCount(r))
    decreases r, 1
  {
    DepthFirstPermutation(r);
    forall i | 0 <= i < |pr|
      ensures d < pr[i]
    {
      assert pr[i] in pr;
    }
    AddMultipleAbove(l, d, Nil, sl, pr);
    PreOrderRebuilds(r, sl);
  }

  // ---------------------------------------------------------------------
  // Level order
  // ---------------------------------------------------------------------

  /** The children a dequeued node puts on the queue: only present ones. */
  function Kids(n: Tree): seq<Tree> {
    if n.Nil? then []
    else (if n.left.Node? then [n.left] else []) + (if n.right.Node? then [n.right] else [])
  }

  /** Total node count of a queue of subtrees. */
  function Weight(q: seq<Tree>): nat {
    if |q| == 0 then 0 else NodeCount(q[0]) + Weight(q[1..])
  }

  lemma {:induction false} WeightConcat(a: seq<Tree>, b: seq<Tree>)
    ensures Weight(a + b) == Weight(a) + Weight(b)
  {
    if |a| == 0 {
      assert a + b == b;
    } else {
      assert (a + b)[1..] == a[1..] + b;
      WeightConcat(a[1..], b);
    }
  }

  /** The queue loop: take the front node, report its value, append its
      present children. An empty entry, which the loops never enqueue, is
      dropped, as the source's `if (node)` guard does. */
  function Bfs(q: seq<Tree>): seq<int>
    decreases 2 * Weight(q) + |q|
  {
    if |q| == 0 then []
    else
      WeightConcat(q[1..], Kids(q[0]));
      assert q == [q[0]] + q[1..];
      WeightConcat([q[0]], q[1..]);
      if q[0].Nil? then Bfs(q[1..])
      else
        KidsWeight(q[0]);
        [q[0].data] + Bfs(q[1..] + Kids(q[0]))
  }

  /** `levelOrder()`, as the source's loop over an explicit queue: it
      computes the queue function above from the root. */
  method LevelOrder(bt: BinaryTree) returns (r: seq<int>)
    ensures r == ByLevels(bt.root)
    ensures bt.root.Node? ==> |r| > 0 && r[0] == bt.root.data
  {
    LevelOrderIsByLevels(bt.root);
    if bt.root.Nil? {
      return [];
    }
    r := [];
    var queue := [bt.root];
    while |queue| > 0
      invariant r + Bfs(queue) == Bfs([bt.root])
      decreases 2 * Weight(queue) + |queue|
    {
      ghost var before := queue;
      var node := queue[0];
      var rest := queue[1..];
      assert before == [node] + rest;
      WeightConcat([node], rest);
      queue := rest;
      if node.Node? {
        r := r + [node.data];
        if node.left.Node? {
          queue := queue + [node.left];
        }
        if node.right.Node? {
          queue := queue + [node.right];
        }
        assert queue == rest + Kids(node);
        KidsWeight(node);
        WeightConcat(rest, Kids(node));
        assert Bfs(before) == [node.data] + Bfs(rest + Kids(node));
      } else {
        assert Bfs(before) == Bfs(rest);
      }
    }
  }

  /** A dequeued node hands its weight, less itself, to at most two children. */
  lemma KidsWeight(n: Tree)
    requires n.Node?
    ensures Weight(Kids(n)) == NodeCount(n) - 1 && |Kids(n)| <= 2
  {
    var a := if n.left.Node? then [n.left] else [];
    var b := if n.right.Node? then [n.right] else [];
    WeightConcat(a, b);
  }

  /** The values at depth exactly `k`, left to right. */
  function Level(t: Tree, k: nat): seq<int> {
    match t
    case Nil => []
    case Node(l, d, r) => if k == 0 then [d] else Level(l, k - 1) + Level(r, k - 1)
  }

  /** Levels `lo`, `lo + 1`, ... (`n` of them) of a tree, top to bottom. */
  function LevelsFrom(t: Tree, lo: nat, n: int): seq<int>
    decreases n
  {
    if n <= 0 then [] else Level(t, lo) + LevelsFrom(t, lo + 1, n - 1)
  }

  /** Independent description of the level order: every level of the tree,
      from the root's down to the deepest, each read left to right. */
  function ByLevels(t: Tree): seq<int> {
    LevelsFrom(t, 0, MaxHeight(t) + 1)
  }

  /** The values at depth `k` across a queue of subtrees, in queue order. */
  function LevelOf(q: seq<Tree>, k: nat): seq<int> {
    if |q| == 0 then [] else Level(q[0], k) + LevelOf(q[1..], k)
  }

  function LevelsOf(q: seq<Tree>, lo: nat, n: int): seq<int>
    decreases n
  {
    if n <= 0 then [] else LevelOf(q, lo) + LevelsOf(q, lo + 1, n - 1)
  }

  /** The values of the queue's front nodes, in queue order. */
  function Values(q: seq<Tree>): seq<int> {
    if |q| == 0 then [] else (if q[0].Node? then [q[0].data] else []) + Values(q[1..])
  }

  /** Every child the queue's nodes put on the queue, in queue order. */
  function Children(q: seq<Tree>): seq<Tree> {
    if |q| == 0 then [] else Kids(q[0]) + Children(q[1..])
  }

  lemma {:induction false} LevelOfConcat(a: seq<Tree>, b: seq<Tree>, k: nat)
    ensures LevelOf(a + b, k) == LevelOf(a, k) + LevelOf(b, k)
  {
    if |a| == 0 {
      assert a + b == b;
    } else {
      assert (a + b)[1..] == a[1..] + b;
      LevelOfConcat(a[1..], b, k);
    }
  }

  lemma {:induction false} LevelOfFront(q: seq<Tree>)
    ensures LevelOf(q, 0) == Values(q)
  {
    if |q| > 0 {
      LevelOfFront(q[1..]);
    }
  }

  /** One level further down the queue is the same level of the children. */
  lemma {:induction false} LevelOfChildren(q: seq<Tree>, k: nat)
    ensures LevelOf(q, k + 1) == LevelOf(Children(q), k)
  {
    if |q| > 0 {
      LevelOfChildren(q[1..], k);
      var n := q[0];
      LevelOfConcat(Kids(n), Children(q[1..]), k);
      if n.Node? {
        var a := if n.left.Node? then [n.left] else [];
        var b := if n.right.Node? then [n.right] else [];
        LevelOfConcat(a, b, k);
        assert LevelOf(a, k) == Level(n.left, k);
        assert LevelOf(b, k) == Level(n.right, k);
      }
    }
  }

  lemma {:induction false} LevelsOfChildren(q: seq<Tree>, lo: nat, n: int)
    ensures LevelsOf(q, lo + 1, n) == LevelsOf(Children(q), lo, n)
    decreases n
  {
    if n > 0 {
      LevelOfChildren(q, lo);
      LevelsOfChildren(q, lo + 1, n - 1);
    }
  }

  /** A queue of subtrees none of which reaches depth `n` has children none
      of which reaches depth `n - 1`. */
  lemma {:induction false} ChildrenShallower(q: seq<Tree>, n: int)
    requires forall c | c in q :: MaxHeight(c) < n
    ensures forall c | c in Children(q) :: MaxHeight(c) < n - 1
  {
    if |q| > 0 {
      assert q[0] in q;
      forall c | c in q[1..]
        ensures MaxHeight(c) < n
      {
        assert c in q;
      }
      ChildrenShallower(q[1..], n);
    }
  }

  lemma {:induction false} BfsOfEmpties(q: seq<Tree>)
    requires forall c | c in q :: c.Nil?
    ensures Bfs(q) == []
    decreases |q|
  {
    if |q| > 0 {
      assert q[0] in q;
      forall c | c in q[1..]
        ensures c.Nil?
      {
        assert c in q;
      }
      BfsOfEmpties(q[1..]);
    }
  }

  /** Running the queue past all of its current entries: their values come
      out first, then the loop continues on whatever was behind them
      followed by their children. */
  lemma {:induction false} BfsRound(q: seq<Tree>, e: seq<Tree>)
    ensures Bfs(q + e) == Values(q) + Bfs(e + Children(q))
    decreases |q|, 1
  {
    if |q| == 0 {
      calc {
        Bfs(q + e);
        { assert q + e == e; }
        Bfs(e);
        { assert e + Children(q) == e; }
        Bfs(e + Children(q));
        { assert Values(q) == []; }
        Values(q) + Bfs(e + Children(q));
      }
    } else if q[0].Nil? {
      BfsRoundSkip(q, e);
    } else {
      BfsRoundVisit(q, e);
    }
  }

  /** `BfsRound` when the front of the queue is empty: it is dropped. */
  lemma {:induction false} BfsRoundSkip(q: seq<Tree>, e: seq<Tree>)
    requires |q| > 0 && q[0].Nil?
    ensures Bfs(q + e) == Values(q) + Bfs(e + Children(q))
    decreases |q|, 0
  {
    calc {
      Bfs(q + e);
      { BfsHead(q, e); }
      Bfs(q[1..] + e);
      { BfsRound(q[1..], e); }
      Values(q[1..]) + Bfs(e + Children(q[1..]));
      { assert Children(q) == Children(q[1..]); }
      Values(q) + Bfs(e + Children(q));
    }
  }

  /** `BfsRound` when the front of the queue is a node: its value comes out
      and its children join the back. */
  lemma {:induction false} BfsRoundVisit(q: seq<Tree>, e: seq<Tree>)
    requires |q| > 0 && q[0].Node?
    ensures Bfs(q + e) == Values(q) + Bfs(e + Children(q))
    decreases |q|, 0
  {
    var n := q[0];
    calc {
      Bfs(q + e);
      { BfsHead(q, e); }
      [n.data] + Bfs(q[1..] + (e + Kids(n)));
      { BfsRound(q[1..], e + Kids(n)); }
      [n.data] + (Values(q[1..]) + Bfs(e + Kids(n) + Children(q[1..])));
      { assert e + Kids(n) + Children(q[1..]) == e + Children(q); }
      [n.data] + Values(q[1..]) + Bfs(e + Children(q));
      { assert Values(q) == [n.data] + Values(q[1..]); }
      Values(q) + Bfs(e + Children(q));
    }
  }

  /** One turn of the queue loop on a queue whose front is `q[0]`. */
  lemma BfsHead(q: seq<Tree>, e: seq<Tree>)
    requires |q| > 0
    ensures q[0].Nil? ==> Bfs(q + e) == Bfs(q[1..] + e)
    ensures q[0].Node? ==> Bfs(q + e) == [q[0].data] + Bfs(q[1..] + (e + Kids(q[0])))
  {
    var qe := q + e;
    assert qe[0] == q[0] && qe[1..] == q[1..] + e;
    assert q[1..] + e + Kids(q[0]) == q[1..] + (e + Kids(q[0]));
  }

  /** The queue loop emits its subtrees level by level. */
  lemma {:induction false} BfsIsLevels(q: seq<Tree>, n: int)
    requires forall c | c in q :: MaxHeight(c) < n
    ensures Bfs(q) == LevelsOf(q, 0, n)
    decreases n
  {
    if n <= 0 {
      forall c | c in q
        ensures c.Nil?
      {
        HeightBounds(c);
      }
      BfsOfEmpties(q);
    } else {
      BfsRound(q, []);
      assert q + [] == q;
      assert [] + Children(q) == Children(q);
      ChildrenShallower(q, n);
      BfsIsLevels(Children(q), n - 1);
      LevelOfFront(q);
      LevelsOfChildren(q, 0, n - 1);
    }
  }

  lemma {:induction false} LevelsOfSingle(t: Tree, lo: nat, n: int)
    ensures LevelsOf([t], lo, n) == LevelsFrom(t, lo, n)
    decreases n
  {
    if n > 0 {
      LevelOfSingle(t, lo);
      LevelsOfSingle(t, lo + 1, n - 1);
    }
  }

  lemma LevelOfSingle(t: Tree, k: nat)
    ensures LevelOf([t], k) == Level(t, k)
  {
    assert [t][1..] == [];
    assert LevelOf([t], k) == Level(t, k) + [];
  }

  /** The queue loop started from a tree's root reads the tree level by
      level, top to bottom and left to right within each level. */
  lemma LevelOrderIsByLevels(t: Tree)
    ensures Bfs([t]) == ByLevels(t)
  {
    BfsIsLevels([t], MaxHeight(t) + 1);
    LevelsOfSingle(t, 0, MaxHeight(t) + 1);
  }
  /** The values held by a queue of subtrees, with multiplicity. */
  function Bag(q: seq<Tree>): multiset<int> {
    if |q| == 0 then multiset{} else multiset(InOrder(q[0])) + Bag(q[1..])
  }

  lemma {:induction false} BagConcat(a: seq<Tree>, b: seq<Tree>)
    ensures Bag(a + b) == Bag(a) + Bag(b)
  {
    if |a| == 0 {
      assert a + b == b;
    } else {
      assert (a + b)[1..] == a[1..] + b;
      BagConcat(a[1..], b);
    }
  }

  /** The queue loop emits every value of its subtrees exactly once. */
  lemma {:induction false} BfsBag(q: seq<Tree>)
    ensures multiset(Bfs(q)) == Bag(q)
    decreases 2 * Weight(q) + |q|
  {
    if |q| > 0 {
      var n := q[0];
      var rest := q[1..];
      WeightConcat(rest, Kids(n));
      assert q == [n] + rest;
      WeightConcat([n], rest);
      if n.Nil? {
        assert Bfs(q) == Bfs(rest);
        BfsBag(rest);
      } else {
        KidsWeight(n);
        assert Bfs(q) == [n.data] + Bfs(rest + Kids(n));
        BfsBag(rest + Kids(n));
        BagConcat(rest, Kids(n));
        KidsBag(n);
      }
    }
  }

  /** A node's value plus the values of its enqueued children are the
      node's values. */
  lemma KidsBag(n: Tree)
    requires n.Node?
    ensures Bag(Kids(n)) + multiset{n.data} == multiset(InOrder(n))
  {
    var l, r := n.left, n.right;
    var a := if l.Node? then [l] else [];
    var b := if r.Node? then [r] else [];
    calc {
      Bag(Kids(n)) + multiset{n.data};
      { assert a + b == Kids(n); BagConcat(a, b); }
      Bag(a) + Bag(b) + multiset{n.data};
      { BagPresent(l); BagPresent(r); }
      multiset(InOrder(l)) + multiset{n.data} + multiset(InOrder(r));
      { assert InOrder(n) == InOrder(l) + [n.data] + InOrder(r); }
      multiset(InOrder(n));
    }
  }

  /** What a child puts on the queue holds the child's values. */
  lemma BagPresent(t: Tree)
    ensures Bag(if t.Node? then [t] else []) == multiset(InOrder(t))
  {
    assert [t][1..] == [];
  }

  /** `levelOrder()` returns every value of the tree exactly once. */
  lemma LevelOrderPermutation(t: Tree)
    ensures multiset(ByLevels(t)) == multiset(InOrder(t))
    ensures |ByLevels(t)| == NodeCount(t)
    ensures forall x :: x in ByLevels(t) <==> x in Contents(t)
  {
    LevelOrderIsByLevels(t);
    BfsBag([t]);
    assert [t][1..] == [];
    InOrderFacts(t);
    assert |ByLevels(t)| == |multiset(ByLevels(t))| == |multiset(InOrder(t))|;
    forall x
      ensures x in ByLevels(t) <==> x in Contents(t)
    {
      assert x in ByLevels(t) <==> x in multiset(ByLevels(t));
      assert x in InOrder(t) <==> x in multiset(InOrder(t));
    }
  }
}

=== FILE: tree_context.dfy ===
/** The binary tree provider (BinaryTreeContext.tsx): the state the tree
    page renders and the operations its controls call, each as a function
    from the state before to the state after. Layout, timers and React's
    rendering are not modelled; one firing of the animation interval is the
    operation `Tick`. */
module TreeContexts {
  import opened Common
  import opened TreeNodes
  import opened BinaryTrees
  import opened TreeShape
  import opened Traversals
  import opened BalancedTrees
  import opened Messages
  import opened AlgorithmSteps

  /** What `selectedNode` refers to. A node of the current tree is named by
      its value, which is unique in an ordered tree, and its subtree is
      looked up afresh, so nodes added below it later show through as they
      do through the source's reference. A node left behind when the
      tree's root is dropped keeps the children it had at that moment. */
  datatype Selection = Attached(value: int) | Detached(node: NodeTree)

  /** The value of the selected node. */
  function SelectedValue(sel: Selection): int {
    match sel
    case Attached(v) => v
    case Detached(n) => n.data
  }

  /** A running animation interval (`animationTimerRef`) with what its
      callback captured when `startAnimation()` set it up: the step count,
      and the steps its `updateCurrentStepState` shows. */
  datatype Interval = Interval(total: int, steps: seq<Step>)

  /** The provider's state: the tree object, the values `inOrder()` last
      returned, the selected node, the cached balance flag and extremes, and
      the animation: algorithm, playing flag, running interval, current
      step, step count, steps, and what the current step shows (`None` for
      the empty description). */
  datatype TreeState = TreeState(
    tree: BinaryTree,
    orderedNodes: seq<int>,
    selected: Option<Selection>,
    isBalanced: bool,
    min: Option<int>,
    max: Option<int>,
    algorithm: Algorithm,
    playing: bool,
    interval: Option<Interval>,
    currentStep: int,
    totalSteps: int,
    steps: seq<Step>,
    highlighted: seq<int>,
    description: Option<Message>)

  /** The provider's initial state, before the mounting effect runs. */
  function Initial(): (s: TreeState)
    ensures s.tree == EmptyTree && s.tree.size == 0 && s.orderedNodes == InOrder(s.tree.root)
    ensures s.selected.None? && s.min.None? && s.max.None? && s.algorithm.NoAlgorithm?
    ensures s.steps == [] && s.totalSteps == 0 && s.currentStep == 0 && !s.playing && s.interval.None?
  {
    TreeState(EmptyTree, [], None, false, None, None, NoAlgorithm, false, None, 0, 0, [], [], None)
  }

  /** The selected node as it stands now: an attached selection is the
      subtree of the current tree at its value, a detached one the node as
      it was left. */
  function SelectedNode(s: TreeState): (r: Option<NodeTree>)
    ensures s.selected.None? ==> r.None?
    ensures r.Some? ==> r.value.data == SelectedValue(s.selected.value)
    ensures r.Some? && s.selected.value.Attached? ==> IsSubtree(r.value, s.tree.root)
    ensures s.selected.Some? && s.selected.value.Detached? ==> r == Some(s.selected.value.node)
  {
    match s.selected
    case None => None
    case Some(Attached(v)) => Lookup(s.tree.root, v)
    case Some(Detached(n)) => Some(n)
  }

  /** The selection once the tree's root is dropped: the selected node
      leaves the tree with the children it has now, and still shows them. */
  function Detach(s: TreeState): (r: Option<Selection>)
    ensures r.None? || r.value.Detached?
    ensures SelectedNode(s.(selected := r)) == SelectedNode(s)
  {
    match SelectedNode(s)
    case None => None
    case Some(n) => Some(Detached(n))
  }

  /** An attached selection names a value of the current tree. */
  predicate SelectionInTree(s: TreeState) {
    s.selected.Some? && s.selected.value.Attached? ==> s.selected.value.value in Contents(s.tree.root)
  }

  // ---------------------------------------------------------------------
  // Tree operations
  // ---------------------------------------------------------------------

  /** `tree.root = null`, which leaves `size` as it was. */
  function NullRoot(bt: BinaryTree): (r: BinaryTree)
    ensures r.root.Nil? && r.size == bt.size
  {
    BinaryTree(Nil, bt.size)
  }

  /** The cached views a non-empty tree refreshes: extremes, balance flag
      and in-order values. */
  function Refreshed(s: TreeState, bt: BinaryTree): (r: TreeState)
    requires bt.root.Node?
    ensures r.tree == bt && r.orderedNodes == InOrder(bt.root)
    ensures r.min == Some(FindMin(bt.root)) && r.max == Some(FindMax(bt.root))
    ensures r.isBalanced == IsBalanced(bt.root)
  {
    s.(tree := bt, min := Some(FindMin(bt.root)), max := Some(FindMax(bt.root)),
       isBalanced := IsBalanced(bt.root), orderedNodes := InOrderTraversal(bt))
  }

  /** `addNode(value)`: `add`, whose duplicate report is ignored, then the
      cached views are refreshed from the (now non-empty) tree. */
  function AddNode(s: TreeState, v: int): (r: TreeState)
    ensures Contents(r.tree.root) == Contents(s.tree.root) + {v}
    ensures r.orderedNodes == InOrder(r.tree.root)
    ensures IsBst(s.tree.root) ==> r.min == Some(InOrder(r.tree.root)[0])
    ensures r.tree == Add(s.tree, v).tree
    ensures r.min == Some(FindMin(r.tree.root)) && r.max == Some(FindMax(r.tree.root))
    ensures r.isBalanced == IsBalanced(r.tree.root)
    ensures r.(tree := s.tree, min := s.min, max := s.max, isBalanced := s.isBalanced,
               orderedNodes := s.orderedNodes) == s
  {
    var bt := Add(s.tree, v).tree;
    assert v in Contents(bt.root);
    FindMinIsFirst(bt.root);
    Refreshed(s, bt)
  }

  /** `removeSelectedNode()`: with a selection, `remove` its value, drop the
      selection and refresh the in-order values. The cached extremes and
      balance flag are left as they were. */
  function RemoveSelectedNode(s: TreeState): (r: TreeState)
    ensures s.selected.None? ==> r == s
    ensures s.selected.Some? ==>
      && r.selected.None?
      && r.tree == Remove(s.tree, SelectedValue(s.selected.value))
      && r.orderedNodes == InOrder(r.tree.root)
      && r.min == s.min && r.max == s.max && r.isBalanced == s.isBalanced
  {
    match s.selected
    case None => s
    case Some(sel) =>
      var bt := Remove(s.tree, SelectedValue(sel));
      s.(tree := bt, selected := None, orderedNodes := InOrderTraversal(bt))
  }

  /** `clearTree()`: the root is dropped, the extremes cleared, the balance
      flag recomputed (an empty tree counts as balanced) and the in-order
      values emptied. `size` is left as it was, and the selected node,
      now outside the tree, keeps the children it had. */
  function ClearTree(s: TreeState): (r: TreeState)
    ensures r.tree.root.Nil? && r.orderedNodes == [] && r.min.None? && r.max.None?
    ensures r.isBalanced
    ensures r.tree.size == s.tree.size && SelectedNode(r) == SelectedNode(s)
    ensures r.selected.None? || r.selected.value.Detached?
  {
    HeightBounds(Nil);
    s.(tree := NullRoot(s.tree), selected := Detach(s), min := None, max := None,
       isBalanced := IsBalanced(Nil), orderedNodes := [])
  }

  /** The outcome of the mounting effect: the new state, and whether the
      effect stopped with an exception. */
  datatype Mounted = Mounted(state: TreeState, threw: bool)

  /** The mounting effect on a starting tree `start` (the tree with its
      root dropped): every initial value is added, then the views are
      refreshed and the animation reset. With no initial values `findMin`
      dereferences the empty root and throws, after the tree was emptied
      and before any state was set. Either way a selected node is left
      outside the tree with the children it had. */
  function InitFrom(s: TreeState, start: BinaryTree, data: seq<int>): (r: Mounted)
    requires start.root.Nil?
    ensures r.threw <==> |data| == 0
    ensures r.threw ==> r.state == s.(tree := start, selected := Detach(s))
    ensures SelectedNode(r.state) == SelectedNode(s)
    ensures r.state.selected.None? || r.state.selected.value.Detached?
    ensures !r.threw ==>
      && Contents(r.state.tree.root) == SetOf(data) && IsBst(r.state.tree.root)
      && r.state.orderedNodes == InOrder(r.state.tree.root)
      && r.state.algorithm.NoAlgorithm? && !r.state.playing && r.state.interval.None?
      && r.state.steps == [] && r.state.totalSteps == 0 && r.state.currentStep == 0
      && r.state.description.None? && r.state.highlighted == []
  {
    var d := s.(tree := start, selected := Detach(s));
    if |data| == 0 then
      Mounted(d, true)
    else
      var bt := AddMultiple(start, data);
      AddMultipleFacts(start, data);
      AddsNonEmpty(start, data);
      var v := Refreshed(d, bt);
      Mounted(v.(algorithm := NoAlgorithm, playing := false, interval := None, currentStep := 0, totalSteps := 0,
                 steps := [], highlighted := [], description := None), false)
  }

  /** The effect as written: the root is dropped but `size` is kept. */
  function Init(s: TreeState, data: seq<int>): (r: Mounted)
    ensures r.state.tree.size - NodeCount(r.state.tree.root) == s.tree.size
  {
    var m := InitFrom(s, NullRoot(s.tree), data);
    AddMultipleOffset(NullRoot(s.tree), data);
    m
  }

  /** Adding values never changes how far `size` is from the node count. */
  lemma {:induction false} AddMultipleOffset(bt: BinaryTree, data: seq<int>)
    ensures var r := AddMultiple(bt, data);
      r.size - NodeCount(r.root) == bt.size - NodeCount(bt.root)
    decreases |data|
  {
    if |data| > 0 {
      AddMultipleOffset(Add(bt, data[0]).tree, data[1..]);
    }
  }

  /** The effect with the intended reset: it starts from an empty tree, so
      `size` counts the nodes. */
  function InitCorrected(s: TreeState, data: seq<int>): (r: Mounted)
    ensures r.state.tree.size == NodeCount(r.state.tree.root)
    ensures IsBst(r.state.tree.root)
  {
    AddMultipleOffset(EmptyTree, data);
    InitFrom(s, EmptyTree, data)
  }

  /** `selectNode(node)`: the node becomes the selection (selecting it
      again keeps it selected). A node of the current tree is attached, so
      it follows later additions; any other node is held as it is. */
  function SelectNode(s: TreeState, n: NodeTree): (r: TreeState)
    ensures SelectedNode(r) == Some(n)
    ensures r.selected.value.Attached? <==> Lookup(s.tree.root, n.data) == Some(n)
    ensures r.(selected := s.selected) == s
  {
    s.(selected := Some(if Lookup(s.tree.root, n.data) == Some(n) then Attached(n.data) else Detached(n)))
  }

  /** `balanceTree()` on a starting tree `start` (the tree with its root
      dropped), in a render whose `currentAlgorithm` is `seen`: nothing
      happens on an empty or already balanced tree; otherwise the in-order
      values are added back in the midpoint order, the selection is dropped
      and the views refreshed, and when `seen` is the balancing animation
      the steps are generated again for the rebuilt tree and rewound to the
      first step. A running interval is left running. */
  function BalanceFrom(s: TreeState, start: BinaryTree, seen: Algorithm): (r: TreeState)
    requires start.root.Nil?
    ensures s.tree.root.Nil? || IsBalanced(s.tree.root) ==> r == s
  {
    if s.tree.root.Nil? || IsBalanced(s.tree.root) then s
    else Regenerated(Rebalanced(s, start), seen)
  }

  /** The animation half of `balanceTree()`: only when the handler's
      `currentAlgorithm` is the balancing animation are the steps replaced,
      by the steps generated for the tree `v` now holds
      (`generateAlgorithmSteps` of a non-empty tree with the balancing
      algorithm is the balancing demonstration), and rewound; everything
      else, the interval included, is left as it is. */
  function Regenerated(v: TreeState, seen: Algorithm): (r: TreeState)
    requires v.tree.root.Node?
    ensures r.tree == v.tree && r.orderedNodes == v.orderedNodes && r.isBalanced == v.isBalanced
    ensures r.selected == v.selected && r.min == v.min && r.max == v.max
    ensures r.algorithm == v.algorithm && r.playing == v.playing && r.interval == v.interval
    ensures r.description == v.description && r.highlighted == v.highlighted
    ensures !seen.BalancingDemo? ==> r == v
    ensures seen.BalancingDemo? ==> r.currentStep == 0 && r.totalSteps == |r.steps|
  {
    if seen.BalancingDemo? then
      var steps := BalancingSteps(v.tree);
      v.(steps := steps, currentStep := 0, totalSteps := |steps|)
    else v
  }

  /** The rebuilt tree in place of the old one, with the views refreshed
      and the selection dropped; the animation is untouched. An ordered
      tree comes back ordered and balanced with the same values, and
      `size` grows by the node count from whatever `start` kept. */
  function Rebalanced(s: TreeState, start: BinaryTree): (r: TreeState)
    requires start.root.Nil? && s.tree.root.Node?
    ensures r.tree.root.Node? && r.orderedNodes == InOrder(r.tree.root)
    ensures r.isBalanced == IsBalanced(r.tree.root) && r.selected.None?
    ensures r.min == Some(FindMin(r.tree.root)) && r.max == Some(FindMax(r.tree.root))
    ensures r.algorithm == s.algorithm && r.playing == s.playing && r.interval == s.interval
    ensures r.steps == s.steps
    ensures r.currentStep == s.currentStep && r.totalSteps == s.totalSteps
    ensures r.description == s.description && r.highlighted == s.highlighted
    ensures IsBst(s.tree.root) ==>
      && r.tree.size == start.size + NodeCount(s.tree.root)
      && IsBst(r.tree.root) && IsBalanced(r.tree.root)
      && InOrder(r.tree.root) == InOrder(s.tree.root)
      && NodeCount(r.tree.root) == NodeCount(s.tree.root)
  {
    var nodes := InOrderTraversal(s.tree);
    var a := AddMultiple(start, MidOrder(nodes, 0, |nodes| - 1));
    RebuildNonEmpty(start, s.tree.root);
    RebuiltWhenOrdered(s.tree.root, start, a);
    Refreshed(s, a).(selected := None)
  }

  lemma RebuiltWhenOrdered(t: Tree, start: BinaryTree, a: BinaryTree)
    requires start.root.Nil?
    requires var nodes := InOrder(t); a == AddMultiple(start, MidOrder(nodes, 0, |nodes| - 1))
    ensures IsBst(t) ==>
      && a.size == start.size + NodeCount(t) && IsBst(a.root) && IsBalanced(a.root)
      && InOrder(a.root) == InOrder(t) && NodeCount(a.root) == NodeCount(t)
  {
    if IsBst(t) {
      Rebuilt(t, start, a);
    }
  }

  /** Rebuilding a non-empty tree leaves a non-empty tree. */
  lemma RebuildNonEmpty(start: BinaryTree, t: Tree)
    requires t.Node?
    ensures var nodes := InOrder(t);
      |nodes| > 0 && AddMultiple(start, MidOrder(nodes, 0, |nodes| - 1)).root.Node?
  {
    var nodes := InOrder(t);
    assert |nodes| > 0 by {
      assert nodes == InOrder(t.left) + [t.data] + InOrder(t.right);
    }
    var order := MidOrder(nodes, 0, |nodes| - 1);
    assert |order| > 0 by {
      MidOrderLength(nodes, 0, |nodes| - 1);
    }
    AddsNonEmpty(start, order);
  }

  /** Adding at least one value leaves a non-empty tree. */
  lemma AddsNonEmpty(bt: BinaryTree, xs: seq<int>)
    requires |xs| > 0
    ensures AddMultiple(bt, xs).root.Node?
  {
    AddMultipleFacts(bt, xs);
    assert xs[0] in SetOf(xs);
  }

  /** A tree that passes `isBalanced()` gets the two-step balancing
      animation. */
  lemma BalancedTreeSteps(bt: BinaryTree)
    requires bt.root.Node? && IsBalanced(bt.root)
    ensures BalancingSteps(bt) == [Step(StartBalancing, [], []), Step(AlreadyBalanced, [], [])]
  {
  }

  /** What `balanceTree()` does to the tree of a consistent, unbalanced
      state: the rebuilt tree replaces it, the views follow, and the
      selection is dropped. */
  lemma BalanceFromRebuilds(s: TreeState, start: BinaryTree, seen: Algorithm)
    requires start.root.Nil? && IsBst(s.tree.root)
    requires s.tree.root.Node? && !IsBalanced(s.tree.root)
    ensures var r, nodes := BalanceFrom(s, start, seen), InOrder(s.tree.root);
      && r.tree.size == start.size + NodeCount(s.tree.root)
      && IsBst(r.tree.root) && IsBalanced(r.tree.root) && r.isBalanced
      && InOrder(r.tree.root) == nodes && r.orderedNodes == nodes
      && NodeCount(r.tree.root) == NodeCount(s.tree.root)
      && r.selected.None?
      && r.min == Some(FindMin(r.tree.root)) && r.max == Some(FindMax(r.tree.root))
  {
    var v := Rebalanced(s, start);
    assert BalanceFrom(s, start, seen) == Regenerated(v, seen);
  }

  /** What `balanceTree()` does to the animation of an unbalanced tree: when
      the handler sees the balancing animation, the steps are regenerated
      for a tree that is now balanced, so they become the two-step "already
      balanced" animation, rewound; otherwise the animation is left alone.
      What is shown is not updated, and a running interval keeps running. */
  lemma BalanceFromSteps(s: TreeState, start: BinaryTree, seen: Algorithm)
    requires start.root.Nil? && IsBst(s.tree.root)
    requires s.tree.root.Node? && !IsBalanced(s.tree.root)
    ensures var r := BalanceFrom(s, start, seen);
      && (seen.BalancingDemo? ==>
            && r.steps == [Step(StartBalancing, [], []), Step(AlreadyBalanced, [], [])]
            && r.totalSteps == 2 && r.currentStep == 0)
      && (!seen.BalancingDemo? ==>
            r.steps == s.steps && r.totalSteps == s.totalSteps && r.currentStep == s.currentStep)
      && r.playing == s.playing && r.interval == s.interval
      && r.description == s.description && r.highlighted == s.highlighted
      && r.algorithm == s.algorithm
  {
    BalanceFromRebuilds(s, start, seen);
    var r := BalanceFrom(s, start, seen);
    if seen.BalancingDemo? {
      BalancedTreeSteps(r.tree);
    }
  }

  /** `balanceTree()` as written: the root is dropped but `size` is kept,
      and the handler sees the algorithm of the state it runs on. */
  function BalanceTree(s: TreeState): (r: TreeState)
    ensures s.tree.root.Nil? || IsBalanced(s.tree.root) ==> r == s
  {
    BalanceFrom(s, NullRoot(s.tree), s.algorithm)
  }

  /** The editor's "Balance Tree" button: `setAlgorithm('balancing')`, then,
      10 ms later, the `balanceTree` of the render the click happened in.
      That handler still sees the algorithm chosen before the click, while
      the tree object it rebuilds is the one every render shares. The
      random number is unused by the balancing animation. */
  function BalanceButton(s: TreeState): (r: TreeState)
    ensures r.algorithm.BalancingDemo? && !r.playing && r.interval.None?
  {
    var a := SetAlgorithm(s, BalancingDemo, 0.0);
    BalanceFrom(a, NullRoot(a.tree), s.algorithm)
  }

  // ---------------------------------------------------------------------
  // Animation
  // ---------------------------------------------------------------------

  /** `updateCurrentStepState(step)` of a render whose `algorithmSteps` is
      `steps`: show step `step` of `steps` when it exists. */
  function UpdateCurrentStepState(s: TreeState, steps: seq<Step>, step: int): (r: TreeState)
    ensures 0 <= step < |steps| ==>
      r.description == Some(steps[step].description) && r.highlighted == steps[step].highlighted
    ensures !(0 <= step < |steps|) ==> r == s
    ensures r.(description := s.description, highlighted := s.highlighted) == s
  {
    if 0 <= step < |steps| then
      s.(description := Some(steps[step].description), highlighted := steps[step].highlighted)
    else s
  }

  /** `setAlgorithm(algorithm)`: stop the interval and rewind; `none`
      clears the steps and what is shown, any other choice generates its
      steps and shows the first one, if there is one. `u` is the random
      number the insertion demo draws. */
  function SetAlgorithm(s: TreeState, alg: Algorithm, u: Random): (r: TreeState)
    ensures r.algorithm == alg && !r.playing && r.interval.None? && r.currentStep == 0
    ensures r.totalSteps == |r.steps|
    ensures alg.NoAlgorithm? ==> r.steps == [] && r.description.None? && r.highlighted == []
    ensures !alg.NoAlgorithm? ==> r.steps == GenerateSteps(s.tree, alg, SelectedNode(s), u)
    ensures |r.steps| > 0 ==> r.description == Some(r.steps[0].description) && r.highlighted == r.steps[0].highlighted
    ensures r.tree == s.tree && r.selected == s.selected
  {
    var stopped := s.(algorithm := alg, playing := false, interval := None, currentStep := 0);
    if alg.NoAlgorithm? then
      stopped.(steps := [], totalSteps := 0, highlighted := [], description := None)
    else
      var steps := GenerateSteps(s.tree, alg, SelectedNode(s), u);
      var v := stopped.(steps := steps, totalSteps := |steps|);
      if |steps| > 0 then UpdateCurrentStepState(v, steps, 0) else v
  }

  /** `canStepForward`: a later step exists. */
  predicate CanStepForward(s: TreeState) {
    s.currentStep < s.totalSteps - 1
  }

  /** `canStepBackward`: an earlier step exists. */
  predicate CanStepBackward(s: TreeState) {
    s.currentStep > 0
  }

  /** `startAnimation()`: refused at the last step or with no steps;
      otherwise any running interval is replaced by one that captures the
      step count and steps of this moment. */
  function StartAnimation(s: TreeState): (r: TreeState)
    ensures s.totalSteps != 0 && CanStepForward(s) ==>
      r == s.(playing := true, interval := Some(Interval(s.totalSteps, s.steps)))
    ensures !(s.totalSteps != 0 && CanStepForward(s)) ==> r == s
  {
    if s.currentStep >= s.totalSteps - 1 || s.totalSteps == 0 then s
    else s.(playing := true, interval := Some(Interval(s.totalSteps, s.steps)))
  }

  /** `pauseAnimation()`: the interval stops; the current step stays. */
  function PauseAnimation(s: TreeState): (r: TreeState)
    ensures !r.playing && r.interval.None?
    ensures r.(playing := s.playing, interval := s.interval) == s
  {
    s.(playing := false, interval := None)
  }

  /** One firing of the interval. Its callback reads the step count and the
      steps captured when the interval was started, whatever the page holds
      now: it advances and shows the next captured step, or, once past the
      captured count, stops the interval on the captured last step. Without
      a running interval nothing fires. */
  function Tick(s: TreeState): (r: TreeState)
    ensures s.interval.None? ==> r == s
    ensures s.interval.Some? && s.currentStep + 1 >= s.interval.value.total ==>
      && r.interval.None? && !r.playing && r.currentStep == s.interval.value.total - 1
      && r.(interval := s.interval, playing := s.playing, currentStep := s.currentStep) == s
    ensures s.interval.Some? && s.currentStep + 1 < s.interval.value.total ==>
      && r.currentStep == s.currentStep + 1
      && (0 <= r.currentStep < |s.interval.value.steps| ==>
            && r.description == Some(s.interval.value.steps[r.currentStep].description)
            && r.highlighted == s.interval.value.steps[r.currentStep].highlighted)
      && r.(currentStep := s.currentStep, description := s.description, highlighted := s.highlighted) == s
  {
    match s.interval
    case None => s
    case Some(iv) =>
      var next := s.currentStep + 1;
      if next >= iv.total then s.(interval := None, playing := false, currentStep := iv.total - 1)
      else UpdateCurrentStepState(s.(currentStep := next), iv.steps, next)
  }

  /** `stepForward()`: move to and show the next step, if there is one. */
  function StepForward(s: TreeState): (r: TreeState)
    ensures !CanStepForward(s) ==> r == s
    ensures CanStepForward(s) ==> r.currentStep == s.currentStep + 1
  {
    if !CanStepForward(s) then s
    else UpdateCurrentStepState(s.(currentStep := s.currentStep + 1), s.steps, s.currentStep + 1)
  }

  /** `stepBackward()`: move to and show the previous step, if there is one. */
  function StepBackward(s: TreeState): (r: TreeState)
    ensures !CanStepBackward(s) ==> r == s
    ensures CanStepBackward(s) ==> r.currentStep == s.currentStep - 1
  {
    if !CanStepBackward(s) then s
    else UpdateCurrentStepState(s.(currentStep := s.currentStep - 1), s.steps, s.currentStep - 1)
  }

  /** On a navigable page the step buttons are enabled exactly when the
      step list holds a step on that side of the current one, and then
      pressing them moves; otherwise pressing them does nothing. */
  lemma StepButtons(s: TreeState)
    requires Navigable(s)
    ensures CanStepForward(s) <==> s.currentStep + 1 < |s.steps|
    ensures CanStepBackward(s) <==> 0 < s.currentStep < |s.steps|
    ensures CanStepForward(s) <==> StepForward(s).currentStep != s.currentStep
    ensures CanStepBackward(s) <==> StepBackward(s).currentStep != s.currentStep
  {
  }

  /** With the interval started on the steps the page now holds, a firing
      that does not end the animation does what `stepForward()` does. */
  lemma TickIsStepForward(s: TreeState)
    requires s.interval == Some(Interval(s.totalSteps, s.steps)) && CanStepForward(s)
    ensures Tick(s) == StepForward(s)
  {
  }

  // ---------------------------------------------------------------------
  // Invariants
  // ---------------------------------------------------------------------

  /** The step counter stays inside the steps (at 0 when there are none),
      the count matches the steps, the playing flag is set exactly while an
      interval runs, and a running interval plays the steps the page holds
      (so it only runs with steps to play). */
  predicate Navigable(s: TreeState) {
    && s.totalSteps == |s.steps|
    && 0 <= s.currentStep
    && (s.totalSteps == 0 ==> s.currentStep == 0 && !s.playing)
    && (s.totalSteps > 0 ==> s.currentStep < s.totalSteps)
    && (s.playing <==> s.interval.Some?)
    && (s.interval.Some? ==> s.interval.value == Interval(s.totalSteps, s.steps))
  }

  /** The description and highlighted values are those of the current step. */
  predicate Shown(s: TreeState) {
    s.totalSteps > 0 && 0 <= s.currentStep < |s.steps| ==>
      s.description == Some(s.steps[s.currentStep].description) && s.highlighted == s.steps[s.currentStep].highlighted
  }

  /** What every operation keeps: the tree is ordered, the in-order values
      are those of the tree, the animation is navigable, and an attached
      selection is a node of the tree. */
  ghost predicate Consistent(s: TreeState) {
    IsBst(s.tree.root) && s.orderedNodes == InOrder(s.tree.root) && Navigable(s) && SelectionInTree(s)
  }

  /** Every control of the page, as one value. */
  datatype Action =
    | AddNodeAction(v: int)
    | RemoveSelectedNodeAction
    | ClearTreeAction
    | InitAction(data: seq<int>)
    | SelectNodeAction(n: NodeTree)
    | BalanceTreeAction
    | SetAlgorithmAction(alg: Algorithm, u: Random)
    | StartAnimationAction
    | PauseAnimationAction
    | StepForwardAction
    | StepBackwardAction
    | TickAction

  /** The state after `a`. */
  function Apply(s: TreeState, a: Action): TreeState {
    match a
    case AddNodeAction(v) => AddNode(s, v)
    case RemoveSelectedNodeAction => RemoveSelectedNode(s)
    case ClearTreeAction => ClearTree(s)
    case InitAction(data) => Init(s, data).state
    case SelectNodeAction(n) => SelectNode(s, n)
    case BalanceTreeAction => BalanceTree(s)
    case SetAlgorithmAction(alg, u) => SetAlgorithm(s, alg, u)
    case StartAnimationAction => StartAnimation(s)
    case PauseAnimationAction => PauseAnimation(s)
    case StepForwardAction => StepForward(s)
    case StepBackwardAction => StepBackward(s)
    case TickAction => Tick(s)
  }

  /** Every control keeps the tree ordered, the listed values in step with
      it, the step counter inside the steps and a running interval on the
      steps the page holds. Two cases are left out. The mounting effect
      with no values throws after emptying the tree, leaving the listed
      values of the old tree behind. Balancing while the balancing
      animation plays replaces the steps under a running interval, which
      goes on with the old ones (`BalanceStrandsInterval`). */
  lemma ActionKeepsConsistent(s: TreeState, a: Action)
    requires Consistent(s)
    requires a.InitAction? ==> |a.data| > 0
    requires a.BalanceTreeAction? ==> !(s.playing && s.algorithm.BalancingDemo?)
    ensures Consistent(Apply(s, a))
  {
    match a
    case AddNodeAction(v) =>
    case RemoveSelectedNodeAction =>
      if s.selected.Some? {
        RemoveCorrect(s.tree, SelectedValue(s.selected.value));
      }
    case ClearTreeAction =>
    case InitAction(data) =>
    case SelectNodeAction(n) =>
    case BalanceTreeAction =>
      BalanceTreeRebuilds(s);
    case SetAlgorithmAction(alg, u) =>
    case StartAnimationAction =>
    case PauseAnimationAction =>
    case StepForwardAction =>
    case StepBackwardAction =>
    case TickAction =>
  }

  /** Every control except `balanceTree()` keeps the description and
      highlighted values those of the current step. */
  lemma ActionKeepsShown(s: TreeState, a: Action)
    requires Consistent(s) && Shown(s)
    requires !a.BalanceTreeAction?
    ensures Shown(Apply(s, a))
  {
  }

  /** Balancing keeps the tree ordered with the same in-order values, the
      listed values in step and an attached selection in the tree; an
      unbalanced tree comes out balanced. The animation stays navigable
      unless the balancing animation was playing. */
  lemma BalanceTreeRebuilds(s: TreeState)
    requires Consistent(s)
    ensures var r := BalanceTree(s);
      && IsBst(r.tree.root) && r.orderedNodes == InOrder(r.tree.root) && SelectionInTree(r)
      && InOrder(r.tree.root) == InOrder(s.tree.root)
      && IsBalanced(r.tree.root)
    ensures !(s.playing && s.algorithm.BalancingDemo?) ==> Consistent(BalanceTree(s))
  {
    HeightBounds(Nil);
    if s.tree.root.Node? && !IsBalanced(s.tree.root) {
      BalanceFromRebuilds(s, NullRoot(s.tree), s.algorithm);
      BalanceFromSteps(s, NullRoot(s.tree), s.algorithm);
    }
  }

  /** The button on a consistent, unbalanced tree: the tree is rebuilt
      balanced with the same values, and the balancing animation is chosen,
      stopped and shown from its first step. Chosen from another algorithm,
      the steps are those generated for the tree before the rebuild, so the
      animation shows how it was balanced; pressed while the balancing
      animation is already chosen, they are regenerated for the rebuilt
      tree and only say that it is balanced. */
  lemma BalanceButtonSteps(s: TreeState)
    requires Consistent(s) && s.tree.root.Node? && !IsBalanced(s.tree.root)
    ensures var r := BalanceButton(s);
      && IsBalanced(r.tree.root) && InOrder(r.tree.root) == InOrder(s.tree.root)
      && r.currentStep == 0 && Consistent(r) && Shown(r)
      && (!s.algorithm.BalancingDemo? ==>
            r.steps == BalancingSteps(s.tree) && |r.steps| == NodeCount(s.tree.root) + 3)
      && (s.algorithm.BalancingDemo? ==>
            r.steps == [Step(StartBalancing, [], []), Step(AlreadyBalanced, [], [])])
  {
    var a := SetAlgorithm(s, BalancingDemo, 0.0);
    BalancingAnimation(s.tree, SelectedNode(s), 0.0);
    assert a.steps == BalancingSteps(s.tree);
    BalanceFromRebuilds(a, NullRoot(a.tree), s.algorithm);
    BalanceFromSteps(a, NullRoot(a.tree), s.algorithm);
  }

  // ---------------------------------------------------------------------
  // The selected node
  // ---------------------------------------------------------------------

  /** Selecting 5 in the one-node tree 5 and then adding 7 makes the
      deletion demonstration treat 5 as a node with a lone right child 7,
      because 7 was attached to the very node the selection refers to. */
  lemma SelectionSeesAddedChild(s: TreeState, u: Random)
    requires s.tree == BinaryTree(Node(Nil, 5, Nil), 1)
    ensures var r := SetAlgorithm(AddNode(SelectNode(s, Node(Nil, 5, Nil)), 7), DeletionDemo, u);
      && |r.steps| == 5
      && r.steps[2].description == OnlyRightChild(5, 7)
      && r.steps[3].description == ReplaceWithRight(5, 7)
  {
    var a := AddNode(SelectNode(s, Node(Nil, 5, Nil)), 7);
    SelectedSeesChild(s);
    DeletionDemoSteps(a, u);
    RightChildDeletionSteps();
  }

  /** On a non-empty tree the deletion demonstration narrates the selection. */
  lemma DeletionDemoSteps(a: TreeState, u: Random)
    requires a.tree.root.Node?
    ensures SetAlgorithm(a, DeletionDemo, u).steps == DeletionSteps(SelectedNode(a))
  {
  }

  /** The deletion steps of 5 with a lone right child 7. */
  lemma RightChildDeletionSteps()
    ensures var r := DeletionSteps(Some(Node(Nil, 5, Node(Nil, 7, Nil))));
      |r| == 5 && r[2].description == OnlyRightChild(5, 7) && r[3].description == ReplaceWithRight(5, 7)
  {
  }

  /** The selection of 5, once 7 is added, is the node 5 with right child 7. */
  lemma SelectedSeesChild(s: TreeState)
    requires s.tree == BinaryTree(Node(Nil, 5, Nil), 1)
    ensures var a := AddNode(SelectNode(s, Node(Nil, 5, Nil)), 7);
      a.tree.root.Node? && SelectedNode(a) == Some(Node(Nil, 5, Node(Nil, 7, Nil)))
  {
  }

  // ---------------------------------------------------------------------
  // Navigation
  // ---------------------------------------------------------------------

  /** Stepping forward and then back returns to the same step, showing the
      same thing. */
  lemma StepForwardThenBack(s: TreeState)
    requires Navigable(s) && Shown(s) && CanStepForward(s)
    ensures StepBackward(StepForward(s)) == s
  {
  }

  /** Stepping back and then forward returns to the same step, showing the
      same thing. */
  lemma StepBackThenForward(s: TreeState)
    requires Navigable(s) && Shown(s) && CanStepBackward(s)
    ensures StepForward(StepBackward(s)) == s
  {
  }

  /** `k` firings of the interval. */
  function Ticks(s: TreeState, k: nat): TreeState
    decreases k
  {
    if k == 0 then s else Tick(Ticks(s, k - 1))
  }

  /** A started animation plays the remaining steps in turn: after `k`
      firings (up to the last step) it is still playing and shows step
      `c + k`. */
  lemma {:induction false} PlayToStep(s: TreeState, k: nat)
    requires Navigable(s) && s.playing
    requires k <= s.totalSteps - 1 - s.currentStep
    ensures var r := Ticks(s, k);
      && r.currentStep == s.currentStep + k
      && r.playing
      && (k > 0 ==> Shown(r))
      && r.steps == s.steps && r.totalSteps == s.totalSteps
      && r.interval == s.interval && r.tree == s.tree
    decreases k
  {
    if k > 0 {
      PlayToStep(s, k - 1);
    }
  }

  /** The firing after the last step stops the animation on that step. */
  lemma PlayToEnd(s: TreeState)
    requires Navigable(s) && s.playing
    ensures var r := Ticks(s, s.totalSteps - s.currentStep);
      && !r.playing && r.interval.None? && r.currentStep == s.totalSteps - 1
      && Navigable(r) && r.steps == s.steps
  {
    var m := s.totalSteps - 1 - s.currentStep;
    PlayToStep(s, m);
    assert Ticks(s, m + 1) == Tick(Ticks(s, m));
  }

  // ---------------------------------------------------------------------
  // Stale size and stale description
  // ---------------------------------------------------------------------

  /** Dropping the root keeps `size`: after `clearTree()` a tree with
      values reports them although it holds none. */
  lemma ClearTreeKeepsSize(s: TreeState)
    requires s.tree.size == NodeCount(s.tree.root) && s.tree.root.Node?
    ensures ClearTree(s).tree.size > 0 && NodeCount(ClearTree(s).tree.root) == 0
  {
  }

  /** `clearTree()` with the intended reset: the tree is empty and counts
      no values. */
  function ClearTreeCorrected(s: TreeState): (r: TreeState)
    ensures r.tree == EmptyTree && r.tree.size == NodeCount(r.tree.root)
    ensures r.orderedNodes == InOrder(r.tree.root) && r.isBalanced
  {
    ClearTree(s).(tree := EmptyTree)
  }

  /** Balancing a consistent, unbalanced tree as written doubles `size`:
      every value is added again on top of the count kept from before. */
  lemma BalanceTreeInflatesSize(s: TreeState)
    requires Consistent(s) && s.tree.size == NodeCount(s.tree.root)
    requires s.tree.root.Node? && !IsBalanced(s.tree.root)
    ensures BalanceTree(s).tree.size == 2 * NodeCount(BalanceTree(s).tree.root)
    ensures BalanceTree(s).tree.size != NodeCount(BalanceTree(s).tree.root)
  {
    BalanceFromRebuilds(s, NullRoot(s.tree), s.algorithm);
  }

  /** Any consistent state holding the three-node chain 1, 2, 3 with a
      matching `size` is unbalanced, and balancing it as written reports
      six values in a three-node tree. */
  lemma BalanceTreeInflatesSizeExample(s: TreeState)
    requires s.tree == BinaryTree(Node(Nil, 1, Node(Nil, 2, Node(Nil, 3, Nil))), 3) && Consistent(s)
    ensures !IsBalanced(s.tree.root)
    ensures BalanceTree(s).tree.size == 6 && NodeCount(BalanceTree(s).tree.root) == 3
  {
    ChainFacts();
    BalanceTreeInflatesSize(s);
  }

  lemma ChainFacts()
    ensures var chain := Node(Nil, 1, Node(Nil, 2, Node(Nil, 3, Nil)));
      && MinHeight(chain) == 0 && MaxHeight(chain) == 2
      && InOrder(chain) == [1, 2, 3] && IsBst(chain) && NodeCount(chain) == 3
  {
    var c3 := Node(Nil, 3, Nil);
    var c2 := Node(Nil, 2, c3);
    assert MinHeight(c3) == 0 && MaxHeight(c3) == 0;
    assert MinHeight(c2) == 0 && MaxHeight(c2) == 1;
    assert InOrder(c3) == [3];
    assert InOrder(c2) == [2] + [3];
    assert Contents(c2) == {2, 3};
  }

  /** Balancing while the balancing animation is current rewinds to step 0
      of the regenerated steps but keeps showing the step that was current
      before: whenever that was not an opening step, the display no longer
      matches the current step. */
  lemma BalanceTreeLeavesStaleDisplay(s: TreeState)
    requires IsBst(s.tree.root) && s.tree.root.Node? && !IsBalanced(s.tree.root)
    requires s.algorithm.BalancingDemo?
    requires s.description != Some(StartBalancing)
    ensures BalanceTree(s).currentStep == 0 && BalanceTree(s).totalSteps == 2
    ensures !Shown(BalanceTree(s))
  {
    BalanceFromSteps(s, NullRoot(s.tree), s.algorithm);
  }

  /** Balancing while the balancing animation plays, as written: the steps
      become the two regenerated ones, rewound, but the running interval
      keeps the step count and steps it was started with. Its next firing
      shows step 1 of the old steps, and the one after moves the counter
      past the two steps the page now holds. */
  lemma BalanceStrandsInterval(s: TreeState)
    requires Consistent(s) && s.tree.root.Node? && !IsBalanced(s.tree.root)
    requires s.algorithm.BalancingDemo? && s.playing && s.totalSteps >= 3
    ensures var b := BalanceTree(s);
      && b.totalSteps == 2 && b.currentStep == 0 && b.playing
      && Tick(b).currentStep == 1 && Tick(b).description == Some(s.steps[1].description)
      && Tick(Tick(b)).currentStep == 2 && !Navigable(Tick(Tick(b)))
  {
    BalanceFromSteps(s, NullRoot(s.tree), s.algorithm);
  }

  /** The chain 1, 2, 3 with its six-step balancing animation started:
      after balancing, the interval plays on past the two steps the page
      holds. */
  lemma BalanceDuringPlaybackExample(s: TreeState, u: Random)
    requires s.tree == BinaryTree(Node(Nil, 1, Node(Nil, 2, Node(Nil, 3, Nil))), 3) && Consistent(s)
    ensures var p := StartAnimation(SetAlgorithm(s, BalancingDemo, u));
      && p.playing && p.totalSteps == 6
      && BalanceTree(p).totalSteps == 2
      && !Navigable(Tick(Tick(BalanceTree(p))))
  {
    ChainFacts();
    BalancingAnimation(s.tree, SelectedNode(s), u);
    var a := SetAlgorithm(s, BalancingDemo, u);
    ActionKeepsConsistent(s, SetAlgorithmAction(BalancingDemo, u));
    ActionKeepsConsistent(a, StartAnimationAction);
    BalanceStrandsInterval(StartAnimation(a));
  }

  /** `balanceTree()` with all three corrections: the rebuild starts from an
      empty tree, and regenerated steps are shown from their first step
      with any running interval stopped, as choosing an algorithm does. */
  function BalanceTreeCorrected(s: TreeState): (r: TreeState)
    ensures s.tree.root.Nil? || IsBalanced(s.tree.root) ==> r == s
  {
    var r := BalanceFrom(s, EmptyTree, s.algorithm);
    if r != s && s.algorithm.BalancingDemo? && |r.steps| > 0 then
      UpdateCurrentStepState(r.(playing := false, interval := None), r.steps, 0)
    else r
  }

  /** The corrected balancing keeps everything `Consistent` keeps, keeps
      `size` equal to the node count, and keeps the display in step; when
      it regenerates the balancing animation, playback is stopped on the
      first step. */
  lemma BalanceTreeCorrectedValid(s: TreeState)
    requires Consistent(s) && Shown(s) && s.tree.size == NodeCount(s.tree.root)
    ensures var r := BalanceTreeCorrected(s);
      && Consistent(r) && Shown(r)
      && r.tree.size == NodeCount(r.tree.root)
      && InOrder(r.tree.root) == InOrder(s.tree.root)
      && IsBalanced(r.tree.root)
      && (s.tree.root.Node? && !IsBalanced(s.tree.root) && s.algorithm.BalancingDemo? ==>
            !r.playing && r.interval.None? && r.currentStep == 0)
  {
    if s.tree.root.Node? && !IsBalanced(s.tree.root) {
      var b := BalanceFrom(s, EmptyTree, s.algorithm);
      BalanceFromConsistent(s, EmptyTree);
      if s.algorithm.BalancingDemo? {
        assert b.tree != s.tree;
        ShowFirstKeepsConsistent(b.(playing := false, interval := None));
      }
    }
  }

  /** Balancing an unbalanced consistent state from an empty start keeps
      the tree ordered with the same values, now balanced and counted from
      the start's counter. A current balancing animation is rewound to its
      first step, and is navigable once its interval is stopped; any other
      animation, with what it shows, is kept. */
  lemma BalanceFromConsistent(s: TreeState, start: BinaryTree)
    requires Consistent(s) && start.root.Nil?
    requires s.tree.root.Node? && !IsBalanced(s.tree.root)
    ensures var b := BalanceFrom(s, start, s.algorithm);
      && IsBalanced(b.tree.root)
      && InOrder(b.tree.root) == InOrder(s.tree.root)
      && b.tree.size == start.size + NodeCount(s.tree.root)
      && NodeCount(b.tree.root) == NodeCount(s.tree.root)
      && (!s.algorithm.BalancingDemo? ==> Consistent(b))
      && (s.algorithm.BalancingDemo? ==>
            && Consistent(b.(playing := false, interval := None)) && |b.steps| > 0 && b.currentStep == 0)
      && (Shown(s) && !s.algorithm.BalancingDemo? ==> Shown(b))
  {
    BalanceFromRebuilds(s, start, s.algorithm);
    BalanceFromSteps(s, start, s.algorithm);
  }

  /** Showing the first step of a consistent state rewound to it keeps it
      consistent and makes the display that of the step. */
  lemma ShowFirstKeepsConsistent(b: TreeState)
    requires Consistent(b) && |b.steps| > 0 && b.currentStep == 0
    ensures var r := UpdateCurrentStepState(b, b.steps, 0);
      && Consistent(r) && Shown(r) && r.tree == b.tree
  {
  }

  /** The page with the corrected handlers for clearing, mounting and
      balancing in place of the written ones; every other control is
      unchanged. */
  function ApplyCorrected(s: TreeState, a: Action): TreeState {
    match a
    case ClearTreeAction => ClearTreeCorrected(s)
    case InitAction(data) => InitCorrected(s, data).state
    case BalanceTreeAction => BalanceTreeCorrected(s)
    case _ => Apply(s, a)
  }

  /** With the corrections every control keeps the page consistent, the
      display in step with the current step, and `size` equal to the
      number of nodes. */
  lemma CorrectedActionKeepsCount(s: TreeState, a: Action)
    requires Consistent(s) && Shown(s) && s.tree.size == NodeCount(s.tree.root)
    requires a.InitAction? ==> |a.data| > 0
    ensures var r := ApplyCorrected(s, a);
      Consistent(r) && Shown(r) && r.tree.size == NodeCount(r.tree.root)
  {
    if a.BalanceTreeAction? {
      BalanceTreeCorrectedValid(s);
    } else if !a.ClearTreeAction? && !a.InitAction? {
      ControlKeepsCount(s, a);
    }
  }

  /** The controls left as written keep `size` equal to the node count. */
  lemma ControlKeepsCount(s: TreeState, a: Action)
    requires Consistent(s) && Shown(s) && s.tree.size == NodeCount(s.tree.root)
    requires !a.ClearTreeAction? && !a.InitAction? && !a.BalanceTreeAction?
    ensures var r := Apply(s, a);
      Consistent(r) && Shown(r) && r.tree.size == NodeCount(r.tree.root)
  {
    ActionKeepsConsistent(s, a);
    ActionKeepsShown(s, a);
    if a.RemoveSelectedNodeAction? && s.selected.Some? {
      RemoveCorrect(s.tree, SelectedValue(s.selected.value));
    }
  }
}

=== FILE: tree_node.dfy ===
/** The binary-search-tree node (TreeNode.ts) as an immutable inductive
    value, and the vocabulary every tree module shares: the values a tree
    holds, its node count, its in-order value sequence and the
    binary-search-tree ordering. */
module TreeNodes {
  import opened Common

  /** A subtree: empty (the source's `null` child) or a node holding `data`
      with its left and right subtrees. */
  datatype Tree = Nil | Node(left: Tree, data: int, right: Tree)

  /** A reference to an actual node (a `TreeNode`, never `null`), with the
      subtree hanging from it. */
  type NodeTree = t: Tree | t.Node? witness Node(Nil, 0, Nil)

  /** `new TreeNode(data)`: a node holding exactly `data`, with no children. */
  function NewTreeNode(data: int): (n: Tree)
    ensures n.Node? && n.data == data
    ensures NodeCount(n) == 1 && InOrder(n) == [data]
    ensures IsBst(n)
  {
    Node(Nil, data, Nil)
  }

  /** The set of values stored in `t`. */
  function Contents(t: Tree): set<int> {
    match t
    case Nil => {}
    case Node(l, d, r) => Contents(l) + {d} + Contents(r)
  }

  /** The number of nodes reachable from `t`. */
  function NodeCount(t: Tree): nat {
    match t
    case Nil => 0
    case Node(l, _, r) => NodeCount(l) + 1 + NodeCount(r)
  }

  /** The values in in-order (left subtree, node, right subtree). */
  function InOrder(t: Tree): seq<int> {
    match t
    case Nil => []
    case Node(l, d, r) => InOrder(l) + [d] + InOrder(r)
  }

  /** The ordering invariant: every value in a left subtree is smaller than
      its node's value, and every value in a right subtree is greater. */
  ghost predicate IsBst(t: Tree) {
    match t
    case Nil => true
    case Node(l, d, r) =>
      && IsBst(l) && IsBst(r)
      && (forall x :: x in Contents(l) ==> x < d)
      && (forall x :: x in Contents(r) ==> d < x)
  }

  /** `s` is `t` or a subtree hanging somewhere below `t`. */
  predicate IsSubtree(s: Tree, t: Tree) {
    s == t || (t.Node? && (IsSubtree(s, t.left) || IsSubtree(s, t.right)))
  }

  lemma {:induction false} SubtreeChildren(s: Tree, t: Tree)
    requires IsSubtree(s, t) && s.Node?
    ensures IsSubtree(s.left, t) && IsSubtree(s.right, t)
  {
    if s != t {
      if IsSubtree(s, t.left) {
        SubtreeChildren(s, t.left);
      } else {
        SubtreeChildren(s, t.right);
      }
    }
  }

  /** The in-order sequence lists every node once: its length is the node
      count and its elements are exactly the stored values. */
  lemma {:induction false} InOrderFacts(t: Tree)
    ensures |InOrder(t)| == NodeCount(t)
    ensures forall x :: x in InOrder(t) <==> x in Contents(t)
  {
    match t
    case Nil =>
    case Node(l, d, r) =>
      InOrderFacts(l);
      InOrderFacts(r);
  }

  /** A sequence split around one element is strictly increasing exactly
      when both halves are and the element separates them. */
  lemma SortedAround(a: seq<int>, d: int, b: seq<int>)
    ensures StrictlyIncreasing(a + [d] + b) <==>
      && StrictlyIncreasing(a) && StrictlyIncreasing(b)
      && (forall x :: x in a ==> x < d)
      && (forall y :: y in b ==> d < y)
  {
    var s := a + [d] + b;
    if StrictlyIncreasing(s) {
      forall i, j | 0 <= i < j < |a|
        ensures a[i] < a[j]
      {
        assert a[i] == s[i] && a[j] == s[j];
      }
      forall i, j | 0 <= i < j < |b|
        ensures b[i] < b[j]
      {
        assert b[i] == s[|a| + 1 + i] && b[j] == s[|a| + 1 + j];
      }
      forall x | x in a
        ensures x < d
      {
        var i :| 0 <= i < |a| && a[i] == x;
        assert s[i] == x && s[|a|] == d;
      }
      forall y | y in b
        ensures d < y
      {
        var i :| 0 <= i < |b| && b[i] == y;
        assert s[|a| + 1 + i] == y && s[|a|] == d;
      }
    }
    if && StrictlyIncreasing(a) && StrictlyIncreasing(b)
       && (forall x :: x in a ==> x < d)
       && (forall y :: y in b ==> d < y)
    {
      forall i, j | 0 <= i < j < |s|
        ensures s[i] < s[j]
      {
        if j < |a| {
          assert s[i] == a[i] && s[j] == a[j];
        } else if j == |a| {
          assert s[i] == a[i] && a[i] in a;
        } else if i > |a| {
          assert s[i] == b[i - |a| - 1] && s[j] == b[j - |a| - 1];
        } else if i == |a| {
          assert s[j] == b[j - |a| - 1] && s[j] in b;
        } else {
          assert s[i] == a[i] && a[i] in a;
          assert s[j] == b[j - |a| - 1] && s[j] in b;
        }
      }
    }
  }

  /** The ordering invariant holds exactly when the in-order traversal
      yields strictly increasing values (both directions). */
  lemma {:induction false} BstIffSortedInOrder(t: Tree)
    ensures IsBst(t) <==> StrictlyIncreasing(InOrder(t))
  {
    match t
    case Nil =>
    case Node(l, d, r) =>
      BstIffSortedInOrder(l);
      BstIffSortedInOrder(r);
      InOrderFacts(l);
      InOrderFacts(r);
      SortedAround(InOrder(l), d, InOrder(r));
  }
}

=== FILE: tree_shape.dfy ===
/** The height measures behind `isBalanced` (BinaryTree.ts): the shortest
    and longest root-to-empty-slot path, each counted so that an empty
    subtree has height -1, and the global balance check built on them. */
module TreeShape {
  import opened Common
  import opened TreeNodes

  /** `findMinHeight(node)`: one more than the smaller child height. */
  function MinHeight(t: Tree): (h: int)
    ensures h >= -1 && (h == -1 <==> t.Nil?)
  {
    match t
    case Nil => -1
    case Node(l, _, r) =>
      var hl := MinHeight(l);
      var hr := MinHeight(r);
      if hl < hr then hl + 1 else hr + 1
  }

  /** `findMaxHeight(node)`: one more than the larger child height. */
  function MaxHeight(t: Tree): (h: int)
    ensures h >= -1 && (h == -1 <==> t.Nil?)
  {
    match t
    case Nil => -1
    case Node(l, _, r) =>
      var hl := MaxHeight(l);
      var hr := MaxHeight(r);
      if hl > hr then hl + 1 else hr + 1
  }

  /** `isBalanced()`: the shortest path is at most one shorter than the
      longest. A global check, not a per-node one. */
  predicate IsBalanced(t: Tree)
    ensures MaxHeight(t) <= 1 ==> IsBalanced(t)
  {
    MinHeight(t) >= MaxHeight(t) - 1
  }

  /** The two heights are ordered: MinHeight never exceeds MaxHeight, and
      only the empty tree has height -1, so the empty tree counts as
      balanced, and so does any tree of height at most one. */
  lemma {:induction false} HeightBounds(t: Tree)
    ensures -1 <= MinHeight(t) <= MaxHeight(t)
    ensures MaxHeight(t) == -1 <==> t.Nil?
    ensures t.Nil? ==> IsBalanced(t)
    ensures MaxHeight(t) <= 1 ==> IsBalanced(t)
  {
    match t
    case Nil =>
    case Node(l, _, r) =>
      HeightBounds(l);
      HeightBounds(r);
  }

  /** What the two heights measure: the first MinHeight+1 levels of the tree
      are complete (so at least 2^(MinHeight+1) - 1 nodes), and no node lies
      below level MaxHeight (so at most 2^(MaxHeight+1) - 1 nodes). */
  lemma {:induction false} HeightCounts(t: Tree)
    ensures Pow2(MinHeight(t) + 1) <= NodeCount(t) + 1 <= Pow2(MaxHeight(t) + 1)
  {
    match t
    case Nil =>
    case Node(l, _, r) =>
      HeightCounts(l);
      HeightCounts(r);
      HeightBounds(l);
      HeightBounds(r);
      MinHeightStep(MinHeight(l), MinHeight(r), NodeCount(l), NodeCount(r), MinHeight(t), NodeCount(t));
      MaxHeightStep(MaxHeight(l), MaxHeight(r), NodeCount(l), NodeCount(r), MaxHeight(t), NodeCount(t));
  }

  /** One level of the lower bound: if both subtrees of a node have their
      first levels complete down to their own minimum heights `hl` and `hr`,
      the node's tree, of minimum height `h` and `c` nodes, is complete down
      to `h`. */
  lemma MinHeightStep(hl: int, hr: int, cl: nat, cr: nat, h: int, c: nat)
    requires -1 <= hl && -1 <= hr && h == (if hl < hr then hl else hr) + 1 && c == cl + cr + 1
    requires Pow2(hl + 1) <= cl + 1 && Pow2(hr + 1) <= cr + 1
    ensures Pow2(h + 1) <= c + 1
  {
    Pow2Monotone(h, hl + 1);
    Pow2Monotone(h, hr + 1);
    assert Pow2(h + 1) == 2 * Pow2(h);
  }

  /** One level of the upper bound: the larger child height bounds both
      children's node counts from above. */
  lemma MaxHeightStep(hl: int, hr: int, cl: nat, cr: nat, h: int, c: nat)
    requires -1 <= hl && -1 <= hr && h == (if hl > hr then hl else hr) + 1 && c == cl + cr + 1
    requires cl + 1 <= Pow2(hl + 1) && cr + 1 <= Pow2(hr + 1)
    ensures c + 1 <= Pow2(h + 1)
  {
    Pow2Monotone(hl + 1, h);
    Pow2Monotone(hr + 1, h);
    assert Pow2(h + 1) == 2 * Pow2(h);
  }
}

=== FILE: trie.dfy ===
/** The `Trie` class of Trie.ts: a root node with the empty character and a
    word counter. Every public operation lower-cases its argument one
    character at a time before walking the children; lowering each
    character on the way equals lowering the whole argument first, which is
    how the model is written. `add`, `isPresent` and `remove` are plain
    aliases of `insert`, `search` and `delete` and share their models. */
module Tries {
  import opened Common
  import opened TrieNodes
  import opened TrieEdits
  import opened TrieWords

  datatype Trie = Trie(root: TrieNode, size: int)

  /** A trie as its operations leave it: the root is unmarked (the empty
      word is never inserted), keys are single lower-case characters and
      distinct among siblings, every non-root node leads to a word, and
      `size` counts the marked nodes. */
  ghost predicate Valid(t: Trie) {
    && t.root.character == ""
    && !t.root.isEndOfWord
    && WellFormed(t.root)
    && Pruned(t.root)
    && t.size == CountWords(t.root)
  }

  /** `new Trie()`. */
  function NewTrie(): (t: Trie)
    ensures Valid(t) && t.size == 0
  {
    Trie(NewTrieNode(), 0)
  }

  // ---------------------------------------------------------------------
  // Operations
  // ---------------------------------------------------------------------

  /** `insert(word)` (and `add`): ignore the empty word, otherwise walk the
      lowered word creating children, and count the word if it is new. */
  function Insert(t: Trie, word: string): (r: Trie)
    ensures |word| == 0 ==> r == t
    ensures |word| > 0 ==> Search(r, word)
    ensures r.size == t.size || r.size == t.size + 1
    ensures r.root.character == t.root.character
  {
    if |word| == 0 then t
    else
      InsertStored(t.root, LowerString(word), LowerString(word));
      var o := InsertWord(t.root, LowerString(word));
      Trie(o.node, if o.added then t.size + 1 else t.size)
  }

  /** `findNode(str)`: the node at the end of the lowered path, the root for
      the empty string. */
  function FindNode(t: Trie, s: string): (r: Option<TrieNode>)
    ensures |s| == 0 ==> r == Some(t.root)
    ensures |s| > 0 && r.Some? ==> r.value.character == [Lower(s[|s| - 1])]
  {
    FindKey(t.root, LowerString(s));
    Find(t.root, LowerString(s))
  }

  /** `search(word)` (and `isPresent`): a found word is also a prefix. */
  predicate Search(t: Trie, word: string)
    ensures Search(t, word) ==> StartsWith(t, word)
  {
    |word| > 0 && FindNode(t, word).Some? && FindNode(t, word).value.isEndOfWord
  }

  /** `startsWith(prefix)`: in a pruned trie, the node of a found prefix
      leads to at least one word. */
  predicate StartsWith(t: Trie, prefix: string)
    ensures StartsWith(t, prefix) && Pruned(t.root) ==>
      FindNode(t, prefix).Some? && CountWords(FindNode(t, prefix).value) >= 1
  {
    var found := |prefix| > 0 && FindNode(t, prefix).Some?;
    if found && Pruned(t.root) then FindPruned(t.root, LowerString(prefix)); found else found
  }

  /** The trie after a deletion and the boolean the call returns. */
  datatype Removal = Removal(trie: Trie, result: bool)

  /** `delete(word)` (and `remove`) as written: the result is
      `_deleteWord`'s answer at the root, i.e. whether the root itself would
      have to be dropped. */
  function Delete(t: Trie, word: string): (r: Removal)
    ensures |word| == 0 ==> r == Removal(t, false)
    ensures r.trie.size == (if |word| > 0 && Search(t, word) then t.size - 1 else t.size)
    ensures r.result ==> r.trie.size == t.size - 1
  {
    if |word| == 0 then Removal(t, false)
    else
      DeleteRemoved(t.root, LowerString(word));
      var o := DeleteWord(t.root, LowerString(word));
      Removal(Trie(o.node, if o.removed then t.size - 1 else t.size), o.prune)
  }

  /** `delete(word)` as its documentation describes it: the same trie, and
      `true` exactly when a word was removed. */
  function DeleteReportingRemoval(t: Trie, word: string): (r: Removal)
    ensures r.trie == Delete(t, word).trie
    ensures r.result <==> r.trie != t
    ensures r.result ==> r.trie.size == t.size - 1
  {
    if |word| == 0 then Removal(t, false)
    else
      var o := DeleteWord(t.root, LowerString(word));
      Removal(Trie(o.node, if o.removed then t.size - 1 else t.size), o.removed)
  }

  /** `getAllWords()`. */
  function GetAllWords(t: Trie): (r: seq<string>)
    ensures |r| == CountWords(t.root)
    ensures Valid(t) ==> |r| == t.size
  {
    CollectWords(t.root, "")
  }

  /** `findNodesWithPrefix(prefix)`: the marked nodes at or below the prefix
      node, none when the prefix is missing. */
  function FindNodesWithPrefix(t: Trie, prefix: string): (r: seq<TrieNode>)
    ensures FindNode(t, prefix).None? ==> r == []
    ensures FindNode(t, prefix).Some? ==> |r| == CountWords(FindNode(t, prefix).value)
    ensures forall i :: 0 <= i < |r| ==> r[i].isEndOfWord
  {
    match FindNode(t, prefix)
    case None => []
    case Some(m) => MarkedFrom(m)
  }

  // ---------------------------------------------------------------------
  // Path facts
  // ---------------------------------------------------------------------

  /** Following `a + b` is following `a`, then `b`. */
  lemma {:induction false} FindConcat(n: TrieNode, a: string, b: string)
    ensures Find(n, a + b) == (match Find(n, a) case None => None case Some(m) => Find(m, b))
    decreases |a|
  {
    if |a| > 0 {
      assert (a + b)[0] == a[0] && (a + b)[1..] == a[1..] + b;
      match Child(n, [a[0]])
      case None =>
      case Some(c) => FindConcat(c, a[1..], b);
    } else {
      assert a + b == b;
    }
  }

  /** The node reached by a non-empty path carries the path's last
      character as its key. */
  lemma {:induction false} FindKey(n: TrieNode, path: string)
    ensures |path| > 0 && Find(n, path).Some? ==> Find(n, path).value.character == [path[|path| - 1]]
    decreases |path|
  {
    if |path| > 1 && Find(n, path).Some? {
      var c := Child(n, [path[0]]).value;
      FindKey(c, path[1..]);
      assert path[1..][|path| - 2] == path[|path| - 1];
    }
  }

  /** On a pruned node, every node at a non-empty path leads to a word. */
  lemma {:induction false} FindPruned(n: TrieNode, path: string)
    requires Pruned(n) && |path| > 0 && Find(n, path).Some?
    ensures CountWords(Find(n, path).value) >= 1
    decreases |path|
  {
    var c := Child(n, [path[0]]).value;
    if |path| == 1 {
      PrunedHasWords(c);
    } else {
      FindPruned(c, path[1..]);
    }
  }

  /** Every operation lowers its argument first, so two words that lower
      to the same string are interchangeable. */
  lemma CaseInsensitive(t: Trie, w: string, v: string)
    requires LowerString(w) == LowerString(v)
    ensures Search(t, w) == Search(t, v) && StartsWith(t, w) == StartsWith(t, v)
    ensures Insert(t, w) == Insert(t, v) && Delete(t, w) == Delete(t, v)
    ensures FindNodesWithPrefix(t, w) == FindNodesWithPrefix(t, v)
  {
    assert |w| == |LowerString(w)|;
  }

  /** Under well-formed keys, every path that exists is lower case. */
  lemma {:induction false} FindLower(n: TrieNode, path: string)
    requires WellFormed(n) && Find(n, path).Some?
    ensures IsLowerString(path)
    decreases |path|
  {
    if |path| > 0 {
      var c := Child(n, [path[0]]).value;
      FindLower(c, path[1..]);
      assert forall i :: 1 <= i < |path| ==> path[i] == path[1..][i - 1];
    }
  }

  // ---------------------------------------------------------------------
  // Insertion
  // ---------------------------------------------------------------------

  lemma InsertValid(t: Trie, word: string)
    requires Valid(t)
    ensures Valid(Insert(t, word))
  {
    if |word| > 0 {
      var w := LowerString(word);
      LowerStringFacts(word);
      InsertWellFormed(t.root, w);
      InsertPruned(t.root, w);
      InsertCount(t.root, w);
    }
  }

  /** After `insert(word)`, a word is found exactly when it was found before
      or it is `word` up to case. */
  lemma InsertSearch(t: Trie, word: string, u: string)
    ensures Search(Insert(t, word), u) <==>
      Search(t, u) || (|word| > 0 && |u| > 0 && LowerString(u) == LowerString(word))
  {
    if |word| > 0 {
      InsertStored(t.root, LowerString(word), LowerString(u));
    }
  }

  /** `size` grows by one exactly when a non-empty word that was not yet
      found is inserted. */
  lemma InsertSize(t: Trie, word: string)
    ensures Insert(t, word).size == t.size + (if |word| > 0 && !Search(t, word) then 1 else 0)
  {
    if |word| > 0 {
      InsertFresh(t.root, LowerString(word));
    }
  }

  // ---------------------------------------------------------------------
  // Deletion
  // ---------------------------------------------------------------------

  lemma DeleteValid(t: Trie, word: string)
    requires Valid(t)
    ensures Valid(Delete(t, word).trie)
  {
    if |word| > 0 {
      var w := LowerString(word);
      DeleteWellFormed(t.root, w);
      DeletePruned(t.root, w);
      DeleteCount(t.root, w);
    }
  }

  /** After `delete(word)`, a word is found exactly when it was found before
      and it is not `word` up to case. */
  lemma DeleteSearch(t: Trie, word: string, u: string)
    requires Valid(t)
    ensures Search(Delete(t, word).trie, u) <==>
      Search(t, u) && !(|word| > 0 && LowerString(u) == LowerString(word))
  {
    if |word| > 0 {
      DeleteStored(t.root, LowerString(word), LowerString(u));
    }
  }

  /** `size` drops by one exactly when a non-empty word that was found is
      deleted. */
  lemma DeleteSize(t: Trie, word: string)
    ensures Delete(t, word).trie.size == t.size - (if |word| > 0 && Search(t, word) then 1 else 0)
  {
    if |word| > 0 {
      DeleteRemoved(t.root, LowerString(word));
    }
  }

  /** What `delete` actually returns: `true` exactly when the word was found
      and it was the only word in the trie, because the root's own "drop me"
      answer is passed back. */
  lemma DeleteResultAsWritten(t: Trie, word: string)
    requires Valid(t)
    ensures Delete(t, word).result <==> Search(t, word) && t.size == 1
  {
    if |word| > 0 {
      var w := LowerString(word);
      DeletePruneMeans(t.root, w);
      DeleteRemoved(t.root, w);
      DeleteCount(t.root, w);
    }
  }

  /** A trie holding "a" and "b": deleting "a" removes it, yet `delete`
      answers `false`. */
  lemma DeleteMisreportsRemoval()
    ensures var t := Insert(Insert(NewTrie(), "a"), "b");
      && Search(t, "a")
      && !Search(Delete(t, "a").trie, "a")
      && !Delete(t, "a").result
  {
    var t0 := NewTrie();
    var t1 := Insert(t0, "a");
    var t2 := Insert(t1, "b");
    InsertValid(t0, "a");
    InsertValid(t1, "b");
    InsertSize(t0, "a");
    InsertSize(t1, "b");
    InsertSearch(t0, "a", "a");
    InsertSearch(t1, "b", "a");
    InsertSearch(t0, "a", "b");
    assert LowerString("a") == "a" && LowerString("b") == "b";
    assert !Search(t0, "a") && !Search(t0, "b");
    DeleteSearch(t2, "a", "a");
    DeleteResultAsWritten(t2, "a");
  }

  /** The documented answer: `true` exactly when the word was found. */
  lemma DeleteReportingRemovalCorrect(t: Trie, word: string)
    ensures DeleteReportingRemoval(t, word).trie == Delete(t, word).trie
    ensures DeleteReportingRemoval(t, word).result <==> Search(t, word)
  {
    if |word| > 0 {
      DeleteRemoved(t.root, LowerString(word));
    }
  }

  // ---------------------------------------------------------------------
  // Listings
  // ---------------------------------------------------------------------

  /** `getAllWords()` lists every stored word once, in lower case, and as
      many words as `size` counts. */
  lemma GetAllWordsCorrect(t: Trie, x: string)
    requires Valid(t)
    ensures x in GetAllWords(t) <==> |x| > 0 && Search(t, x) && IsLowerString(x)
    ensures NoDuplicates(GetAllWords(t))
    ensures |GetAllWords(t)| == t.size
  {
    CollectMember(t.root, "", x);
    assert x[0..] == x;
    LowerStringFacts(x);
    if Stored(t.root, x) {
      FindLower(t.root, x);
    }
    CollectDistinct(t.root, "");
  }

  /** `search(word)` holds exactly when the lowered word is listed. */
  lemma SearchListed(t: Trie, word: string)
    requires Valid(t)
    ensures Search(t, word) <==> |word| > 0 && LowerString(word) in GetAllWords(t)
  {
    LowerStringFacts(word);
    GetAllWordsCorrect(t, LowerString(word));
  }

  /** The listed words starting with the lowered prefix are exactly the
      listing of the prefix node, in the same order. */
  lemma PrefixWords(t: Trie, prefix: string)
    requires Valid(t)
    ensures WithPrefix(GetAllWords(t), LowerString(prefix)) ==
      (match FindNode(t, prefix) case None => [] case Some(m) => CollectWords(m, LowerString(prefix)))
  {
    var p := LowerString(prefix);
    assert "" + p == p;
    PrefixListing(t.root, "", p);
  }

  /** `startsWith(prefix)` holds exactly when some listed word starts with
      the lowered prefix. */
  lemma StartsWithListed(t: Trie, prefix: string)
    requires Valid(t)
    ensures StartsWith(t, prefix) <==>
      |prefix| > 0 && exists x :: x in GetAllWords(t) && HasPrefix(x, LowerString(prefix))
  {
    var p := LowerString(prefix);
    var ws := WithPrefix(GetAllWords(t), p);
    PrefixWords(t, prefix);
    if StartsWith(t, prefix) {
      var m := FindNode(t, prefix).value;
      FindPruned(t.root, p);
      assert ws[0] in ws;
    }
    if exists x :: x in GetAllWords(t) && HasPrefix(x, p) {
      var x :| x in GetAllWords(t) && HasPrefix(x, p);
      assert x in ws;
    }
  }

  /** `findNodesWithPrefix(prefix)` returns, in order, the node of each
      listed word that starts with the lowered prefix. */
  lemma FindNodesWithPrefixCorrect(t: Trie, prefix: string)
    requires Valid(t)
    ensures var ws := WithPrefix(GetAllWords(t), LowerString(prefix));
      var ns := FindNodesWithPrefix(t, prefix);
      && |ns| == |ws|
      && (forall i :: 0 <= i < |ns| ==> Find(t.root, ws[i]) == Some(ns[i]) && ns[i].isEndOfWord)
  {
    var p := LowerString(prefix);
    var ws := WithPrefix(GetAllWords(t), p);
    var ns := FindNodesWithPrefix(t, prefix);
    PrefixWords(t, prefix);
    match FindNode(t, prefix)
    case None =>
    case Some(m) =>
      FindWellFormed(t.root, p);
      CollectInStep(m, p);
      forall i | 0 <= i < |ns|
        ensures Find(t.root, ws[i]) == Some(ns[i]) && ns[i].isEndOfWord
      {
        var rest := ws[i][|p|..];
        assert ws[i] == p + rest;
        FindConcat(t.root, p, rest);
        assert ns[i] in MarkedFrom(m);
        MarkedFromMarked(m, ns[i]);
      }
  }

  /** Every node reached from a well-formed node is well formed. */
  lemma {:induction false} FindWellFormed(n: TrieNode, path: string)
    requires WellFormed(n) && Find(n, path).Some?
    ensures WellFormed(Find(n, path).value)
    decreases |path|
  {
    if |path| > 0 {
      FindWellFormed(Child(n, [path[0]]).value, path[1..]);
    }
  }
}

=== FILE: trie_context.dfy ===
/** The trie page's state container (TrieContext.tsx) as a record over an
    immutable trie: every handler returns the next record. Input is trimmed
    of surrounding white space before it reaches the trie, a blank input is
    ignored, the listed words are read back from the trie after every
    change, and the two search results reset each other. */
module TrieContexts {
  import opened Common
  import opened TrieNodes
  import opened TrieWords
  import opened Tries

  // ---------------------------------------------------------------------
  // Trimming
  // ---------------------------------------------------------------------

  /** A character `trim()` removes: the white space and line terminators of
      section 12.2 and 12.3 of ECMA-262 (tab, line tabulation, form feed,
      space, no-break space, byte order mark, the space separators of
      Unicode, line feed, carriage return, line and paragraph separator). */
  predicate IsSpace(c: char) {
    var k := c as int;
    || 0x09 <= k <= 0x0D || k == 0x20 || k == 0xA0 || k == 0x1680
    || 0x2000 <= k <= 0x200A || k == 0x2028 || k == 0x2029 || k == 0x202F
    || k == 0x205F || k == 0x3000 || k == 0xFEFF
  }

  /** The first position at or after `i` that holds no white space, or
      `|s|` when there is none. */
  function SkipSpace(s: string, i: nat): (k: nat)
    requires i <= |s|
    ensures i <= k <= |s|
    ensures forall j :: i <= j < k ==> IsSpace(s[j])
    ensures k < |s| ==> !IsSpace(s[k])
    decreases |s| - i
  {
    if i < |s| && IsSpace(s[i]) then SkipSpace(s, i + 1) else i
  }

  /** The end of `s[lo..hi]` once its trailing white space is dropped. */
  function SkipSpaceBack(s: string, lo: nat, hi: nat): (k: nat)
    requires lo <= hi <= |s|
    ensures lo <= k <= hi
    ensures forall j :: k <= j < hi ==> IsSpace(s[j])
    ensures lo < k ==> !IsSpace(s[k - 1])
    decreases hi - lo
  {
    if lo < hi && IsSpace(s[hi - 1]) then SkipSpaceBack(s, lo, hi - 1) else hi
  }

  /** Where the trimmed text starts in `s`. */
  function TrimStart(s: string): nat {
    SkipSpace(s, 0)
  }

  /** Where the trimmed text ends in `s`. */
  function TrimEnd(s: string): nat {
    SkipSpaceBack(s, TrimStart(s), |s|)
  }

  /** `trim()`. */
  function Trim(s: string): (r: string)
    ensures |r| <= |s|
  {
    s[TrimStart(s)..TrimEnd(s)]
  }

  /** `trim()` cuts `s` into white space, the result, and white space, and
      the result neither starts nor ends with white space. */
  lemma TrimCorrect(s: string)
    ensures var b, e := TrimStart(s), TrimEnd(s);
      && 0 <= b <= e <= |s| && Trim(s) == s[b..e]
      && (forall j :: 0 <= j < b ==> IsSpace(s[j]))
      && (forall j :: e <= j < |s| ==> IsSpace(s[j]))
      && (b < e ==> !IsSpace(s[b]) && !IsSpace(s[e - 1]))
  {
  }

  /** `trim()` gives the empty string exactly when `s` is blank. */
  lemma TrimBlank(s: string)
    ensures Trim(s) == "" <==> forall j :: 0 <= j < |s| ==> IsSpace(s[j])
  {
    var b, e := TrimStart(s), TrimEnd(s);
    if b < |s| {
      assert !IsSpace(s[b]);
      assert b < e;
    }
  }

  /** Trimming twice trims nothing more. */
  lemma TrimIdempotent(s: string)
    ensures Trim(Trim(s)) == Trim(s)
  {
    var t := Trim(s);
    var b, e := TrimStart(s), TrimEnd(s);
    if |t| > 0 {
      assert t[0] == s[b] && t[|t| - 1] == s[e - 1];
      assert TrimStart(t) == 0;
      assert TrimEnd(t) == |t|;
    } else {
      assert TrimStart(t) == 0 == TrimEnd(t);
    }
  }

  // ---------------------------------------------------------------------
  // State
  // ---------------------------------------------------------------------

  /** The provider's state. A node is selected by reference in the source;
      here it is named by its path from the root. The two agree while the
      selected node stays in the trie; once its word is removed and added
      again the source's node is a new object at the same path, which the
      path does not tell apart. `None` stands for `undefined` and `null`. */
  datatype TrieState = TrieState(
    trie: Trie,
    words: seq<string>,
    selected: Option<string>,
    searchTerm: string,
    searchResult: Option<bool>,
    prefixResult: Option<seq<string>>)

  /** The state before the mounting effect runs: an empty trie, no words,
      nothing selected or searched. */
  function InitialTrieState(): (s: TrieState)
    ensures s.trie.size == 0 && s.words == [] && s.selected.None?
    ensures s.searchResult.None? && s.prefixResult.None? && s.searchTerm == ""
  {
    TrieState(NewTrie(), [], None, "", None, None)
  }

  /** The trie keeps its invariant and the listed words are the trie's. */
  ghost predicate Coherent(s: TrieState) {
    Valid(s.trie) && s.words == GetAllWords(s.trie)
  }

  // ---------------------------------------------------------------------
  // Handlers
  // ---------------------------------------------------------------------

  /** `addWord(newWord)`: a blank word is ignored; otherwise the trimmed
      word is inserted and the words are read back from the trie. */
  function AddWord(s: TrieState, w: string): (r: TrieState)
    ensures Trim(w) == "" ==> r == s
    ensures r.words == GetAllWords(r.trie) || r == s
    ensures r.(trie := s.trie, words := s.words) == s
  {
    var t := Trim(w);
    if t == "" then s
    else
      var trie := Insert(s.trie, t);
      s.(trie := trie, words := GetAllWords(trie))
  }

  /** `removeWord(word)`: a blank word is ignored; otherwise the trimmed
      word is deleted, whatever `delete` answers, and the words are read
      back from the trie. */
  function RemoveWord(s: TrieState, w: string): (r: TrieState)
    ensures Trim(w) == "" ==> r == s
    ensures r.words == GetAllWords(r.trie) || r == s
    ensures r.(trie := s.trie, words := s.words) == s
  {
    var t := Trim(w);
    if t == "" then s
    else
      var trie := Delete(s.trie, t).trie;
      s.(trie := trie, words := GetAllWords(trie))
  }

  /** `clearTrie()`: a fresh trie, no words, no selection and no results;
      the search term stays. */
  function ClearTrie(s: TrieState): (r: TrieState)
    ensures r.trie.size == 0 && r.words == [] && r.selected.None?
    ensures r.searchResult.None? && r.prefixResult.None? && r.searchTerm == s.searchTerm
  {
    s.(trie := NewTrie(), words := [], selected := None, searchResult := None, prefixResult := None)
  }

  /** `selectNode(node)`: selecting the selected node again clears the
      selection; any other node becomes the selection. */
  function SelectNode(s: TrieState, path: string): (r: TrieState)
    ensures r.selected.Some? <==> s.selected != Some(path)
    ensures r.selected.Some? ==> r.selected.value == path
    ensures r.(selected := s.selected) == s
  {
    s.(selected := if s.selected == Some(path) then None else Some(path))
  }

  /** `searchWord(word)`: a blank word clears the word result only;
      otherwise the word result is `search` of the trimmed word and the
      prefix result is cleared. */
  function SearchWord(s: TrieState, w: string): (r: TrieState)
    ensures Trim(w) == "" ==> r == s.(searchResult := None)
    ensures Trim(w) != "" ==> r.searchResult.Some? && r.prefixResult.None?
    ensures r.(searchResult := s.searchResult, prefixResult := s.prefixResult) == s
  {
    var t := Trim(w);
    if t == "" then s.(searchResult := None)
    else s.(searchResult := Some(Search(s.trie, t)), prefixResult := None)
  }

  /** The `forEach` of `searchPrefix`: the words, in order, whose lowered
      form starts with `p`. */
  function LoweredWithPrefix(ws: seq<string>, p: string): (r: seq<string>)
    ensures forall x :: x in r ==> x in ws
    ensures |r| <= |ws|
  {
    if |ws| == 0 then []
    else (if HasPrefix(LowerString(ws[0]), p) then [ws[0]] else []) + LoweredWithPrefix(ws[1..], p)
  }

  /** `searchPrefix(prefix)`: a blank prefix clears the prefix result only;
      otherwise the prefix result lists the trie's words that start with
      the trimmed, lowered prefix, and the word result is cleared. */
  function SearchPrefix(s: TrieState, p: string): (r: TrieState)
    ensures Trim(p) == "" ==> r == s.(prefixResult := None)
    ensures Trim(p) != "" ==> r.prefixResult.Some? && r.searchResult.None?
    ensures r.(searchResult := s.searchResult, prefixResult := s.prefixResult) == s
  {
    var t := Trim(p);
    if t == "" then s.(prefixResult := None)
    else
      var found := LoweredWithPrefix(GetAllWords(s.trie), LowerString(t));
      s.(prefixResult := Some(found), searchResult := None)
  }

  /** The mounting effect: `addWord` for each initial word in turn (the
      layout pass that follows is not modelled). */
  function AddWords(s: TrieState, ws: seq<string>): (r: TrieState)
    ensures |ws| == 0 ==> r == s
    ensures r.words == GetAllWords(r.trie) || r == s
    ensures r.(trie := s.trie, words := s.words) == s
    decreases |ws|
  {
    if |ws| == 0 then s else AddWords(AddWord(s, ws[0]), ws[1..])
  }

  /** The provider as it mounts: a fresh state, then the mounting effect
      over the initial words. */
  function MountTrie(initialWords: seq<string>): (r: TrieState)
    ensures r.words == GetAllWords(r.trie)
    ensures r.selected.None? && r.searchTerm == "" && r.searchResult.None? && r.prefixResult.None?
  {
    AddWords(InitialTrieState(), initialWords)
  }

  // ---------------------------------------------------------------------
  // What the handlers promise
  // ---------------------------------------------------------------------

  /** A listed word is a stored, non-empty, lower-case word. */
  lemma ListedMeans(s: TrieState, x: string)
    requires Coherent(s)
    ensures x in s.words <==> |x| > 0 && Search(s.trie, x) && IsLowerString(x)
  {
    GetAllWordsCorrect(s.trie, x);
  }

  /** `addWord` keeps the state coherent, and afterwards the listed words
      are the old ones plus the trimmed, lowered word when it is not blank. */
  lemma AddWordCorrect(s: TrieState, w: string, x: string)
    requires Coherent(s)
    ensures Coherent(AddWord(s, w))
    ensures x in AddWord(s, w).words <==>
      x in s.words || (Trim(w) != "" && x == LowerString(Trim(w)))
  {
    var t := Trim(w);
    if t != "" {
      var r := AddWord(s, w);
      InsertValid(s.trie, t);
      ListedMeans(s, x);
      ListedMeans(r, x);
      InsertSearch(s.trie, t, x);
      LowerStringFacts(x);
      LowerStringFacts(t);
    }
  }

  /** `removeWord` keeps the state coherent, and afterwards the listed
      words are the old ones less the trimmed, lowered word. */
  lemma RemoveWordCorrect(s: TrieState, w: string, x: string)
    requires Coherent(s)
    ensures Coherent(RemoveWord(s, w))
    ensures x in RemoveWord(s, w).words <==>
      x in s.words && !(Trim(w) != "" && x == LowerString(Trim(w)))
  {
    var t := Trim(w);
    if t != "" {
      var r := RemoveWord(s, w);
      DeleteValid(s.trie, t);
      ListedMeans(s, x);
      ListedMeans(r, x);
      DeleteSearch(s.trie, t, x);
      LowerStringFacts(x);
    }
  }

  /** `clearTrie` leaves a coherent state with nothing stored. */
  lemma ClearTrieCorrect(s: TrieState, x: string)
    ensures Coherent(ClearTrie(s))
    ensures !Search(ClearTrie(s).trie, x)
  {
    var r := ClearTrie(s);
    assert GetAllWords(r.trie) == [];
    SearchListed(r.trie, x);
  }

  /** Selecting the same node twice from no selection, or from that node,
      gives back the selection it started from. */
  lemma SelectNodeTwice(s: TrieState, path: string)
    requires s.selected.None? || s.selected == Some(path)
    ensures SelectNode(SelectNode(s, path), path) == s
  {
  }

  /** The word result is `true` exactly when the trimmed, lowered word is
      listed. */
  lemma SearchWordCorrect(s: TrieState, w: string)
    requires Coherent(s)
    ensures SearchWord(s, w).searchResult == Some(true) <==>
      Trim(w) != "" && LowerString(Trim(w)) in s.words
  {
    if Trim(w) != "" {
      SearchListed(s.trie, Trim(w));
    }
  }

  /** On lower-case words, lowering before comparing changes nothing. */
  lemma {:induction false} LoweredWithPrefixOfLower(ws: seq<string>, p: string)
    requires forall x :: x in ws ==> IsLowerString(x)
    ensures LoweredWithPrefix(ws, p) == WithPrefix(ws, p)
    decreases |ws|
  {
    if |ws| > 0 {
      LowerStringFacts(ws[0]);
      LoweredWithPrefixOfLower(ws[1..], p);
    }
  }

  /** The prefix result lists, in order, exactly the listed words that
      start with the trimmed, lowered prefix, and it is non-empty exactly
      when `startsWith` holds for the trimmed prefix. */
  lemma SearchPrefixCorrect(s: TrieState, p: string)
    requires Coherent(s) && Trim(p) != ""
    ensures var r, q := SearchPrefix(s, p), LowerString(Trim(p));
      && r.prefixResult == Some(WithPrefix(s.words, q))
      && (|r.prefixResult.value| > 0 <==> StartsWith(s.trie, Trim(p)))
  {
    var t := Trim(p);
    var q := LowerString(t);
    forall x | x in s.words
      ensures IsLowerString(x)
    {
      ListedMeans(s, x);
    }
    LoweredWithPrefixOfLower(s.words, q);
    StartsWithListed(s.trie, t);
    var ws := WithPrefix(s.words, q);
    if |ws| > 0 {
      assert ws[0] in ws;
    }
  }

  /** Every handler keeps the state coherent. */
  lemma HandlersKeepCoherent(s: TrieState, w: string, path: string)
    requires Coherent(s)
    ensures Coherent(AddWord(s, w)) && Coherent(RemoveWord(s, w)) && Coherent(ClearTrie(s))
    ensures Coherent(SelectNode(s, path)) && Coherent(SearchWord(s, w)) && Coherent(SearchPrefix(s, w))
  {
    AddWordCorrect(s, w, "");
    RemoveWordCorrect(s, w, "");
    ClearTrieCorrect(s, "");
  }

  /** `x` is what `addWord` stores for one of `ws`: the trimmed, lowered
      form of a word that is not blank. */
  ghost predicate AddedBy(ws: seq<string>, x: string) {
    exists i :: 0 <= i < |ws| && Trim(ws[i]) != "" && x == LowerString(Trim(ws[i]))
  }

  lemma AddedByCons(ws: seq<string>, x: string)
    requires |ws| > 0
    ensures AddedBy(ws, x) <==>
      (Trim(ws[0]) != "" && x == LowerString(Trim(ws[0]))) || AddedBy(ws[1..], x)
  {
    if AddedBy(ws[1..], x) {
      var i :| 0 <= i < |ws[1..]| && Trim(ws[1..][i]) != "" && x == LowerString(Trim(ws[1..][i]));
      assert ws[i + 1] == ws[1..][i];
    }
    if AddedBy(ws, x) {
      var i :| 0 <= i < |ws| && Trim(ws[i]) != "" && x == LowerString(Trim(ws[i]));
      if i > 0 {
        assert ws[1..][i - 1] == ws[i];
      }
    }
  }

  /** The mounting effect on a coherent state keeps it coherent and lists,
      besides the old words, the trimmed, lowered form of every initial word
      that is not blank. */
  lemma {:induction false} AddWordsCorrect(s: TrieState, ws: seq<string>, x: string)
    requires Coherent(s)
    ensures Coherent(AddWords(s, ws))
    ensures x in AddWords(s, ws).words <==> x in s.words || AddedBy(ws, x)
    decreases |ws|
  {
    if |ws| > 0 {
      AddWordCorrect(s, ws[0], x);
      AddWordsCorrect(AddWord(s, ws[0]), ws[1..], x);
      AddedByCons(ws, x);
    }
  }

  /** After mounting, the state is coherent and lists exactly the trimmed,
      lowered forms of the initial words that are not blank. */
  lemma MountTrieCorrect(initialWords: seq<string>, x: string)
    ensures Coherent(MountTrie(initialWords))
    ensures x in MountTrie(initialWords).words <==> AddedBy(initialWords, x)
  {
    ClearTrieCorrect(InitialTrieState(), x);
    assert ClearTrie(InitialTrieState()) == InitialTrieState();
    AddWordsCorrect(InitialTrieState(), initialWords, x);
  }
}

=== FILE: trie_edit.dfy ===
/** The two recursive edits of Trie.ts on an already lower-cased word:
    `insert`'s walk that creates missing children and marks the last node,
    and `_deleteWord`, which unmarks the last node and prunes the nodes left
    without a purpose on the way back up. Both are stated against `Stored`,
    the set of words a node holds. */
module TrieEdits {
  import opened Common
  import opened TrieNodes

  // ---------------------------------------------------------------------
  // Lookup facts the edits rely on
  // ---------------------------------------------------------------------

  /** A node that neither ends a word nor has children stores nothing. */
  lemma LeafStoresNothing(m: TrieNode, x: string)
    requires !m.isEndOfWord && |m.children| == 0
    ensures !Stored(m, x)
  {
  }

  /** Two nodes with the same mark and the same child for the first
      character of `u` agree on whether they store `u`. */
  lemma StoredSameChild(a: TrieNode, b: TrieNode, u: string)
    requires |u| > 0 ==> Child(a, [u[0]]) == Child(b, [u[0]])
    requires |u| == 0 ==> a.isEndOfWord == b.isEndOfWord
    ensures Stored(a, u) <==> Stored(b, u)
  {
  }

  /** Replacing a child by one with the same key changes the lookup of that
      key only. */
  lemma ChildUpdate(n: TrieNode, i: int, x: TrieNode, key: string)
    requires 0 <= i < |n.children| && x.character == n.children[i].character
    requires i == IndexOf(n.children, n.children[i].character)
    ensures var m := n.(children := n.children[i := x]);
      Child(m, key) == (if key == x.character then Some(x) else Child(n, key))
  {
    var cs := n.children;
    var ds := cs[i := x];
    assert Keys(ds) == Keys(cs);
    IndexOfSameKeys(cs, ds, key);
  }

  /** Splitting a word after its first character. */
  lemma SplitFirst(u: string, w: string)
    requires |u| > 0 && |w| > 0
    ensures u == w <==> u[0] == w[0] && u[1..] == w[1..]
  {
    if u[0] == w[0] && u[1..] == w[1..] {
      assert u == [u[0]] + u[1..];
      assert w == [w[0]] + w[1..];
    }
  }

  /** Word count of a single child. */
  lemma CountAllSingle(x: TrieNode)
    ensures CountAll([x]) == CountWords(x)
  {
    assert [x][1..] == [];
  }

  /** Word count after replacing one child. */
  lemma CountAllUpdate(cs: seq<TrieNode>, i: int, x: TrieNode)
    requires 0 <= i < |cs|
    ensures CountAll(cs[i := x]) + CountWords(cs[i]) == CountAll(cs) + CountWords(x)
  {
    assert cs == cs[..i] + [cs[i]] + cs[i + 1..];
    assert cs[i := x] == cs[..i] + [x] + cs[i + 1..];
    CountAllConcat(cs[..i] + [cs[i]], cs[i + 1..]);
    CountAllConcat(cs[..i], [cs[i]]);
    CountAllConcat(cs[..i] + [x], cs[i + 1..]);
    CountAllConcat(cs[..i], [x]);
    CountAllSingle(cs[i]);
    CountAllSingle(x);
  }

  /** Word count after removing one child. */
  lemma CountAllRemove(cs: seq<TrieNode>, i: int)
    requires 0 <= i < |cs|
    ensures CountAll(cs[..i] + cs[i + 1..]) + CountWords(cs[i]) == CountAll(cs)
  {
    var a, b := cs[..i], cs[i + 1..];
    var tail := cs[i..];
    assert cs == a + tail;
    assert tail[1..] == b;
    assert CountAll(tail) == CountWords(cs[i]) + CountAll(b);
    CountAllConcat(a, tail);
    CountAllConcat(a, b);
  }

  /** Under `Pruned`, a node has no words below it exactly when it has no
      children. */
  lemma PrunedCountAll(m: TrieNode)
    requires Pruned(m)
    ensures CountAll(m.children) == 0 <==> |m.children| == 0
  {
    if |m.children| > 0 {
      PrunedHasWords(m.children[0]);
    }
  }

  // ---------------------------------------------------------------------
  // Insertion
  // ---------------------------------------------------------------------

  /** The new node and whether a word was added (`size++`). */
  datatype InsertOutcome = InsertOutcome(node: TrieNode, added: bool)

  /** `insert`'s loop on a lower-cased word: follow or create one child per
      character (a new child goes after the existing ones, as `Map.set` does),
      then mark the last node unless it is already marked. */
  function InsertWord(n: TrieNode, w: string): (r: InsertOutcome)
    ensures r.node.character == n.character
    ensures r.node.isEndOfWord || |r.node.children| > 0
    ensures |w| > 0 ==> r.node.isEndOfWord == n.isEndOfWord && |r.node.children| >= |n.children|
    ensures |w| == 0 ==> r.node.children == n.children
    decreases |w|
  {
    if |w| == 0 then
      if n.isEndOfWord then InsertOutcome(n, false)
      else InsertOutcome(n.(isEndOfWord := true), true)
    else
      var key := [w[0]];
      var i := IndexOf(n.children, key);
      if i < 0 then
        var sub := InsertWord(NewTrieNode(key), w[1..]);
        InsertOutcome(n.(children := n.children + [sub.node]), sub.added)
      else
        var sub := InsertWord(n.children[i], w[1..]);
        InsertOutcome(n.(children := n.children[i := sub.node]), sub.added)
  }

  /** After inserting `w`, the stored words are the old ones plus `w`. */
  lemma {:induction false} InsertStored(n: TrieNode, w: string, u: string)
    ensures Stored(InsertWord(n, w).node, u) <==> Stored(n, u) || u == w
    decreases |w|, 1
  {
    var r := InsertWord(n, w);
    if |u| == 0 || |w| == 0 {
      if |u| > 0 {
        StoredSameChild(r.node, n, u);
      }
    } else if IndexOf(n.children, [w[0]]) < 0 {
      InsertStoredNewChild(n, w, u);
    } else {
      InsertStoredOldChild(n, w, u);
    }
  }

  /** The step of `InsertStored` when `n` has no child for the first
      character of `w`: a fresh child is appended and the rest inserted
      below it. */
  lemma {:induction false} InsertStoredNewChild(n: TrieNode, w: string, u: string)
    requires |u| > 0 && |w| > 0 && IndexOf(n.children, [w[0]]) < 0
    ensures Stored(InsertWord(n, w).node, u) <==> Stored(n, u) || u == w
    decreases |w|, 0
  {
    var r := InsertWord(n, w);
    SplitFirst(u, w);
    var key, ukey := [w[0]], [u[0]];
    var cs := n.children;
    var c := NewTrieNode(key);
    var sub := InsertWord(c, w[1..]);
    assert r.node == n.(children := cs + [sub.node]);
    IndexOfAppend(cs, sub.node, ukey);
    if ukey == key {
      assert Child(r.node, ukey) == Some(sub.node);
      InsertStored(c, w[1..], u[1..]);
      LeafStoresNothing(c, u[1..]);
    } else {
      StoredSameChild(r.node, n, u);
    }
  }

  /** The step of `InsertStored` when `n` has a child for the first
      character of `w`: the rest is inserted below that child, which is
      replaced. */
  lemma {:induction false} InsertStoredOldChild(n: TrieNode, w: string, u: string)
    requires |u| > 0 && |w| > 0 && IndexOf(n.children, [w[0]]) >= 0
    ensures Stored(InsertWord(n, w).node, u) <==> Stored(n, u) || u == w
    decreases |w|, 0
  {
    var r := InsertWord(n, w);
    SplitFirst(u, w);
    var key, ukey := [w[0]], [u[0]];
    var cs := n.children;
    var i := IndexOf(cs, key);
    var sub := InsertWord(cs[i], w[1..]);
    assert r.node == n.(children := cs[i := sub.node]);
    ChildUpdate(n, i, sub.node, ukey);
    if ukey == key {
      InsertStored(cs[i], w[1..], u[1..]);
    } else {
      StoredSameChild(r.node, n, u);
    }
  }

  /** The insertion counts as new exactly when the word was not stored. */
  lemma {:induction false} InsertFresh(n: TrieNode, w: string)
    ensures InsertWord(n, w).added <==> !Stored(n, w)
    decreases |w|
  {
    if |w| > 0 {
      var key := [w[0]];
      var i := IndexOf(n.children, key);
      if i < 0 {
        InsertFresh(NewTrieNode(key), w[1..]);
        LeafStoresNothing(NewTrieNode(key), w[1..]);
      } else {
        InsertFresh(n.children[i], w[1..]);
      }
    }
  }

  /** The word count grows by one exactly when the insertion was new: what
      keeps `size` equal to the number of marked nodes. */
  lemma {:induction false} InsertCount(n: TrieNode, w: string)
    ensures CountWords(InsertWord(n, w).node) == CountWords(n) + (if InsertWord(n, w).added then 1 else 0)
    decreases |w|
  {
    if |w| > 0 {
      var key := [w[0]];
      var cs := n.children;
      var i := IndexOf(cs, key);
      if i < 0 {
        var sub := InsertWord(NewTrieNode(key), w[1..]);
        InsertCount(NewTrieNode(key), w[1..]);
        CountAllConcat(cs, [sub.node]);
        CountAllSingle(sub.node);
      } else {
        var sub := InsertWord(cs[i], w[1..]);
        InsertCount(cs[i], w[1..]);
        CountAllUpdate(cs, i, sub.node);
      }
    }
  }

  /** Inserting a lower-case word keeps every key a single lower-case
      character and keeps sibling keys distinct. */
  lemma {:induction false} InsertWellFormed(n: TrieNode, w: string)
    requires WellFormed(n) && IsLowerString(w)
    ensures WellFormed(InsertWord(n, w).node)
    decreases |w|
  {
    var r := InsertWord(n, w);
    if |w| > 0 {
      var key := [w[0]];
      var cs := n.children;
      var i := IndexOf(cs, key);
      assert IsLowerString(w[1..]) by {
        forall j | 0 <= j < |w[1..]| ensures IsLowered(w[1..][j]) {
          assert w[1..][j] == w[j + 1];
        }
      }
      if i < 0 {
        var c := NewTrieNode(key);
        var sub := InsertWord(c, w[1..]);
        InsertWellFormed(c, w[1..]);
        var ds := cs + [sub.node];
        assert r.node.children == ds;
        forall j | 0 <= j < |ds|
          ensures |ds[j].character| == 1 && IsLowered(ds[j].character[0]) && WellFormed(ds[j])
        {
          if j < |cs| { assert ds[j] == cs[j]; }
        }
      } else {
        var sub := InsertWord(cs[i], w[1..]);
        InsertWellFormed(cs[i], w[1..]);
        var ds := cs[i := sub.node];
        assert r.node.children == ds;
        forall j | 0 <= j < |ds|
          ensures |ds[j].character| == 1 && IsLowered(ds[j].character[0]) && WellFormed(ds[j])
        {
        }
      }
    }
  }

  /** Insertion never leaves a node without a word below it. */
  lemma {:induction false} InsertPruned(n: TrieNode, w: string)
    requires Pruned(n)
    ensures Pruned(InsertWord(n, w).node)
    decreases |w|
  {
    var r := InsertWord(n, w);
    if |w| > 0 {
      var key := [w[0]];
      var cs := n.children;
      var i := IndexOf(cs, key);
      if i < 0 {
        var c := NewTrieNode(key);
        var sub := InsertWord(c, w[1..]);
        InsertPruned(c, w[1..]);
        var ds := cs + [sub.node];
        assert r.node.children == ds;
        forall j | 0 <= j < |ds|
          ensures (ds[j].isEndOfWord || |ds[j].children| > 0) && Pruned(ds[j])
        {
          if j < |cs| { assert ds[j] == cs[j]; }
        }
      } else {
        var sub := InsertWord(cs[i], w[1..]);
        InsertPruned(cs[i], w[1..]);
        var ds := cs[i := sub.node];
        assert r.node.children == ds;
        forall j | 0 <= j < |ds|
          ensures (ds[j].isEndOfWord || |ds[j].children| > 0) && Pruned(ds[j])
        {
        }
      }
    }
  }

  // ---------------------------------------------------------------------
  // Deletion
  // ---------------------------------------------------------------------

  /** The new node, whether a mark was cleared (`size--`), and `_deleteWord`'s
      own result: whether the caller should drop this node. */
  datatype DeleteOutcome = DeleteOutcome(node: TrieNode, removed: bool, prune: bool)

  /** `_deleteWord` on a lower-cased word. At the end of the word: no mark
      means nothing to do; otherwise clear it and ask to be dropped when
      childless. On the way: a missing child means nothing to do; a child
      that asks to be dropped is deleted from the map, and this node then
      asks to be dropped when it is childless and unmarked. */
  function DeleteWord(n: TrieNode, w: string): (r: DeleteOutcome)
    ensures r.node.character == n.character
    ensures !r.removed ==> r.node == n && !r.prune
    ensures r.prune ==> !r.node.isEndOfWord && |r.node.children| == 0
    ensures r.removed && !r.prune ==> r.node.isEndOfWord || |r.node.children| > 0
    ensures |w| > 0 ==> r.node.isEndOfWord == n.isEndOfWord
    ensures |w| == 0 ==> r.node.children == n.children
    decreases |w|
  {
    if |w| == 0 then
      if !n.isEndOfWord then DeleteOutcome(n, false, false)
      else DeleteOutcome(n.(isEndOfWord := false), true, |n.children| == 0)
    else
      var key := [w[0]];
      var cs := n.children;
      var i := IndexOf(cs, key);
      if i < 0 then DeleteOutcome(n, false, false)
      else
        var sub := DeleteWord(cs[i], w[1..]);
        if sub.prune then
          var ds := cs[..i] + cs[i + 1..];
          DeleteOutcome(n.(children := ds), sub.removed, |ds| == 0 && !n.isEndOfWord)
        else if !sub.removed then DeleteOutcome(n, false, false)
        else DeleteOutcome(n.(children := cs[i := sub.node]), true, false)
  }

  /** A mark is cleared exactly when the word was stored. */
  lemma {:induction false} DeleteRemoved(n: TrieNode, w: string)
    ensures DeleteWord(n, w).removed <==> Stored(n, w)
    decreases |w|
  {
    if |w| > 0 {
      var i := IndexOf(n.children, [w[0]]);
      if i >= 0 {
        DeleteRemoved(n.children[i], w[1..]);
      }
    }
  }

  /** After deleting `w`, the stored words are the old ones without `w`. */
  lemma {:induction false} DeleteStored(n: TrieNode, w: string, u: string)
    requires WellFormed(n)
    ensures Stored(DeleteWord(n, w).node, u) <==> Stored(n, u) && u != w
    decreases |w|, 1
  {
    var r := DeleteWord(n, w);
    if !r.removed {
      DeleteRemoved(n, w);
    } else if |u| == 0 || |w| == 0 {
      if |u| > 0 {
        StoredSameChild(r.node, n, u);
      }
    } else {
      DeleteStoredBelow(n, w, u);
    }
  }

  /** The step of `DeleteStored` where a mark was cleared below the child
      for the first character of `w`, and `u` is not empty. */
  lemma {:induction false} DeleteStoredBelow(n: TrieNode, w: string, u: string)
    requires WellFormed(n) && |u| > 0 && |w| > 0 && DeleteWord(n, w).removed
    ensures Stored(DeleteWord(n, w).node, u) <==> Stored(n, u) && u != w
    decreases |w|, 0
  {
    var r := DeleteWord(n, w);
    SplitFirst(u, w);
    var key, ukey := [w[0]], [u[0]];
    var cs := n.children;
    var i := IndexOf(cs, key);
    var sub := DeleteWord(cs[i], w[1..]);
    if sub.prune {
      var ds := cs[..i] + cs[i + 1..];
      assert r.node == n.(children := ds);
      IndexOfRemove(cs, i, ukey);
      if ukey == key {
        assert Child(r.node, ukey).None?;
        DeleteStored(cs[i], w[1..], u[1..]);
        LeafStoresNothing(sub.node, u[1..]);
      } else {
        assert Child(r.node, ukey) == Child(n, ukey);
        StoredSameChild(r.node, n, u);
      }
    } else {
      assert r.node == n.(children := cs[i := sub.node]);
      ChildUpdate(n, i, sub.node, ukey);
      if ukey == key {
        DeleteStored(cs[i], w[1..], u[1..]);
      } else {
        StoredSameChild(r.node, n, u);
      }
    }
  }

  /** The word count drops by one exactly when a mark was cleared. */
  lemma {:induction false} DeleteCount(n: TrieNode, w: string)
    ensures CountWords(DeleteWord(n, w).node) + (if DeleteWord(n, w).removed then 1 else 0) == CountWords(n)
    decreases |w|
  {
    var r := DeleteWord(n, w);
    if r.removed && |w| > 0 {
      var cs := n.children;
      var i := IndexOf(cs, [w[0]]);
      var sub := DeleteWord(cs[i], w[1..]);
      DeleteCount(cs[i], w[1..]);
      if sub.prune {
        CountAllRemove(cs, i);
      } else {
        CountAllUpdate(cs, i, sub.node);
      }
    }
  }

  /** Deletion keeps keys single lower-case characters and distinct. */
  lemma {:induction false} DeleteWellFormed(n: TrieNode, w: string)
    requires WellFormed(n)
    ensures WellFormed(DeleteWord(n, w).node)
    decreases |w|
  {
    var r := DeleteWord(n, w);
    if r.removed && |w| > 0 {
      var cs := n.children;
      var i := IndexOf(cs, [w[0]]);
      var sub := DeleteWord(cs[i], w[1..]);
      if sub.prune {
        var ds := cs[..i] + cs[i + 1..];
        IndexOfRemove(cs, i, [w[0]]);
        assert r.node.children == ds;
        forall j | 0 <= j < |ds|
          ensures |ds[j].character| == 1 && IsLowered(ds[j].character[0]) && WellFormed(ds[j])
        {
          assert ds[j] == (if j < i then cs[j] else cs[j + 1]);
        }
      } else {
        DeleteWellFormed(cs[i], w[1..]);
        var ds := cs[i := sub.node];
        assert r.node.children == ds;
        forall j | 0 <= j < |ds|
          ensures |ds[j].character| == 1 && IsLowered(ds[j].character[0]) && WellFormed(ds[j])
        {
        }
      }
    }
  }

  /** Deletion keeps every node below the root purposeful: a node left
      unmarked and childless is dropped by its parent. */
  lemma {:induction false} DeletePruned(n: TrieNode, w: string)
    requires Pruned(n)
    ensures Pruned(DeleteWord(n, w).node)
    decreases |w|
  {
    var r := DeleteWord(n, w);
    if r.removed && |w| > 0 {
      var cs := n.children;
      var i := IndexOf(cs, [w[0]]);
      var sub := DeleteWord(cs[i], w[1..]);
      if sub.prune {
        var ds := cs[..i] + cs[i + 1..];
        assert r.node.children == ds;
        forall j | 0 <= j < |ds|
          ensures (ds[j].isEndOfWord || |ds[j].children| > 0) && Pruned(ds[j])
        {
          assert ds[j] == (if j < i then cs[j] else cs[j + 1]);
        }
      } else {
        DeletePruned(cs[i], w[1..]);
        var ds := cs[i := sub.node];
        assert r.node.children == ds;
        forall j | 0 <= j < |ds|
          ensures (ds[j].isEndOfWord || |ds[j].children| > 0) && Pruned(ds[j])
        {
        }
      }
    }
  }

  /** What `_deleteWord`'s result means on a pruned node: it asks to be
      dropped exactly when a word was removed and no word is left below
      it. */
  lemma DeletePruneMeans(n: TrieNode, w: string)
    requires Pruned(n)
    ensures DeleteWord(n, w).prune <==> DeleteWord(n, w).removed && CountWords(DeleteWord(n, w).node) == 0
  {
    var r := DeleteWord(n, w);
    DeletePruned(n, w);
    PrunedCountAll(r.node);
  }
}

=== FILE: trie_node.dfy ===
/** The trie node (TrieNode.ts) as an immutable value, with the vocabulary
    the trie operations and their proofs share: child lookup by key, the
    exact-path lookup, the words a node stores, and the shape invariants
    the trie keeps. */
module TrieNodes {
  import opened Common

  /** A node: its character (the empty string at the root), whether a word
      ends here, and its children in the insertion order of the source's
      `Map`. A child's key in that map is always its own character, so the
      key is not stored twice. */
  datatype TrieNode = TrieNode(character: string, isEndOfWord: bool, children: seq<TrieNode>)

  /** `new TrieNode(character)`, with the root's empty default. */
  function NewTrieNode(character: string := ""): (n: TrieNode)
    ensures n.character == character && !n.isEndOfWord && n.children == []
  {
    TrieNode(character, false, [])
  }

  // ---------------------------------------------------------------------
  // Characters
  // ---------------------------------------------------------------------

  /** `toLowerCase()` of one character, for the ASCII letters. */
  function Lower(c: char): (l: char)
    ensures 'A' <= c <= 'Z' ==> l as int == c as int + 32
    ensures !('A' <= c <= 'Z') ==> l == c
  {
    if 'A' <= c <= 'Z' then (c as int + 32) as char else c
  }

  /** A character `toLowerCase()` leaves alone. */
  predicate IsLowered(c: char) {
    !('A' <= c <= 'Z')
  }

  /** `toLowerCase()` of a string, character by character. */
  function LowerString(s: string): (l: string)
    ensures |l| == |s|
    ensures forall i :: 0 <= i < |s| ==> l[i] == Lower(s[i])
  {
    if |s| == 0 then [] else [Lower(s[0])] + LowerString(s[1..])
  }

  /** Every character of `s` is already lower case. */
  predicate IsLowerString(s: string) {
    forall i :: 0 <= i < |s| ==> IsLowered(s[i])
  }

  /** Lowering is idempotent, and leaves lower-case strings alone. */
  lemma LowerStringFacts(s: string)
    ensures IsLowerString(LowerString(s))
    ensures LowerString(LowerString(s)) == LowerString(s)
    ensures IsLowerString(s) ==> LowerString(s) == s
  {
  }

  // ---------------------------------------------------------------------
  // Children
  // ---------------------------------------------------------------------

  /** The characters of the children, in order: the keys of the `Map`. */
  function Keys(cs: seq<TrieNode>): (ks: seq<string>)
    ensures |ks| == |cs|
    ensures forall i :: 0 <= i < |cs| ==> ks[i] == cs[i].character
  {
    if |cs| == 0 then [] else [cs[0].character] + Keys(cs[1..])
  }

  /** No two children share a key. */
  predicate DistinctKeys(cs: seq<TrieNode>) {
    forall i, j :: 0 <= i < j < |cs| ==> cs[i].character != cs[j].character
  }

  /** Position of the child with key `key`, or -1: `children.has` and
      `children.get`. */
  function IndexOf(cs: seq<TrieNode>, key: string): (i: int)
    ensures -1 <= i < |cs|
    ensures i >= 0 ==> cs[i].character == key
    ensures i >= 0 ==> forall j :: 0 <= j < i ==> cs[j].character != key
    ensures i < 0 ==> forall j :: 0 <= j < |cs| ==> cs[j].character != key
  {
    if |cs| == 0 then -1
    else if cs[0].character == key then 0
    else
      var j := IndexOf(cs[1..], key);
      if j < 0 then -1 else j + 1
  }

  /** With distinct keys, the position of a key is the only one holding it. */
  lemma IndexOfUnique(cs: seq<TrieNode>, i: int)
    requires DistinctKeys(cs) && 0 <= i < |cs|
    ensures IndexOf(cs, cs[i].character) == i
  {
  }

  /** Lookup depends on the keys only. */
  lemma IndexOfSameKeys(cs: seq<TrieNode>, ds: seq<TrieNode>, key: string)
    requires Keys(cs) == Keys(ds)
    ensures IndexOf(cs, key) == IndexOf(ds, key)
  {
    var i, j := IndexOf(cs, key), IndexOf(ds, key);
    assert forall k :: 0 <= k < |cs| ==> cs[k].character == ds[k].character by {
      forall k | 0 <= k < |cs|
        ensures cs[k].character == ds[k].character
      {
        assert Keys(cs)[k] == Keys(ds)[k];
      }
    }
  }

  /** Appending a child with a new key: lookups of other keys are unchanged
      and the new key finds the new child. */
  lemma IndexOfAppend(cs: seq<TrieNode>, c: TrieNode, key: string)
    requires IndexOf(cs, c.character) < 0
    ensures IndexOf(cs + [c], key) == (if key == c.character then |cs| else IndexOf(cs, key))
  {
    var i := IndexOf(cs + [c], key);
    var j := IndexOf(cs, key);
    if j >= 0 {
      assert (cs + [c])[j] == cs[j];
    } else if key == c.character {
      assert (cs + [c])[|cs|] == c;
    } else {
      assert forall k :: 0 <= k < |cs| + 1 ==> (cs + [c])[k].character != key;
    }
  }

  /** Removing the child at `i` (`children.delete`): its key is gone, every
      other key finds the same child as before. */
  lemma IndexOfRemove(cs: seq<TrieNode>, i: int, key: string)
    requires DistinctKeys(cs) && 0 <= i < |cs|
    ensures var ds := cs[..i] + cs[i + 1..];
      var j := IndexOf(ds, key);
      && DistinctKeys(ds)
      && (key == cs[i].character ==> j < 0)
      && (key != cs[i].character ==>
            (j < 0 <==> IndexOf(cs, key) < 0) && (j >= 0 ==> ds[j] == cs[IndexOf(cs, key)]))
  {
    var ds := cs[..i] + cs[i + 1..];
    RemovedAt(cs, i);
    var k := IndexOf(cs, key);
    if k >= 0 && k != i {
      IndexOfUnique(ds, if k < i then k else k - 1);
    } else {
      assert forall m :: 0 <= m < |ds| ==> ds[m].character != key;
    }
  }

  /** The children after removing the one at `i`: the others, shifted
      down past `i`, with their keys still distinct. */
  lemma RemovedAt(cs: seq<TrieNode>, i: int)
    requires DistinctKeys(cs) && 0 <= i < |cs|
    ensures var ds := cs[..i] + cs[i + 1..];
      && |ds| == |cs| - 1
      && (forall m :: 0 <= m < |ds| ==> ds[m] == cs[if m < i then m else m + 1])
      && DistinctKeys(ds)
  {
    var ds := cs[..i] + cs[i + 1..];
    assert forall m :: 0 <= m < |ds| ==> ds[m] == cs[if m < i then m else m + 1];
  }

  /** The child stored under `key`, if any. */
  function Child(n: TrieNode, key: string): (r: Option<TrieNode>)
    ensures r.Some? <==> IndexOf(n.children, key) >= 0
    ensures r.Some? ==> r.value == n.children[IndexOf(n.children, key)] && r.value.character == key
  {
    var i := IndexOf(n.children, key);
    if i < 0 then None else Some(n.children[i])
  }

  // ---------------------------------------------------------------------
  // Paths and words
  // ---------------------------------------------------------------------

  /** The node reached from `n` by following the characters of `path` as
      keys, exactly (no case folding), or None when a key is missing. */
  function Find(n: TrieNode, path: string): Option<TrieNode>
    decreases |path|
  {
    if |path| == 0 then Some(n)
    else
      match Child(n, [path[0]])
      case None => None
      case Some(c) => Find(c, path[1..])
  }

  /** `w` is a word stored under `n`: its path exists and ends at a node
      marked as the end of a word. */
  predicate Stored(n: TrieNode, w: string) {
    var f := Find(n, w);
    f.Some? && f.value.isEndOfWord
  }

  /** The number of end-of-word marks at or below `n`. */
  function CountWords(n: TrieNode): nat
    decreases n, 1
  {
    (if n.isEndOfWord then 1 else 0) + CountAll(n.children)
  }

  function CountAll(cs: seq<TrieNode>): nat
    decreases cs, 0
  {
    if |cs| == 0 then 0 else CountWords(cs[0]) + CountAll(cs[1..])
  }

  lemma {:induction false} CountAllConcat(a: seq<TrieNode>, b: seq<TrieNode>)
    ensures CountAll(a + b) == CountAll(a) + CountAll(b)
  {
    if |a| == 0 {
      assert a + b == b;
    } else {
      assert (a + b)[1..] == a[1..] + b;
      CountAllConcat(a[1..], b);
    }
  }

  // ---------------------------------------------------------------------
  // Shape invariants
  // ---------------------------------------------------------------------

  /** Every key below `n` is one lower-case character, and siblings have
      distinct keys: what `insert` builds. */
  predicate WellFormed(n: TrieNode)
    decreases n, 1
  {
    WellFormedChildren(n.children)
  }

  predicate WellFormedChildren(cs: seq<TrieNode>)
    decreases cs, 0
  {
    && DistinctKeys(cs)
    && (forall i :: 0 <= i < |cs| ==> |cs[i].character| == 1 && IsLowered(cs[i].character[0]))
    && (forall i :: 0 <= i < |cs| ==> WellFormed(cs[i]))
  }

  /** Every node below `n` either ends a word or has children, so every
      subtree holds at least one word: what `_deleteWord`'s pruning keeps. */
  predicate Pruned(n: TrieNode)
    decreases n
  {
    forall i :: 0 <= i < |n.children| ==>
      && (n.children[i].isEndOfWord || |n.children[i].children| > 0)
      && Pruned(n.children[i])
  }

  /** A pruned node that ends a word or has a child stores a word. */
  lemma {:induction false} PrunedHasWords(n: TrieNode)
    requires Pruned(n) && (n.isEndOfWord || |n.children| > 0)
    ensures CountWords(n) >= 1
    decreases n
  {
    if !n.isEndOfWord {
      PrunedHasWords(n.children[0]);
      assert CountAll(n.children) >= CountWords(n.children[0]);
    }
  }
}

=== FILE: trie_words.dfy ===
/** The two depth-first collections of Trie.ts: `_collectWords`, which
    lists the words below a node, and `_collectNodes`, which lists the
    marked nodes below it, both visiting children in insertion order. The
    lemmas say which words are listed, that none is listed twice, how
    restricting the listing to a prefix relates to the node of that prefix,
    and that the two listings run in step. */
module TrieWords {
  import opened Common
  import opened TrieNodes

  // ---------------------------------------------------------------------
  // Listings
  // ---------------------------------------------------------------------

  /** `_collectWords(node, prefix, words)`: what it appends to `words`. The
      node's own word comes first, then each child's words with the child's
      key appended to the prefix. */
  function CollectWords(n: TrieNode, prefix: string): (r: seq<string>)
    ensures |r| == CountWords(n)
    ensures n.isEndOfWord ==> r[0] == prefix
    decreases n, 1
  {
    (if n.isEndOfWord then [prefix] else []) + CollectAll(n.children, prefix)
  }

  function CollectAll(cs: seq<TrieNode>, prefix: string): (r: seq<string>)
    ensures |r| == CountAll(cs)
    decreases cs, 0
  {
    if |cs| == 0 then []
    else CollectWords(cs[0], prefix + cs[0].character) + CollectAll(cs[1..], prefix)
  }

  /** `_collectNodes(node, nodes)`: the marked nodes strictly below `n`, each
      child before its own descendants. */
  function CollectNodes(n: TrieNode): (r: seq<TrieNode>)
    ensures |r| == CountAll(n.children)
    ensures forall i :: 0 <= i < |r| ==> r[i].isEndOfWord
    decreases n, 1
  {
    CollectNodesAll(n.children)
  }

  function CollectNodesAll(cs: seq<TrieNode>): (r: seq<TrieNode>)
    ensures |r| == CountAll(cs)
    ensures forall i :: 0 <= i < |r| ==> r[i].isEndOfWord
    decreases cs, 0
  {
    if |cs| == 0 then []
    else MarkedFrom(cs[0]) + CollectNodesAll(cs[1..])
  }

  /** The marked nodes at or below `n`: what `findNodesWithPrefix` gathers
      from its start node. */
  function MarkedFrom(n: TrieNode): (r: seq<TrieNode>)
    ensures |r| == CountWords(n)
    ensures forall i :: 0 <= i < |r| ==> r[i].isEndOfWord
    ensures n.isEndOfWord ==> r[0] == n
    decreases n, 2
  {
    (if n.isEndOfWord then [n] else []) + CollectNodes(n)
  }

  /** The words of `ws` that start with `p`, in their order. */
  function WithPrefix(ws: seq<string>, p: string): (r: seq<string>)
    ensures forall x :: x in r <==> x in ws && HasPrefix(x, p)
  {
    if |ws| == 0 then []
    else (if HasPrefix(ws[0], p) then [ws[0]] else []) + WithPrefix(ws[1..], p)
  }

  /** No string is listed twice. */
  predicate NoDuplicates(ws: seq<string>) {
    forall i, j :: 0 <= i < j < |ws| ==> ws[i] != ws[j]
  }

  // ---------------------------------------------------------------------
  // Sequence facts
  // ---------------------------------------------------------------------

  lemma {:induction false} WithPrefixConcat(a: seq<string>, b: seq<string>, p: string)
    ensures WithPrefix(a + b, p) == WithPrefix(a, p) + WithPrefix(b, p)
  {
    if |a| == 0 {
      assert a + b == b;
    } else {
      assert (a + b)[1..] == a[1..] + b;
      WithPrefixConcat(a[1..], b, p);
    }
  }

  lemma {:induction false} WithPrefixAll(ws: seq<string>, p: string)
    requires forall x :: x in ws ==> HasPrefix(x, p)
    ensures WithPrefix(ws, p) == ws
  {
    if |ws| > 0 {
      WithPrefixAll(ws[1..], p);
    }
  }

  lemma WithPrefixNone(ws: seq<string>, p: string)
    requires forall x :: x in ws ==> !HasPrefix(x, p)
    ensures WithPrefix(ws, p) == []
  {
  }

  lemma NoDuplicatesConcat(a: seq<string>, b: seq<string>)
    requires NoDuplicates(a) && NoDuplicates(b)
    requires forall x :: x in a ==> x !in b
    ensures NoDuplicates(a + b)
  {
    var c := a + b;
    forall i, j | 0 <= i < j < |c|
      ensures c[i] != c[j]
    {
      if i < |a| && j >= |a| {
        assert c[i] in a && c[j] == b[j - |a|];
      }
    }
  }

  /** A prefix of `p + k` is a prefix of `p`; and when `k` is one character,
      a string starting with `p + k` is the longer one. */
  lemma PrefixOfLonger(u: string, p: string, k: string)
    requires HasPrefix(u, p + k)
    ensures HasPrefix(u, p) && |u| >= |p| + |k|
    ensures |k| == 1 ==> u[|p|] == k[0]
  {
    assert u[..|p|] == (p + k)[..|p|];
    if |k| == 1 {
      assert u[|p|] == u[..|p + k|][|p|];
    }
  }

  // ---------------------------------------------------------------------
  // Which words are listed
  // ---------------------------------------------------------------------

  /** Every listed word starts with the prefix it was listed under. */
  lemma {:induction false} CollectPrefix(n: TrieNode, p: string, u: string)
    requires u in CollectWords(n, p)
    ensures HasPrefix(u, p)
    decreases n, 1
  {
    if !(n.isEndOfWord && u == p) {
      CollectAllPrefix(n.children, p, u);
    }
  }

  lemma {:induction false} CollectAllPrefix(cs: seq<TrieNode>, p: string, u: string)
    requires u in CollectAll(cs, p)
    ensures HasPrefix(u, p)
    decreases cs, 0
  {
    var a := CollectWords(cs[0], p + cs[0].character);
    if u in a {
      CollectPrefix(cs[0], p + cs[0].character, u);
      PrefixOfLonger(u, p, cs[0].character);
    } else {
      CollectAllPrefix(cs[1..], p, u);
    }
  }

  /** A word is listed under a group of children exactly when it is listed
      under one of them. */
  lemma {:induction false} CollectAllMember(cs: seq<TrieNode>, p: string, u: string)
    ensures u in CollectAll(cs, p) <==>
      exists j :: 0 <= j < |cs| && u in CollectWords(cs[j], p + cs[j].character)
  {
    if |cs| > 0 {
      CollectAllMember(cs[1..], p, u);
      if u in CollectAll(cs[1..], p) {
        var j :| 0 <= j < |cs[1..]| && u in CollectWords(cs[1..][j], p + cs[1..][j].character);
        assert cs[1..][j] == cs[j + 1];
      }
      if exists j :: 0 <= j < |cs| && u in CollectWords(cs[j], p + cs[j].character) {
        var j :| 0 <= j < |cs| && u in CollectWords(cs[j], p + cs[j].character);
        if j > 0 {
          assert cs[1..][j - 1] == cs[j];
        }
      }
    }
  }

  /** With distinct keys, a non-empty word is stored exactly when the child
      keyed by its first character stores the rest. */
  lemma StoredStep(n: TrieNode, v: string, j: int)
    requires DistinctKeys(n.children) && |v| > 0 && 0 <= j < |n.children|
    requires n.children[j].character == [v[0]]
    ensures Stored(n, v) <==> Stored(n.children[j], v[1..])
  {
    IndexOfUnique(n.children, j);
  }

  /** `_collectWords` lists exactly the stored words, each behind the
      prefix. */
  lemma {:induction false} CollectMember(n: TrieNode, p: string, u: string)
    requires WellFormed(n)
    ensures u in CollectWords(n, p) <==> HasPrefix(u, p) && Stored(n, u[|p|..])
    decreases n
  {
    var cs := n.children;
    CollectAllMember(cs, p, u);
    if u in CollectWords(n, p) {
      if !(n.isEndOfWord && u == p) {
        var j :| 0 <= j < |cs| && u in CollectWords(cs[j], p + cs[j].character);
        CollectMember(cs[j], p + cs[j].character, u);
        PrefixOfLonger(u, p, cs[j].character);
        var v := u[|p|..];
        assert v[0] == u[|p|] && v[1..] == u[|p + cs[j].character|..];
        StoredStep(n, v, j);
      }
    }
    if HasPrefix(u, p) && Stored(n, u[|p|..]) {
      var v := u[|p|..];
      if |v| == 0 {
        assert u == p;
      } else {
        var j := IndexOf(cs, [v[0]]);
        StoredStep(n, v, j);
        var k := cs[j].character;
        assert u[..|p + k|] == p + k;
        assert v[1..] == u[|p + k|..];
        CollectMember(cs[j], p + k, u);
      }
    }
  }

  /** `_collectWords` lists no word twice. */
  lemma {:induction false} CollectDistinct(n: TrieNode, p: string)
    requires WellFormed(n)
    ensures NoDuplicates(CollectWords(n, p))
    decreases n, 1
  {
    CollectAllDistinct(n.children, p);
    var own := if n.isEndOfWord then [p] else [];
    forall x | x in own
      ensures x !in CollectAll(n.children, p)
    {
      if x in CollectAll(n.children, p) {
        CollectAllLonger(n.children, p, x);
      }
    }
    NoDuplicatesConcat(own, CollectAll(n.children, p));
  }

  /** Words listed under a group of single-character children are longer
      than the prefix. */
  lemma CollectAllLonger(cs: seq<TrieNode>, p: string, u: string)
    requires WellFormedChildren(cs)
    requires u in CollectAll(cs, p)
    ensures |u| > |p|
  {
    CollectAllMember(cs, p, u);
    var j :| 0 <= j < |cs| && u in CollectWords(cs[j], p + cs[j].character);
    CollectPrefix(cs[j], p + cs[j].character, u);
    PrefixOfLonger(u, p, cs[j].character);
  }

  lemma {:induction false} CollectAllDistinct(cs: seq<TrieNode>, p: string)
    requires WellFormedChildren(cs)
    ensures NoDuplicates(CollectAll(cs, p))
    decreases cs, 0
  {
    if |cs| > 0 {
      var k := cs[0].character;
      var a := CollectWords(cs[0], p + k);
      var rest := cs[1..];
      assert WellFormedChildren(rest) by {
        assert forall j :: 0 <= j < |rest| ==> rest[j] == cs[j + 1];
      }
      CollectDistinct(cs[0], p + k);
      CollectAllDistinct(rest, p);
      forall x | x in a
        ensures x !in CollectAll(rest, p)
      {
        FirstChildApart(cs, p, x);
      }
      NoDuplicatesConcat(a, CollectAll(rest, p));
    }
  }

  /** A word listed under the first child is not listed under the later
      children: the two continue the prefix with different characters. */
  lemma FirstChildApart(cs: seq<TrieNode>, p: string, x: string)
    requires WellFormedChildren(cs) && |cs| > 0
    requires x in CollectWords(cs[0], p + cs[0].character)
    ensures x !in CollectAll(cs[1..], p)
  {
    var rest := cs[1..];
    CollectPrefix(cs[0], p + cs[0].character, x);
    PrefixOfLonger(x, p, cs[0].character);
    CollectAllMember(rest, p, x);
    FirstKeyApart(cs);
    if x in CollectAll(rest, p) {
      var j :| 0 <= j < |rest| && x in CollectWords(rest[j], p + rest[j].character);
      assert rest[j] == cs[j + 1];
      CollectPrefix(rest[j], p + rest[j].character, x);
      PrefixOfLonger(x, p, rest[j].character);
      assert false;
    }
  }

  /** The first child's key character differs from every later child's. */
  lemma FirstKeyApart(cs: seq<TrieNode>)
    requires WellFormedChildren(cs) && |cs| > 0
    ensures forall j :: 1 <= j < |cs| ==> cs[0].character[0] != cs[j].character[0]
  {
    forall j | 1 <= j < |cs|
      ensures cs[0].character[0] != cs[j].character[0]
    {
      assert cs[0].character != cs[j].character;
      assert |cs[0].character| == 1 && |cs[j].character| == 1;
    }
  }

  // ---------------------------------------------------------------------
  // Restricting to a prefix
  // ---------------------------------------------------------------------

  /** Keeping the listed words that start with `q + p` gives exactly the
      listing of the node at path `p`, in the same order, or nothing when
      that path is missing: the whole-trie listing filtered by a prefix is
      the prefix node's listing. */
  lemma {:induction false} PrefixListing(n: TrieNode, q: string, p: string)
    requires WellFormed(n)
    ensures WithPrefix(CollectWords(n, q), q + p) ==
      (match Find(n, p) case None => [] case Some(m) => CollectWords(m, q + p))
    decreases n, 1
  {
    var own := if n.isEndOfWord then [q] else [];
    if |p| == 0 {
      assert q + p == q;
      forall x | x in CollectWords(n, q) ensures HasPrefix(x, q) {
        CollectPrefix(n, q, x);
      }
      WithPrefixAll(CollectWords(n, q), q);
    } else {
      WithPrefixConcat(own, CollectAll(n.children, q), q + p);
      assert WithPrefix(own, q + p) == [];
      PrefixListingAll(n.children, q, p);
      var i := IndexOf(n.children, [p[0]]);
      if i >= 0 {
        var c := n.children[i];
        assert q + p == (q + c.character) + p[1..];
        PrefixListing(c, q + c.character, p[1..]);
      }
    }
  }

  lemma {:induction false} PrefixListingAll(cs: seq<TrieNode>, q: string, p: string)
    requires WellFormedChildren(cs) && |p| > 0
    ensures var i := IndexOf(cs, [p[0]]);
      WithPrefix(CollectAll(cs, q), q + p) ==
        (if i < 0 then [] else WithPrefix(CollectWords(cs[i], q + cs[i].character), q + p))
    decreases cs, 0
  {
    if |cs| > 0 {
      var k := cs[0].character;
      var a := CollectWords(cs[0], q + k);
      var rest := cs[1..];
      assert WellFormedChildren(rest) by {
        assert forall j :: 0 <= j < |rest| ==> rest[j] == cs[j + 1];
      }
      WithPrefixConcat(a, CollectAll(rest, q), q + p);
      PrefixListingAll(rest, q, p);
      if k == [p[0]] {
        assert IndexOf(rest, [p[0]]) < 0 by {
          assert forall j :: 0 <= j < |rest| ==> rest[j] == cs[j + 1];
        }
      } else {
        OtherChildMisses(cs[0], q, p);
      }
    }
  }

  /** A child keyed by a character other than the first of `p` lists no
      word starting with `q + p`. */
  lemma OtherChildMisses(c: TrieNode, q: string, p: string)
    requires |c.character| == 1 && |p| > 0 && c.character != [p[0]]
    ensures WithPrefix(CollectWords(c, q + c.character), q + p) == []
  {
    var k := c.character;
    var a := CollectWords(c, q + k);
    forall x | x in a ensures !HasPrefix(x, q + p) {
      CollectPrefix(c, q + k, x);
      PrefixOfLonger(x, q, k);
      if HasPrefix(x, q + p) {
        assert p == p[..1] + p[1..];
        PrefixOfLonger(x, q, p[..1] + p[1..]);
        assert false;
      }
    }
    WithPrefixNone(a, q + p);
  }

  // ---------------------------------------------------------------------
  // The node listing runs in step with the word listing
  // ---------------------------------------------------------------------

  /** `ns[i]` is the node at the end of word `ws[i]`, read from `n` after the
      prefix `q`. */
  predicate InStep(ws: seq<string>, ns: seq<TrieNode>, n: TrieNode, q: string) {
    && |ws| == |ns|
    && forall i :: 0 <= i < |ws| ==>
         HasPrefix(ws[i], q) && Find(n, ws[i][|q|..]) == Some(ns[i])
  }

  lemma InStepConcat(w1: seq<string>, n1: seq<TrieNode>, w2: seq<string>, n2: seq<TrieNode>, n: TrieNode, q: string)
    requires InStep(w1, n1, n, q) && InStep(w2, n2, n, q)
    ensures InStep(w1 + w2, n1 + n2, n, q)
  {
    forall i | 0 <= i < |w1 + w2|
      ensures HasPrefix((w1 + w2)[i], q) && Find(n, (w1 + w2)[i][|q|..]) == Some((n1 + n2)[i])
    {
      if i >= |w1| {
        assert (w1 + w2)[i] == w2[i - |w1|] && (n1 + n2)[i] == n2[i - |w1|];
      }
    }
  }

  /** A child's pairing, read one key further down, is a pairing of its
      parent. */
  lemma InStepLift(ws: seq<string>, ns: seq<TrieNode>, n: TrieNode, j: int, q: string)
    requires DistinctKeys(n.children) && 0 <= j < |n.children|
    requires |n.children[j].character| == 1
    requires InStep(ws, ns, n.children[j], q + n.children[j].character)
    ensures InStep(ws, ns, n, q)
  {
    var c := n.children[j];
    IndexOfUnique(n.children, j);
    forall i | 0 <= i < |ws|
      ensures HasPrefix(ws[i], q) && Find(n, ws[i][|q|..]) == Some(ns[i])
    {
      var u := ws[i];
      PrefixOfLonger(u, q, c.character);
      var v := u[|q|..];
      assert c.character == [v[0]];
      assert v[1..] == u[|q + c.character|..];
    }
  }

  /** The i-th marked node `findNodesWithPrefix` gathers below a node is the
      node of the i-th word `_collectWords` lists below it. */
  lemma {:induction false} CollectInStep(n: TrieNode, q: string)
    requires WellFormed(n)
    ensures InStep(CollectWords(n, q), MarkedFrom(n), n, q)
    decreases n, 1
  {
    var own := if n.isEndOfWord then [q] else [];
    var ownNodes := if n.isEndOfWord then [n] else [];
    assert q[|q|..] == [];
    assert InStep(own, ownNodes, n, q);
    CollectAllInStep(n, 0, q);
    assert n.children[0..] == n.children;
    InStepConcat(own, ownNodes, CollectAll(n.children, q), CollectNodesAll(n.children), n, q);
  }

  lemma {:induction false} CollectAllInStep(n: TrieNode, k: int, q: string)
    requires WellFormed(n) && 0 <= k <= |n.children|
    ensures InStep(CollectAll(n.children[k..], q), CollectNodesAll(n.children[k..]), n, q)
    decreases n, 0, |n.children| - k
  {
    var cs := n.children[k..];
    if |cs| > 0 {
      var c := n.children[k];
      assert cs[0] == c && cs[1..] == n.children[k + 1..];
      CollectInStep(c, q + c.character);
      InStepLift(CollectWords(c, q + c.character), MarkedFrom(c), n, k, q);
      CollectAllInStep(n, k + 1, q);
      InStepConcat(CollectWords(c, q + c.character), MarkedFrom(c),
        CollectAll(n.children[k + 1..], q), CollectNodesAll(n.children[k + 1..]), n, q);
    }
  }

  /** Every gathered node is marked. */
  lemma MarkedFromMarked(n: TrieNode, x: TrieNode)
    requires WellFormed(n) && x in MarkedFrom(n)
    ensures x.isEndOfWord
  {
    CollectInStep(n, "");
    var i :| 0 <= i < |MarkedFrom(n)| && MarkedFrom(n)[i] == x;
    var u := CollectWords(n, "")[i];
    CollectMember(n, "", u);
  }
}
